=== FILE: README.md ===
# HR Management System: a Dafny model

This project models the HR Management System, an employee portal. Employees keep
a profile, request leave, submit performance feedback and record document
metadata. The portal has two halves.

**The back end** is a set of Python Lambda handlers behind an API gateway:
- `get_profile` / `update_profile`;
- `submit_leave` / `get_leaves`;
- `submit_feedback` / `get_feedback`;
- `upload_document` / `get_documents`;
- the Cognito account handlers `register_user`, `login_user`, `confirm_signup` and `resend_code`.

Every data handler first works out which user it acts for with `get_user_id_from_event`. That helper exists in two versions:
- The root `common_utils.py` takes the first place that is *present*: the authorizer claims, then the query string, then the body.
- The packaged copies take the first value that is *truthy*: the claims, then the body, then the query string.

Each handler is modelled as a pure function from the event to the response. Where it writes, it also returns the table after the call. The helper version is a parameter (`Identity.Variant`), since the deployment does not fix which copy a handler is packaged with. What the model takes as inputs or abstractions:
- The key-value store is abstract (`Dynamo`). Its behaviour is reduced to typed attribute maps, whole-item puts and per-user queries.
- The uuids a handler draws are inputs.
- A store failure is an input.
- The outcome of an identity-provider call is an input.
- `json.loads` is an abstract decoder.

**The front ends** are three single-page React clients:
- `frontend/src/App.js`: REST, with account verification and a password rule (`CognitoPortal`);
- `frontend.js`: the earlier REST page (`RestPortal`);
- `Others/sample_frontend.js`: a Firestore-backed page (`FirebasePortal`).

Each event handler is a function from the page state *before* the handler, which is what its closures read, to the state after it. It also returns the requests or store writes it issued, in order. The awaited answers are inputs: a `Reply` for `fetch` and an `Outcome` for a Firebase call.

What the pages share lives in `Ui` and `RestClient`:
- JavaScript truthiness, property reads and `x || fallback`;
- the request bodies;
- the identity gate on every submit handler;
- the password rule;
- the latest-first sorting of fetched lists (`Sorting`);
- the four-source data fetch.

`EndToEnd` relates what a REST page sends to what the back end stores, and follows each account form through its handler and back to the page: which answers sign the user in or move the form on, and which message the page then shows.

One behaviour of the back end deserves a note. `upload_document` stores the size as a DynamoDB number, so any number text is accepted, `"1.5"` included. The store keeps a number in its normal form: an integral value such as `"1.0"` or `"1e3"` comes back as `"1"` or `"1000"` (`Decimal.StoredNumber`), while a value with a fractional part keeps it. `get_documents` reads the size back with `int()`, which refuses a fractional text. From then on, as long as the item stays in that user's partition, every listing of that user's documents answers 500, with that item's `int()` error when no earlier item of the page fails first (`DocumentManager.FractionalSizeBreaksListing`).

## Model

| member | source | states |
|---|---|---|
| Json.PyGet | common_utils.py:41 | `d.get(k)` is the stored value, or `None` exactly when the key is absent |
| Json.PyGetOr | backend/leave_manager.py:18-20 | `d.get(k, default)` is the stored value, or the default exactly when the key is absent |
| Json.PyCheckedIndex | common_utils.py:40 | `k in c` then `c[k]`: `Found` holds the value on an object, `Missing` when the key is absent; only an object can yield a value |
| Json.JsProp | frontend/src/App.js:88 | a JavaScript property read gives the field of an object, and `undefined` for anything else |
| Decimal.DigitChar | backend/document_manager.py:47 | each digit maps to the character whose code is that digit above `'0'` |
| Decimal.ShowNat | backend/document_manager.py:47 | `str(n)` is non-empty, all digits, and has no leading zero |
| Decimal.ShowInt | backend/document_manager.py:47 | `str(i)` is non-empty and starts with `-` exactly for negatives |
| Decimal.DigitsValue | backend/document_manager.py:79 | reading a run of digits gives a value only for a non-empty text |
| Decimal.ParseInt | backend/document_manager.py:79 | `int(text)` rejects the empty text |
| Decimal.DigitsOfShowNat | auth_lambda_package_document_manager/document_manager.py:79 | the digits of a natural number read back as that number (proved by induction) |
| Decimal.ParseShowInt | auth_lambda_package_document_manager/document_manager.py:47 | `int(str(i)) == i` for every integer |
| Decimal.ShowIntInjective | auth_lambda_package_document_manager/document_manager.py:47 | distinct integers never share a decimal text |
| Decimal.IntegerTextIsNumberText | backend/document_manager.py:47 | every text `int()` reads is a number text the store accepts |
| Decimal.StoredNumber | backend/document_manager.py:47 | the store keeps an integral number as the decimal text of its value and any other number as sent |
| Decimal.ParsedIsIntegral | backend/document_manager.py:79 | a text `int()` reads denotes an integral number with the value `int()` gives |
| Decimal.StoredNumberReadsBack | backend/document_manager.py:47-79 | `int()` reads the stored text of a number exactly when the number is integral, and then reads its value |
| Decimal.TrailingZeroFolded | backend/document_manager.py:47 | `"1.0"` is a number text the store keeps as `"1"` |
| Decimal.ExponentFolded | backend/document_manager.py:47 | `"1e3"` is a number text the store keeps as `"1000"` |
| Decimal.FractionKept | backend/document_manager.py:47-79 | `"1.5"` is a non-integral number text the store keeps as sent, and `int()` refuses it |
| Sorting.Insert | frontend/src/App.js:101 | inserting into a latest-first list keeps it ordered and adds exactly that element |
| Sorting.SortDescending | frontend/src/App.js:114 | the result is a permutation of the input ordered by non-increasing key |
| Gateway.GetResponse | common_utils.py:21-32 | the status passes through, the body is kept, and the headers are the same four entries on every call |
| Gateway.HeadersFixed | auth_lambda_package_feedback_manager/common_utils.py:21-32 | any two responses carry identical headers and their own status codes |
| Gateway.ServerError | backend/profile_manager.py:23-25 | an exception gives status 500 with `'Internal server error: ' + str(e)` |
| Gateway.LoadBody | backend/profile_manager.py:34 | `json.loads(event['body'])` raises `KeyError('body')` without a body and a type error on a non-string body |
| Gateway.Require | backend/leave_manager.py:15-17 | `body[key]` is the value when present and `KeyError(key)` when absent |
| Gateway.GetOr | Others/leave_manager.py:18-20 | `body.get(key, default)` on an object body, an error on any other decoded value |
| Identity.ResolvePackaged | auth_lambda_package_leave_manager/common_utils.py:41-61 | the packaged helper returns `None` or a truthy id, never an empty one |
| Identity.FirstTruthy | auth_lambda_package_leave_manager/common_utils.py:55-61 | the reference for the packaged helper: the first truthy candidate, else `None` |
| Identity.RootIsFirstPresent | common_utils.py:40-50 | whenever the root helper returns, it returns the first present candidate of claims, query string and body |
| Identity.PackagedIsFirstTruthy | auth_lambda_package_feedback_manager/common_utils.py:41-61 | whenever the packaged helper returns, it returns the first truthy candidate of claims `sub`, body and query string |
| Identity.FirstPresentOfThree | common_utils.py:42-43 | the first present of three candidates, case by case |
| Identity.FirstTruthyOfThree | auth_lambda_package_feedback_manager/common_utils.py:55-58 | the first truthy of three candidates, case by case |
| Identity.RootClaimsDecide | common_utils.py:40-41 | with claims present, the result is `claims.get('sub')`, even `None`, whatever the query string and body hold |
| Identity.RootQueryBeforeBody | common_utils.py:42-43 | with no claims, a `userId` key in the query string wins, whatever the body holds |
| Identity.RootBodyFallback | common_utils.py:44-47 | otherwise the decoded body's `userId` (possibly `None`) is returned |
| Identity.RootDecodeErrorSwallowed | common_utils.py:48-50 | a body that fails to decode gives `None` |
| Identity.RootRaisesOnNullFields | common_utils.py:42-46 | a `null` query-string map or a `null` body raises instead of returning |
| Identity.PackagedTruthySubWins | auth_lambda_package_feedback_manager/common_utils.py:41-44 | a truthy claims `sub` wins over body and query string |
| Identity.PackagedFallsToBody | auth_lambda_package_leave_manager/common_utils.py:41-53 | without a truthy `sub`, a truthy body `userId` wins over the query string |
| Identity.PackagedDecodeErrorSwallowed | auth_lambda_package_leave_manager/common_utils.py:46-53 | an undecodable body is skipped as if it were absent |
| Identity.PackagedQueryLast | auth_lambda_package_leave_manager/common_utils.py:55-58 | the query string is used last, only when its map is non-empty and its value truthy |
| Identity.PackagedNothingFound | auth_lambda_package_feedback_manager/common_utils.py:60-61 | with nothing found, the result is `None` |
| Identity.VariantsAgreeOnTruthySub | auth_lambda_package_feedback_manager/common_utils.py:41-44 | both helpers return a truthy claims `sub` |
| Identity.VariantsDiverge | common_utils.py:40-47 | concrete events on which the two helpers return different ids |
| Dynamo.Put | backend/leave_manager.py:23-35 | `put_item` replaces the item at (user, sort key) and leaves every other partition unchanged |
| Dynamo.StringAttr | backend/profile_manager.py:45-54 | an `{'S': v}` parameter is accepted exactly when `v` is a string |
| Dynamo.UnwrapStrings | backend/profile_manager.py:19 | `{k: v['S'] ...}` succeeds exactly on string-only items, keeps the keys and yields each string; otherwise `KeyError('S')` |
| Dynamo.WrapStrings | backend/profile_manager.py:45-54 | marshalling a record of strings gives a string-only item with the same keys |
| Dynamo.UnwrapWrap | profile_manager.py:16-20 | unmarshalling a marshalled record of strings gives it back |
| Dynamo.UnwrapAll | backend/leave_manager.py:54-58 | every item of a page unwraps, in order, exactly when all are string-only |
| Dynamo.QueryAnswerAfterPut | Others/leave_manager.py:49-53 | a query after a put returns the item put |
| Dynamo.QueryAnswerOfEmpty | Others/feedback_manager.py:40-45 | a query of an empty partition returns nothing |
| Dynamo.UnwrapAllContains | Others/feedback_manager.py:46-48 | every page item appears, unwrapped, in the listing |
| ProfileManager.GetProfile | backend/profile_manager.py:5-25 | 401 exactly when the user id is falsy, with no store access; a store failure gives 500 with the fixed prefix; only 200/401/500 occur |
| ProfileManager.SaveRequest | profile_manager.py:36-54 | the item a save stores is keyed by the resolved id |
| ProfileManager.SaveRequestCases | backend/profile_manager.py:34-54 | the request part yields nothing to store exactly when a field is missing or falsy, yields an item whenever the id and the four fields are non-empty strings, and any item it yields holds exactly those fields |
| ProfileManager.UpdateProfile | backend/profile_manager.py:27-59 | 401 exactly when the user id is falsy; 400 'Missing required profile fields.' iff a field is missing or falsy, with no write; a truthy string id, four non-empty string fields and no store fault give exactly the 200 'Profile updated successfully.'; a store fault on a complete body gives 500; 200 replaces the whole item with the five string attributes; any non-200 writes nothing |
| ProfileManager.UpdateThenGet | backend/profile_manager.py:16-20 | update followed by get for the same caller returns the saved four fields and the user id |
| ProfileManager.UnwrapProfileItem | profile_manager.py:45-53 | a stored profile item unwraps to its five strings |
| ProfileManager.ReadStoredProfile | profile_manager.py:16-20 | an existing item is returned with each attribute's `'S'` value |
| ProfileManager.NoStoreAccessWhenUnauthorized | profile_manager.py:7-9 | without a user id, both handlers answer 401 whatever the table and store failure |
| ProfileManager.AbsentProfile | backend/profile_manager.py:21-22 | an absent item gives 200, `profile: {}` and 'Profile not found.' |
| Records.ListStringRecords | Others/feedback_manager.py:33-52 | a list handler answers 401 exactly when the user id is falsy, 500 with the prefix, or 200 with one unwrapped record per page item, and 200 whenever all items are string-only |
| Records.ListAfterPut | Others/leave_manager.py:54-58 | after a put into a string-only partition, listing succeeds and includes the new item |
| Records.ListOfStringPage | backend/leave_manager.py:54-58 | a string-only page lists as exactly its unwrapped items |
| Records.PageOfStringPartition | Others/leave_manager.py:49-57 | a query of a string-only partition returns string-only items |
| Records.ListOfEmptyPartition | Others/feedback_manager.py:45-49 | a user with nothing stored gets an empty list |
| Records.PutKeepsStringPartition | Others/feedback_manager.py:18-26 | putting a string-only item keeps the partition string-only |
| Records.TextOr | Others/feedback_manager.py:16 | `body.get(k, d)` as text: the default when the key is absent, the string when it holds one |
| LeaveManager.LeaveItem | backend/leave_manager.py:23-35 | a leave item has exactly eight string attributes |
| LeaveManager.LeaveRequest | Others/leave_manager.py:13-20 | the item is built exactly for a usable body; `leaveType`, `startDate`, `endDate` are required in that order, the first absent one raising `KeyError` |
| LeaveManager.SubmitLeave | backend/leave_manager.py:6-40 | 401 exactly when the user id is falsy; 200 puts the item under (user, fresh leaveId) and echoes the leaveId; an undecodable body or a failing body read or item check gives 500 with that error; the first of `leaveType`, `startDate`, `endDate` missing gives 500 `KeyError` for it; any non-200 writes nothing |
| LeaveManager.GetLeaves | Others/leave_manager.py:42-61 | 401 exactly when the user id is falsy; the listing is `{'leaves': [...]}` with one unwrapped record per stored item |
| LeaveManager.LeaveDefaults | backend/leave_manager.py:18-20 | absent reason, status and submittedAt are stored as '', 'Pending', '' |
| LeaveManager.ClientChosenStatusAndDates | Others/leave_manager.py:16-19 | the stored status and dates are whatever the body says, with no date-order check |
| LeaveManager.SubmitThenList | Others/leave_manager.py:25-34 | an accepted request shows up, unwrapped, in the caller's next listing |
| FeedbackManager.FeedbackItem | Others/feedback_manager.py:18-26 | a feedback item has exactly four string attributes |
| FeedbackManager.FeedbackRequest | Others/feedback_manager.py:13-16 | the item is built exactly for a usable body; a missing `feedback` raises `KeyError` |
| FeedbackManager.SubmitFeedback | Others/feedback_manager.py:6-31 | 401 exactly when the user id is falsy; 200 puts the item under (user, fresh feedbackId) and echoes it; an undecodable body or a failing body read or item check gives 500 with that error, a missing `feedback` the `KeyError`; any non-200 writes nothing |
| FeedbackManager.GetFeedback | Others/feedback_manager.py:33-49 | 401 exactly when the user id is falsy; the listing is `{'feedback': [...]}` with one unwrapped record per stored item |
| FeedbackManager.TimestampDefault | Others/feedback_manager.py:16 | an absent timestamp is stored as '' |
| FeedbackManager.SubmitThenList | Others/feedback_manager.py:40-49 | accepted feedback shows up, unwrapped, in the caller's next listing |
| DocumentManager.ObjectKey | backend/document_manager.py:27 | the object key starts with the caller's id and `/`, followed by uuid `-` file name |
| DocumentManager.DownloadUrl | backend/document_manager.py:51 | the link is an `https://` address ending with the object key |
| DocumentManager.SizeNumber | backend/document_manager.py:47 | the size is accepted exactly as an integer or as a number text (sign, digits, fraction, exponent); an integer is stored as its decimal text, a text in the store's normal form; every integer text is accepted |
| DocumentManager.SizeNumberParses | backend/document_manager.py:79 | an accepted size reads back with `int` exactly when it is an integer or a number text with an integral value; it reads back as that value |
| DocumentManager.DocumentItem | auth_lambda_package_document_manager/document_manager.py:40-53 | a document item has nine attributes, the size as the only number |
| DocumentManager.DocumentRequest | backend/document_manager.py:14-53 | the item is built exactly for a usable body; the first of `fileName`, `fileType`, `fileSize`, `uploadDate` missing gives `KeyError` for it |
| DocumentManager.UploadDocument | backend/document_manager.py:7-58 | 401 exactly when the user id is falsy; 200 puts the item under (user, fresh documentId) and answers with that documentId and the generated key; an undecodable body or a failing body read or item check gives 500 with that error, and any missing required field gives 500; any non-200 writes nothing |
| DocumentManager.ReadS | auth_lambda_package_document_manager/document_manager.py:75-78 | `item[k]['S']` is the string, or `KeyError` when the attribute is absent |
| DocumentManager.ReadInt | auth_lambda_package_document_manager/document_manager.py:79 | `int(item[k]['N'])` succeeds exactly on a numeral, with its value |
| DocumentManager.DocumentRecord | backend/document_manager.py:74-84 | a record is read exactly from an item with all nine attributes of the right kinds |
| DocumentManager.DocumentRecordShape | auth_lambda_package_document_manager/document_manager.py:74-84 | a record has exactly the nine fields, the size as an integer and the rest as stored strings |
| DocumentManager.DocumentRecords | backend/document_manager.py:72-85 | every page item yields its record, in order, or the listing fails |
| DocumentManager.GetDocuments | backend/document_manager.py:60-89 | 401 exactly when the user id is falsy; 200 answers `{'documents': [...]}`, and does so whenever every item is well-formed |
| DocumentManager.SizeValue | auth_lambda_package_document_manager/document_manager.py:47 | the integer an integer size denotes is what its stored text parses to |
| DocumentManager.DocumentItemRecord | backend/document_manager.py:74-84 | the record of a stored item gives back each written attribute and the size read with `int()`, or the `int()` error when the size text is not an integer |
| DocumentManager.ReadBackDocument | auth_lambda_package_document_manager/document_manager.py:40-53 | reading back a stored upload gives its metadata, the generated key and link, and the size as the integer it denotes; a size with a fractional part fails the read with the `int()` error on the sent text |
| DocumentManager.KeysScopedByCaller | auth_lambda_package_document_manager/document_manager.py:27 | callers with different ids free of `/` never share an object key |
| DocumentManager.ClientKeyIgnored | auth_lambda_package_document_manager/document_manager.py:16-19 | a client-sent `s3Key` or `downloadUrl` does not change what is stored |
| DocumentManager.UploadThenList | auth_lambda_package_document_manager/document_manager.py:60-86 | an accepted upload shows up in the caller's next listing |
| DocumentManager.FractionalSizeAccepted | backend/document_manager.py:16-19 | a body with size `"1.5"` passes every check of the upload, yet its size is not integral |
| DocumentManager.FoldedSizesReadBack | backend/document_manager.py:47-79 | sizes sent as `"1.0"` and `"1e3"` read back as 1 and 1000 |
| DocumentManager.FractionalSizeBreaksListing | backend/document_manager.py:40-89 | an upload whose size has a fractional part is answered 200; any later listing by the same caller, of any table that still holds the item, answers 500; the item's record fails with the `int()` error, and the answer is `ServerError(BadInteger(text))` when every earlier item of the page reads |
| DocumentManager.DocumentRecordsFirstFailure | backend/document_manager.py:74-89 | a listing fails with the error of the first unreadable item of the page |
| DocumentManager.UploadHoldsItem | backend/document_manager.py:40-53 | the table right after an accepted upload holds the uploaded item under the caller and the documentId |
| AuthHandler.RequireAll | auth_lambda_package_auth_handler/auth_handler.py:82-84 | the fields are read in order; the first absent key raises `KeyError` naming it |
| AuthHandler.ReadTexts | Others/auth_handler.py:38-41 | the handler's fields are read exactly when all are present strings |
| AuthHandler.Register | Others/auth_handler.py:5-34 | on a well-formed body: 200 iff the sign-up returned; UsernameExists and InvalidPassword give their 400 messages; 500 iff any other error was raised, with the error's text; a malformed body gives 500 |
| AuthHandler.Login | auth_lambda_package_auth_handler/auth_handler.py:36-77 | 200 only with both tokens and `userId` equal to the submitted email; NotAuthorized and UserNotFound give their own 401 messages; 500 iff the reply lacks `AuthenticationResult` or any other error was raised, with the error's text |
| AuthHandler.ConfirmSignup | auth_lambda_package_auth_handler/auth_handler.py:79-104 | 200 iff confirmed; UserNotFound, CodeMismatch, ExpiredCode and NotAuthorized each give 400 with their own message; 500 iff any other error was raised, with the error's text |
| AuthHandler.ResendCode | auth_lambda_package_auth_handler/auth_handler.py:106-125 | 200 iff resent; UserNotFound and LimitExceeded give 400; 500 iff any other error was raised, with the error's text |
| AuthHandler.MalformedBodyMakesNoCall | auth_lambda_package_auth_handler/auth_handler.py:8-10 | a body without the fields gives the same answer whatever the provider would have done |
| AuthHandler.RefusalsDistinguishable | Others/auth_handler.py:71-74 | the two 401 answers differ, and so do the four confirm refusals |
| Ui.ShowModal | frontend/src/App.js:50-54 | `showModal` opens the modal with the given message and kind |
| Ui.ReadProp | frontend/src/App.js:88 | `v.k` throws exactly on `null`, gives the field on an object and `undefined` elsewhere |
| Ui.MessageOr | frontend/src/App.js:347 | `data.message \|\| fallback` is the message when it is a non-empty string, the fallback when absent, and throws on `null` |
| Ui.DateOrder | frontend/src/App.js:101 | the sort key of an item is the date of its field |
| Ui.SortByDate | frontend/src/App.js:127 | the sorted list is a permutation of the input, latest first |
| Ui.ListFrom | frontend.js:86 | a missing or falsy list gives `[]`; an array gives a latest-first permutation of itself; a truthy non-array, `null` data, or a list of two or more items holding `null` throws |
| Ui.ContainsMeansSomePosition | frontend/src/App.js:187 | a regular-expression class test holds iff some position holds such a character (proved by induction) |
| Ui.PasswordPolicyByPositions | frontend/src/App.js:187 | the rule accepts iff the password has at least 8 characters and a digit, a lower-case, an upper-case and one of `!@#$%^&*()` |
| Ui.PasswordPolicyAccepts | frontend/src/App.js:187 | a password with every class passes |
| Ui.PasswordPolicyRejects | frontend/src/App.js:187-191 | a password missing a class or shorter than 8 fails |
| Ui.LeaveFields | frontend/src/App.js:362-370 | a new leave request has its form fields, status 'Pending' and the current time |
| Ui.FeedbackFields | frontend/src/App.js:404-408 | a new feedback entry carries the text and the current time |
| Ui.DocumentFields | frontend/src/App.js:454-459 | document metadata carries the picked file's name and size |
| RestClient.Outcome | frontend/src/App.js:382-394 | the modal after a send: success iff the answer was ok; a non-ok answer shows the prefix and the backend's own non-empty `message`, or the prefix and the status text when there is none; a non-ok `null` answer and a throw show the network text with the exception's message |
| RestClient.Send | frontend/src/App.js:326-353 | a request goes out iff the user id is truthy; otherwise the log-in message shows |
| RestClient.Spread | frontend.js:219 | `...v` copies an object's fields and nothing from `null` |
| RestClient.ProfileBody | frontend/src/App.js:333 | `{ userId, ...profile }` has `userId` and the profile's keys |
| RestClient.ProfileFieldsWin | frontend.js:219 | a profile's own `userId` field overrides the page's, since it is spread last |
| RestClient.EditProfile | frontend/src/App.js:784 | `{ ...profile, field: value }` changes only that field |
| RestClient.LeaveBody | frontend.js:240-248 | the leave body has `userId` and the leave fields, with status 'Pending' |
| RestClient.FeedbackBody | frontend.js:281-285 | the feedback body has exactly `userId`, `feedback` and `timestamp` |
| RestClient.S3Key | frontend/src/App.js:461 | the client key starts with `documents/` and ends with the file name |
| RestClient.DocumentBody | frontend.js:328-335 | the document body has `userId`, the file fields and the client `s3Key` |
| RestClient.SaveProfile | frontend/src/App.js:324-353 | a POST to `/profile` goes out iff the user id is truthy; 'Please log in to save your profile.' otherwise |
| RestClient.SubmitLeave | frontend/src/App.js:355-395 | a POST to `/leaves` goes out iff the user id is truthy, with the leave body |
| RestClient.SubmitFeedback | frontend/src/App.js:397-432 | a POST to `/feedback` goes out iff the user id is truthy |
| RestClient.Upload | frontend/src/App.js:434-488 | the upload goes out iff the user id is truthy and a named file was picked; the id is checked first |
| RestClient.AuthExchange | frontend/src/App.js:157-171 | an authentication answer is used iff it was ok; otherwise an error notice, the fallback text when the answer has no message |
| RestClient.SourceRequest | frontend/src/App.js:82 | each source is read with a GET |
| RestClient.Reads | frontend/src/App.js:82-122 | one GET per source asked, in order, on both REST pages |
| RestClient.WithPart | frontend/src/App.js:98-101 | setting one part of the HR data leaves the other three unchanged |
| RestClient.Received | frontend/src/App.js:84-128 | an ok answer sets the profile, or the empty profile when it has none, or a list; reading `null`, sorting a non-array, or sorting a list with a `null` among two or more items throws |
| RestClient.ReceivedListIsSorted | frontend/src/App.js:101-127 | a fetched list is the answer's items, latest first, or `[]` when absent |
| RestClient.FetchFrom | frontend/src/App.js:80-136 | the sources are asked in order; a throw ends the fetch at the source that threw; non-ok answers are passed over; exactly the parts with usable ok answers change |
| RestClient.FetchAsksFirst | frontend/src/App.js:80-84 | a fetch over some sources asks at least the first, and no more than all |
| RestClient.FetchAfter | frontend/src/App.js:80-132 | one source's step is followed by the rest of the fetch |
| RestClient.FetchAllOk | frontend/src/App.js:80-128 | with all answers ok, all four sources are asked and every part is as its answer says |
| RestClient.FetchAllNotOk | frontend.js:74-107 | with no answer ok, all four sources are asked and no part changes |
| RestClient.FetchStopsAtThrow | frontend/src/App.js:133-135 | a throw from the first read stops the fetch with nothing changed |
| CognitoPortal.OrNull | frontend/src/App.js:161 | an absent `userId` becomes `null` |
| CognitoPortal.Loaded | frontend/src/App.js:64-71 | the initial delay clears only the loading flag |
| CognitoPortal.Login | frontend/src/App.js:145-175 | posts the login form; signs in iff the answer is ok and not `null`, taking its `userId`; otherwise only an error notice changes |
| CognitoPortal.Signup | frontend/src/App.js:177-220 | a mismatch is refused first, then the password rule, with no request; success moves to the verification form for the new address and clears the three sign-up inputs |
| CognitoPortal.VerifyCode | frontend/src/App.js:223-264 | no pending address is refused first, then any code whose length is not 6, with no request; success returns to login with the pre-handler pending address as the login email |
| CognitoPortal.ResendCode | frontend/src/App.js:266-296 | only the notice changes: the view stays; a request goes out iff an address is pending |
| CognitoPortal.Logout | frontend/src/App.js:298-320 | identity, all inputs, the verification state and the four HR collections return to their defaults |
| CognitoPortal.LogoutIdempotent | frontend/src/App.js:298-320 | logging out twice is the same as once |
| CognitoPortal.CloseModal | frontend/src/App.js:57-61 | closing the modal resets it and nothing else |
| CognitoPortal.Apply | frontend/src/App.js:341-351 | a submit handler changes only the modal |
| CognitoPortal.HandleSaveProfile | frontend/src/App.js:326-329 | the save sends a request iff the user id is truthy |
| CognitoPortal.HandleSubmitLeave | frontend/src/App.js:357-360 | the leave submit sends a request iff the user id is truthy |
| CognitoPortal.HandleSubmitFeedback | frontend/src/App.js:399-402 | the feedback submit sends a request iff the user id is truthy |
| CognitoPortal.UploadBody | frontend/src/App.js:454-464 | the upload body is the shared metadata plus a `downloadUrl` under the page's bucket address |
| CognitoPortal.HandleUploadDocument | frontend/src/App.js:436-447 | the upload sends a request iff the user id is truthy and a named file was picked |
| CognitoPortal.DownloadUrlShape | frontend/src/App.js:461-464 | the link is the bucket address, `documents/`, the user id and the file name |
| CognitoPortal.HandleProfileInput | frontend/src/App.js:796 | a profile input edits that one field of the profile |
| CognitoPortal.FetchUserData | frontend/src/App.js:74-142 | nothing without a signed-in user id; otherwise exactly one read per source the fetch asked, in order, starting with the profile; a throw shows the network message; otherwise the last failing source's message shows |
| CognitoPortal.NoFetchAfterLogout | frontend/src/App.js:77 | after logout the page fetches nothing |
| CognitoPortal.ShowSignupLink | frontend/src/App.js:647 | the link shows the sign-up form and clears the notice |
| CognitoPortal.ShowLoginLink | frontend/src/App.js:697 | the link shows the login form and clears the notice |
| CognitoPortal.BackToLoginLink | frontend/src/App.js:729 | the link leaves verification for the login form and keeps the pending address |
| CognitoPortal.RenderedForms | frontend/src/App.js:614-702 | exactly one of the login, sign-up and verification forms is rendered, for every combination of flags |
| CognitoPortal.ScreenOf | frontend/src/App.js:566 | the spinner iff loading while signed out, the portal iff signed in, the forms otherwise |
| CognitoPortal.SignupVerifyLogin | frontend/src/App.js:200-253 | sign-up leads to the verification form, and verification to the login form with the address filled in |
| RestPortal.Login | frontend.js:121-149 | posts the login form; success sets the user id from the answer and signs in |
| RestPortal.Signup | frontend.js:151-184 | a mismatch is refused with no request, and no password rule applies; success returns to login with `loginEmail` set to the sign-up address |
| RestPortal.WeakPasswordSent | frontend.js:156-160 | a password the newer page refuses is sent |
| RestPortal.Logout | frontend.js:186-203 | identity, inputs and the four HR collections return to their defaults |
| RestPortal.Apply | frontend.js:219-228 | a submit handler changes only the modal |
| RestPortal.HandleSaveProfile | frontend.js:208-211 | the save sends a request iff the user id is truthy |
| RestPortal.HandleSubmitLeave | frontend.js:236-239 | the leave submit sends a request iff the user id is truthy |
| RestPortal.HandleSubmitFeedback | frontend.js:276-279 | the feedback submit sends a request iff the user id is truthy |
| RestPortal.UploadBody | frontend.js:328-335 | the upload body is the shared metadata, without a download link |
| RestPortal.HandleUploadDocument | frontend.js:312-323 | the upload sends a request iff the user id is truthy and a named file was picked |
| RestPortal.FetchUserData | frontend.js:67-118 | nothing without a signed-in user id; otherwise exactly one read per source the fetch asked, in order; only a throw shows a message |
| RestPortal.NotOkIsSilent | frontend.js:78-107 | non-ok answers change neither the data nor the modal |
| RestPortal.ShowSignupLink | frontend.js:497 | the link shows the sign-up form and clears the notice |
| RestPortal.ShowLoginLink | frontend.js:547 | the link shows the login form and clears the notice |
| RestPortal.ScreenOf | frontend.js:418-502 | the spinner iff loading while signed out, the portal iff signed in, and exactly one form otherwise |
| RestPortal.SignupThenLogin | frontend.js:169-173 | a successful sign-up lands on the login form with the address filled in |
| FirebasePortal.UserRoot | Others/sample_frontend.js:122 | a user's document root is longer than the user id |
| FirebasePortal.AuthChanged | Others/sample_frontend.js:74-110 | the listener sets `userId` to the user and signs in iff there is one; a failed anonymous sign-in shows the initialisation error |
| FirebasePortal.ProfileSnapshot | Others/sample_frontend.js:123-133 | an existing profile document becomes the profile; a missing one gives the four empty fields |
| FirebasePortal.SnapshotError | Others/sample_frontend.js:130-132 | a listener error shows 'Error fetching ...' and changes nothing else |
| FirebasePortal.Entry | Others/sample_frontend.js:138 | `{ id, ...data }` has the document id unless the data has its own `id` |
| FirebasePortal.Entries | Others/sample_frontend.js:150 | one entry per document, in order |
| FirebasePortal.LeavesSnapshot | Others/sample_frontend.js:137-141 | the leaves become a permutation of the snapshot's entries, latest start date first |
| FirebasePortal.LoginErrorText | Others/sample_frontend.js:205-211 | user-not-found, wrong-password and invalid-credential give 'Invalid username or password.'; invalid-email gives its own message; anything else the generic one |
| FirebasePortal.Login | Others/sample_frontend.js:195-215 | only the notice changes: success, or the message for the error code |
| FirebasePortal.SignupErrorText | Others/sample_frontend.js:246-253 | email-already-in-use, invalid-email and weak-password each give their own message; anything else the generic one |
| FirebasePortal.Signup | Others/sample_frontend.js:217-258 | a mismatch is refused before any call; a created account gets a user document; success iff both steps succeed, then the login form with the username filled in |
| FirebasePortal.Logout | Others/sample_frontend.js:260-273 | a completed sign-out shows the page signed out but keeps the user id and data for the listener; a failed one only reports |
| FirebasePortal.Store | Others/sample_frontend.js:278-289 | a feature handler writes iff a user is present and reports the outcome |
| FirebasePortal.SaveProfile | Others/sample_frontend.js:276-290 | the profile is merged into the user's `profile/myProfile` document |
| FirebasePortal.RestSpread | Others/sample_frontend.js:284 | the written profile is the profile's own fields |
| FirebasePortal.SubmitLeave | Others/sample_frontend.js:292-316 | the leave (status 'Pending', no user id field) is added to the user's leaves collection iff a user is present |
| FirebasePortal.SubmitFeedback | Others/sample_frontend.js:318-338 | the feedback is added to the user's feedback collection iff a user is present |
| FirebasePortal.DocumentRecord | Others/sample_frontend.js:358-365 | the document record has the file fields and `https://example.com/documents/<uid>/<name>` |
| FirebasePortal.UploadDocument | Others/sample_frontend.js:340-375 | a write happens iff a user is present and a named file was picked; the user is checked first |
| FirebasePortal.WritesStayUnderUser | Others/sample_frontend.js:283-368 | every feature write lies under the signed-in user's own root |
| FirebasePortal.RootsSeparateUsers | Others/sample_frontend.js:136 | one user's root is a prefix of another's iff they are the same user (ids free of `/`) |
| FirebasePortal.CloseModal | Others/sample_frontend.js:188-192 | closing the modal resets it and nothing else |
| FirebasePortal.ShowSignupLink | Others/sample_frontend.js:516 | the link shows the sign-up form and clears the notice |
| FirebasePortal.ShowLoginLink | Others/sample_frontend.js:566 | the link shows the login form and clears the notice |
| FirebasePortal.ScreenOf | Others/sample_frontend.js:437 | the spinner iff loading or auth not ready, the portal iff ready and signed in |
| FirebasePortal.LogoutReturnsToPortal | Others/sample_frontend.js:87-97 | after sign-out the listener's anonymous sign-in shows the portal again, for the anonymous user |
| EndToEnd.PageLeavesArePending | backend/leave_manager.py:19 | a leave a REST page submits is stored 'Pending', with the form's dates and the submission time |
| EndToEnd.Delivered | frontend/src/App.js:157 | `fetch` reports a handler's answer as ok exactly for the 2xx statuses, with the body as its data |
| EndToEnd.LoginAnswer | auth_lambda_package_auth_handler/auth_handler.py:53-77 | on the body a page posts, tokens give a 200 whose `userId` is the address sent; anything else a 401 or 500 with a non-empty message |
| EndToEnd.RefusalShown | frontend/src/App.js:164-168 | a refused login whose answer carries a non-empty `message` shows that text on both REST pages |
| EndToEnd.ExchangeShowsMessage | frontend/src/App.js:164-168 | a handler's refusal with a non-empty `message` reaches the auth form as an error notice with that text |
| EndToEnd.LoginRoundTrip | frontend/src/App.js:157-167 | both REST pages sign in exactly when the provider returned tokens, with the typed address as user id; a refusal shows the handler's message |
| EndToEnd.LoginPostsForm | frontend.js:126-130 | both REST pages post the same login body, the one `login_user` reads |
| EndToEnd.SignupRoundTrip | frontend/src/App.js:177-221 | the newer page moves to verification exactly when `register_user` succeeded, for the address signed up; otherwise it shows the handler's message |
| EndToEnd.VerifyRoundTrip | frontend/src/App.js:223-264 | the page returns to login with the address filled in exactly when `confirm_signup` succeeded; otherwise it shows the handler's message |
| EndToEnd.ResendRoundTrip | frontend/src/App.js:266-296 | the page reports success exactly when `resend_code` succeeded; otherwise it shows the handler's message |

## Left out

- Network, SDK and framework calls are not modelled. This covers `fetch`, the boto3 clients, the Firebase calls, `useEffect` scheduling, `setTimeout`, and subscription setup and teardown. Their results are inputs: `Reply`, `Outcome`, `fault`, `Call`, and the query `page`.
- Asynchronous interleaving is not modelled: each handler runs to completion on the state it started from. Stale answers overwriting newer ones are concurrency, not sequential logic.
- Scrolling and navigation highlighting (`handleScroll`, `handleNavLinkClick`, `activeSection`) are DOM geometry.
- `new Date(...)` is the abstract `Ui.DateKey`. The model assumes every date is valid, because an invalid date gives NaN and a comparator returning NaN leaves the order to the engine.
- The Firestore feedback and documents snapshot sorts at Others/sample_frontend.js:152 and 164 subtract ISO strings. That gives NaN, so no order is claimed. The entries themselves are modelled (`FirebasePortal.Entries`).
- `toISOString`, `toLocaleString` and `(size / 1024).toFixed(2)` are locale and floating-point formatting. The current time is an input string `now`.
- Floating-point JSON numbers are left out: `Json` numbers are integers.
- `json.dumps` is not modelled: the response body is the value it would serialise. `json.loads` is an abstract decoder.
- UUID generation is not modelled: every uuid is an input.
- Environment variables are not modelled: the bucket is a parameter and the table names are implicit in the module.
- Exception texts of `TypeError`, `AttributeError`, SDK validation and provider errors are abstract, apart from `KeyError('k')`, whose `str` is reproduced. The same holds for the JavaScript `TypeError` text on a `null` read.
- `Decimal.StoredNumber` keeps a non-integral number text as sent, not in the store's normal form (trailing zeros dropped, exponent folded), so the `int()` error message quotes the sent text where the store would quote its normal form. The store's limits on number texts (38 significant digits, the exponent range) are not modelled: `Decimal.NumberText` accepts any sign, digits, fraction and exponent.
- Query pagination is not modelled: a query answer is the whole partition.
- `console.error` and Python `print` logging are left out.
- Form resets (`e.target.reset()`) and the file input are left out.
- The Firebase `user` object is reduced to its `uid`.
- `authLoading` is modelled only at the end of a handler, where it is always false.
- `undefined` and `null` are both the `JNull` value wherever the difference is not observable, apart from property reads, where `undefined` is `None`.
- Spreading a string or an array into an object is not modelled: `Spread` of a non-object is empty.
- JavaScript `.length` counts UTF-16 code units; the model counts characters.
- `CognitoPortal.VerifyCode` checks only the length of the code, as the page does; it does not check that the code is digits.
- `Identity.ResolvePackaged` is stated through `PackagedIsFirstTruthy` when it returns. Its raising cases, such as a non-object body or a non-string body, are modelled in the function but have no separate lemma.
- `ProfileManager.GetProfile`, `ProfileManager.UpdateProfile`, `LeaveManager.SubmitLeave`, `LeaveManager.GetLeaves`, `FeedbackManager.SubmitFeedback`, `FeedbackManager.GetFeedback`, `DocumentManager.UploadDocument`, `DocumentManager.GetDocuments` and `Records.ListStringRecords` require that the caller's id resolves. `get_user_id_from_event` runs before each handler's `try`, so when it raises (the root helper on a `null` query-string map or a `null` body) the exception leaves the handler and no response is built. That case is stated once, by `Identity.RootRaisesOnNullFields`, and not per handler.
- `ProfileManager.GetProfile` states the status codes and the unauthorized and failure cases. Its 200 answers are stated by `UpdateThenGet`, `ReadStoredProfile` and `AbsentProfile`.
- `RestClient.FetchFrom` does not state the order in which the modal messages of several failing sources are shown, only the last one (`CognitoPortal.FetchUserData`).

Behaviours of the code a reader might not expect, which the model keeps as written:
- `frontend.js` shows no message for a non-ok fetch answer. It only logs it, and the data stays as it was.
- The Firestore page's logout does not clear the user id or the HR data. It signs out, and the anonymous sign-in brings the portal back.
- The verification code is checked for length 6 only, not for being six digits.
- The leave type is passed through verbatim, with no enumeration.
- A `null` element in a fetched list of two or more items makes the sort comparator throw on its property read, and the `catch` shows the network message (`Ui.ListFrom`). A lone `null` element is never compared and is kept.

=== FILE: auth_handler.dfy ===
/** `register_user`, `login_user`, `confirm_signup` and `resend_code`: each
    reads text fields from the body, makes one call to the identity provider,
    and maps the call's outcome to a response. The whole handler runs inside
    one `try`, so a malformed body also ends in a 500 answer. The copy under
    `Others/` holds the first two handlers only, unchanged. */
module AuthHandler {

  import opened Wrappers
  import opened Json
  import opened Gateway

  /** The errors the identity provider raises that some handler names. */
  datatype IdpError =
    | UsernameExists
    | InvalidPassword
    | NotAuthorized
    | UserNotFound
    | CodeMismatch
    | ExpiredCode
    | LimitExceeded
    | OtherIdpError(detail: string)

  /** The outcome of one identity-provider call: it returned `value`, or it raised. */
  datatype Call<T> = Returned(value: T) | Raised(error: IdpError)

  /** What a successful log-in call reports: both tokens, or (when the
      provider answers with a challenge) no authentication result at all. */
  datatype Tokens = Tokens(idToken: string, accessToken: string)

  /** `str(e)` of a provider error. Its wording is abstracted. */
  function IdpErrorText(err: IdpError): string {
    match err
    case UsernameExists => "UsernameExistsException"
    case InvalidPassword => "InvalidPasswordException"
    case NotAuthorized => "NotAuthorizedException"
    case UserNotFound => "UserNotFoundException"
    case CodeMismatch => "CodeMismatchException"
    case ExpiredCode => "ExpiredCodeException"
    case LimitExceeded => "LimitExceededException"
    case OtherIdpError(d) => d
  }

  const RegisteredText := "User registered successfully. Please confirm your account."
  const EmailTakenText := "Email already registered."
  const PasswordRejectedText := "Password does not meet requirements."
  const LoggedInText := "Login successful!"
  const BadCredentialsText := "Invalid email or password."
  const NoSuchUserText := "User not found."
  const ConfirmedText := "Account confirmed successfully!"
  const SignUpAgainText := "User not found. Please sign up again."
  const CodeMismatchText := "Invalid verification code. Please try again."
  const CodeExpiredText := "Verification code expired. Please request a new one."
  const AlreadyConfirmedText := "User is already confirmed or not authorized."
  const ResentText := "Verification code resent successfully!"
  const LimitText := "Attempt limit exceeded, please try again later."

  /** `body[k]` for each key in turn on the decoded body; the first absent key raises `KeyError`. */
  function RequireAll(body: Json, keys: seq<string>): (r: Result<seq<Json>, Fault>)
    ensures body.JObj? ==> (r.Success? <==> forall i :: 0 <= i < |keys| ==> keys[i] in body.fields)
    ensures r.Success? ==> |r.value| == |keys|
    ensures r.Success? ==> forall i :: 0 <= i < |keys| ==> body.JObj? && keys[i] in body.fields && r.value[i] == body.fields[keys[i]]
    ensures body.JObj? && r.Failure? ==>
      exists i :: 0 <= i < |keys| && keys[i] !in body.fields && r.error == KeyError(keys[i])
                  && forall j :: 0 <= j < i ==> keys[j] in body.fields
    ensures !body.JObj? && |keys| > 0 ==> r.Failure?
    decreases |keys|
  {
    if |keys| == 0 then Success([])
    else
      var first :- Require(body, keys[0]);
      match RequireAll(body, keys[1..])
      case Failure(f) =>
        var i :| 0 <= i < |keys[1..]| && keys[1..][i] !in body.fields && f == KeyError(keys[1..][i])
                 && forall j :: 0 <= j < i ==> keys[1..][j] in body.fields;
        assert keys[i + 1] !in body.fields && f == KeyError(keys[i + 1]);
        assert forall j :: 0 <= j < i + 1 ==> keys[j] in body.fields by {
          forall j | 0 <= j < i + 1 ensures keys[j] in body.fields {
            if j > 0 {
              assert keys[j] == keys[1..][j - 1];
            }
          }
        }
        Failure(f)
      case Success(rest) =>
        var values := [first] + rest;
        assert forall i :: 1 <= i < |keys| ==> keys[i] == keys[1..][i - 1];
        Success(values)
  }

  /** Every key is in the body and holds a string. */
  ghost predicate HasTexts(e: Event, decode: Decoder, keys: seq<string>) {
    && BodyObject(e, decode).Some?
    && forall i :: 0 <= i < |keys| ==> keys[i] in BodyObject(e, decode).value && BodyObject(e, decode).value[keys[i]].JStr?
  }

  /** The body fields a handler reads, as the texts it passes to the provider:
      the SDK refuses any that is not a string. */
  function ReadTexts(e: Event, decode: Decoder, keys: seq<string>): (r: Result<seq<string>, Fault>)
    requires |keys| > 0
    ensures r.Success? <==> HasTexts(e, decode, keys)
    ensures r.Success? ==> |r.value| == |keys|
    ensures r.Success? ==> forall i :: 0 <= i < |keys| ==> JStr(r.value[i]) == BodyObject(e, decode).value[keys[i]]
    ensures BodyObject(e, decode).Some? && keys[0] !in BodyObject(e, decode).value ==> r == Failure(KeyError(keys[0]))
  {
    var body :- LoadBody(e, decode);
    var values :- RequireAll(body, keys);
    if forall i :: 0 <= i < |values| ==> values[i].JStr? then
      Success(seq(|values|, i requires 0 <= i < |values| => values[i].s))
    else
      Failure(ParamValidation("a request parameter is not a string"))
  }

  /** Shared shape of the four handlers' contracts: the status codes they can
      give, and a malformed body always gives a 500. */
  ghost predicate AuthAnswer(r: Response, statuses: set<int>, wellFormed: bool) {
    && r.statusCode in statuses
    && (r.statusCode == 500 ==> IsServerError(r))
    && (!wellFormed ==> IsServerError(r))
  }

  /** `register_user` on the outcome `call` of the sign-up call. */
  function Register(e: Event, decode: Decoder, call: Call<()>): (r: Response)
    ensures AuthAnswer(r, {200, 400, 500}, HasTexts(e, decode, ["email", "password"]))
    ensures HasTexts(e, decode, ["email", "password"]) ==>
      && (call.Returned? <==> r.statusCode == 200)
      && (r.statusCode == 200 ==> r == MessageResponse(200, RegisteredText))
      && (call == Raised(UsernameExists) <==> r == MessageResponse(400, EmailTakenText))
      && (call == Raised(InvalidPassword) <==> r == MessageResponse(400, PasswordRejectedText))
      && (r.statusCode == 500 <==> call.Raised? && call.error != UsernameExists && call.error != InvalidPassword)
      && (call.Raised? && call.error != UsernameExists && call.error != InvalidPassword ==>
            r == ServerError(ServiceError(IdpErrorText(call.error))))
  {
    match ReadTexts(e, decode, ["email", "password"])
    case Failure(f) => ServerError(f)
    case Success(_) =>
      match call
      case Returned(_) => MessageResponse(200, RegisteredText)
      case Raised(UsernameExists) => MessageResponse(400, EmailTakenText)
      case Raised(InvalidPassword) => MessageResponse(400, PasswordRejectedText)
      case Raised(err) => ServerError(ServiceError(IdpErrorText(err)))
  }

  /** `login_user` on the outcome `call` of the authentication call. The
      answer's `userId` is the e-mail address the caller sent. */
  function Login(e: Event, decode: Decoder, call: Call<Option<Tokens>>): (r: Response)
    ensures AuthAnswer(r, {200, 401, 500}, HasTexts(e, decode, ["email", "password"]))
    ensures r.statusCode == 200 ==>
      && HasTexts(e, decode, ["email", "password"])
      && call.Returned? && call.value.Some?
      && "email" in BodyObject(e, decode).value
      && r.body == JObj(map["message" := JStr(LoggedInText),
                            "idToken" := JStr(call.value.value.idToken),
                            "accessToken" := JStr(call.value.value.accessToken),
                            "userId" := BodyObject(e, decode).value["email"]])
    ensures HasTexts(e, decode, ["email", "password"]) ==>
      && (call.Returned? && call.value.Some? <==> r.statusCode == 200)
      && (call == Raised(NotAuthorized) <==> r == MessageResponse(401, BadCredentialsText))
      && (call == Raised(UserNotFound) <==> r == MessageResponse(401, NoSuchUserText))
      && (call == Returned(None) ==> r == ServerError(KeyError("AuthenticationResult")))
      && (r.statusCode == 500 <==> call == Returned(None) || (call.Raised? && call.error != NotAuthorized && call.error != UserNotFound))
      && (call.Raised? && call.error != NotAuthorized && call.error != UserNotFound ==>
            r == ServerError(ServiceError(IdpErrorText(call.error))))
  {
    match ReadTexts(e, decode, ["email", "password"])
    case Failure(f) => ServerError(f)
    case Success(texts) =>
      match call
      case Returned(None) => ServerError(KeyError("AuthenticationResult"))
      case Returned(Some(tokens)) =>
        GetResponse(200, JObj(map["message" := JStr(LoggedInText), "idToken" := JStr(tokens.idToken),
                                  "accessToken" := JStr(tokens.accessToken), "userId" := JStr(texts[0])]))
      case Raised(NotAuthorized) => MessageResponse(401, BadCredentialsText)
      case Raised(UserNotFound) => MessageResponse(401, NoSuchUserText)
      case Raised(err) => ServerError(ServiceError(IdpErrorText(err)))
  }

  /** `confirm_signup` on the outcome `call` of the confirmation call. */
  function ConfirmSignup(e: Event, decode: Decoder, call: Call<()>): (r: Response)
    ensures AuthAnswer(r, {200, 400, 500}, HasTexts(e, decode, ["email", "code"]))
    ensures HasTexts(e, decode, ["email", "code"]) ==>
      && (call.Returned? <==> r.statusCode == 200)
      && (r.statusCode == 200 ==> r == MessageResponse(200, ConfirmedText))
      && (call == Raised(UserNotFound) <==> r == MessageResponse(400, SignUpAgainText))
      && (call == Raised(CodeMismatch) <==> r == MessageResponse(400, CodeMismatchText))
      && (call == Raised(ExpiredCode) <==> r == MessageResponse(400, CodeExpiredText))
      && (call == Raised(NotAuthorized) <==> r == MessageResponse(400, AlreadyConfirmedText))
      && (r.statusCode == 500 <==>
            call.Raised? && call.error !in {UserNotFound, CodeMismatch, ExpiredCode, NotAuthorized})
      && (call.Raised? && call.error !in {UserNotFound, CodeMismatch, ExpiredCode, NotAuthorized} ==>
            r == ServerError(ServiceError(IdpErrorText(call.error))))
  {
    match ReadTexts(e, decode, ["email", "code"])
    case Failure(f) => ServerError(f)
    case Success(_) =>
      match call
      case Returned(_) => MessageResponse(200, ConfirmedText)
      case Raised(UserNotFound) => MessageResponse(400, SignUpAgainText)
      case Raised(CodeMismatch) => MessageResponse(400, CodeMismatchText)
      case Raised(ExpiredCode) => MessageResponse(400, CodeExpiredText)
      case Raised(NotAuthorized) => MessageResponse(400, AlreadyConfirmedText)
      case Raised(err) => ServerError(ServiceError(IdpErrorText(err)))
  }

  /** `resend_code` on the outcome `call` of the resend call. */
  function ResendCode(e: Event, decode: Decoder, call: Call<()>): (r: Response)
    ensures AuthAnswer(r, {200, 400, 500}, HasTexts(e, decode, ["email"]))
    ensures HasTexts(e, decode, ["email"]) ==>
      && (call.Returned? <==> r.statusCode == 200)
      && (r.statusCode == 200 ==> r == MessageResponse(200, ResentText))
      && (call == Raised(UserNotFound) <==> r == MessageResponse(400, SignUpAgainText))
      && (call == Raised(LimitExceeded) <==> r == MessageResponse(400, LimitText))
      && (r.statusCode == 500 <==> call.Raised? && call.error != UserNotFound && call.error != LimitExceeded)
      && (call.Raised? && call.error != UserNotFound && call.error != LimitExceeded ==>
            r == ServerError(ServiceError(IdpErrorText(call.error))))
  {
    match ReadTexts(e, decode, ["email"])
    case Failure(f) => ServerError(f)
    case Success(_) =>
      match call
      case Returned(_) => MessageResponse(200, ResentText)
      case Raised(UserNotFound) => MessageResponse(400, SignUpAgainText)
      case Raised(LimitExceeded) => MessageResponse(400, LimitText)
      case Raised(err) => ServerError(ServiceError(IdpErrorText(err)))
  }

  /** A body without the fields is refused before the provider is called:
      the answer does not depend on what the call would have done. */
  lemma MalformedBodyMakesNoCall(e: Event, decode: Decoder, c1: Call<()>, c2: Call<()>,
                                 l1: Call<Option<Tokens>>, l2: Call<Option<Tokens>>)
    ensures !HasTexts(e, decode, ["email", "password"]) ==>
      Register(e, decode, c1) == Register(e, decode, c2) && Login(e, decode, l1) == Login(e, decode, l2)
    ensures !HasTexts(e, decode, ["email", "code"]) ==> ConfirmSignup(e, decode, c1) == ConfirmSignup(e, decode, c2)
    ensures !HasTexts(e, decode, ["email"]) ==> ResendCode(e, decode, c1) == ResendCode(e, decode, c2)
  {
  }

  /** The two 401 answers of `login_user` tell a wrong password from an
      unknown user, and the four 400 answers of `confirm_signup` are all different. */
  lemma RefusalsDistinguishable()
    ensures MessageResponse(401, BadCredentialsText) != MessageResponse(401, NoSuchUserText)
    ensures |{SignUpAgainText, CodeMismatchText, CodeExpiredText, AlreadyConfirmedText}| == 4
  {
    assert BadCredentialsText[0] != NoSuchUserText[0];
    assert SignUpAgainText[8] != CodeMismatchText[8];
  }
}

=== FILE: cognito_portal.dfy ===
/** `frontend/src/App.js`: the React page that signs users up and in
    through the authentication routes, verifies new accounts with a
    six-digit code, and reads and writes the signed-in user's HR data
    through the REST routes. A handler is a function from the state before
    the event to the state after it and the requests it sent; an awaited
    exchange is an input (`Reply`). Handlers read the state as it was when
    the event fired, as React's closures do. */
module CognitoPortal {

  import opened Wrappers
  import opened Json
  import opened Ui
  import opened RestClient

  const ApiBase := "https://l4fi5f9bxk.execute-api.us-east-1.amazonaws.com/Test"

  /** The page's state (`activeSection`, the scroll position and the DOM
      are not modelled). */
  datatype State = State(
    userId: Json,
    isLoggedIn: bool,
    showSignup: bool,
    loading: bool,
    authLoading: bool,
    showVerificationForm: bool,
    verificationCode: string,
    pendingVerificationEmail: string,
    loginEmail: string,
    loginPassword: string,
    signupEmail: string,
    signupPassword: string,
    confirmPassword: string,
    authMessage: Notice,
    modal: Modal,
    hr: HrData)

  const Initial := State(JNull, false, false, true, false, false, "", "", "", "", "", "", "", NoNotice, ClosedModal, EmptyHr)

  /** A handler's result: the state after it and the requests it sent, in order. */
  datatype Step = Step(state: State, sent: seq<Request>)

  const LoginOkText := "Login successful!"
  const LoginFailedText := "Login failed. Please check your credentials."
  const NetworkRetryText := "Network error or backend issue. Please try again."
  const MismatchText := "Passwords do not match."
  const WeakPasswordText :=
    "Password must be at least 8 characters long and include numbers, uppercase, lowercase, and special characters."
  const SignupOkText := "Account created successfully! A verification code has been sent to your email."
  const SignupFailedText := "Signup failed. Please try again."
  const NoVerifyEmailText := "No email found for verification. Please sign up again."
  const BadCodeText := "Please enter a valid 6-digit verification code."
  const VerifiedText := "Account verified successfully! You can now log in."
  const VerifyFailedText := "Verification failed. Please check the code or try again."
  const VerifyNetworkText := "Network error or backend issue during verification. Please try again."
  const NoResendEmailText := "No email found to resend code to. Please sign up again."
  const ResentText := "New verification code sent! Check your email."
  const ResendFailedText := "Failed to resend code. Please try again."
  const ResendNetworkText := "Network error or backend issue during resend. Please try again."
  const LoggedOutText := "You have been logged out successfully!"
  const FetchThrownText := "Network error or backend issue. Could not load all HR data."
  const UploadOkText := "Document metadata saved successfully! (Actual file upload to S3 needs further implementation)"
  const DownloadBase := "https://f13tech-hrms-documents-youruniqueid.s3.amazonaws.com/"

  /** The modal text for a source whose answer was not ok. */
  function FetchFailedText(src: Source): string {
    match src
    case ProfileSource => "Failed to load employee profile."
    case LeavesSource => "Failed to load leave history."
    case FeedbackSource => "Failed to load performance feedback."
    case DocumentsSource => "Failed to load document list."
  }

  /** `undefined` (an absent property) is kept as `null`. */
  function OrNull(v: Option<Json>): (r: Json)
    ensures v.Some? ==> r == v.value
    ensures v.None? ==> r == JNull
  {
    if v.Some? then v.value else JNull
  }

  /** The initial timer: the spinner goes away. */
  function Loaded(s: State): (t: State)
    ensures !t.loading && t == s.(loading := false)
  {
    s.(loading := false)
  }

  /** `handleLogin`: posts the login form; an ok answer signs the user in
      with the `userId` it carries. */
  function Login(s: State, reply: Reply): (t: Step)
    ensures t.sent == [Post("/auth/login", JObj(map["email" := JStr(s.loginEmail), "password" := JStr(s.loginPassword)]))]
    ensures !t.state.authLoading
    ensures t.state.isLoggedIn <==> s.isLoggedIn || (reply.Ok? && !reply.data.JNull?)
    ensures reply.Ok? && reply.data.JObj? ==>
      && t.state.userId == (if "userId" in reply.data.fields then reply.data.fields["userId"] else JNull)
      && t.state.authMessage == Notice(LoginOkText, SuccessTone)
    ensures !(reply.Ok? && !reply.data.JNull?) ==>
      && t.state == s.(authLoading := false, authMessage := t.state.authMessage)
      && t.state.authMessage.tone == ErrorTone
  {
    var s0 := s.(authMessage := NoNotice, authLoading := false);
    var request := Post("/auth/login", JObj(map["email" := JStr(s.loginEmail), "password" := JStr(s.loginPassword)]));
    match AuthExchange(reply, LoginFailedText, NetworkRetryText)
    case Failure(n) => Step(s0.(authMessage := n), [request])
    case Success(data) =>
      match ReadProp(data, "userId")
      case Failure(_) => Step(s0.(authMessage := Notice(NetworkRetryText, ErrorTone)), [request])
      case Success(u) =>
        Step(s0.(userId := OrNull(u), isLoggedIn := true, authMessage := Notice(LoginOkText, SuccessTone)), [request])
  }

  /** `handleSignup`: the two passwords must match, then the password must
      pass the rule, before anything is sent; an ok answer moves on to the
      verification form for the address just registered. */
  function Signup(s: State, reply: Reply): (t: Step)
    ensures !t.state.authLoading
    ensures s.signupPassword != s.confirmPassword ==>
      t == Step(s.(authLoading := false, authMessage := Notice(MismatchText, ErrorTone)), [])
    ensures s.signupPassword == s.confirmPassword && !PasswordPolicy(s.signupPassword) ==>
      t == Step(s.(authLoading := false, authMessage := Notice(WeakPasswordText, ErrorTone)), [])
    ensures |t.sent| == 1 <==> s.signupPassword == s.confirmPassword && PasswordPolicy(s.signupPassword)
    ensures |t.sent| == 1 ==>
      t.sent[0] == Post("/auth/signup", JObj(map["email" := JStr(s.signupEmail), "password" := JStr(s.signupPassword)]))
    ensures |t.sent| == 1 && reply.Ok? ==>
      && t.state.showVerificationForm && !t.state.showSignup
      && t.state.pendingVerificationEmail == s.signupEmail
      && t.state.signupEmail == "" && t.state.signupPassword == "" && t.state.confirmPassword == ""
      && t.state.authMessage == Notice(SignupOkText, SuccessTone)
    ensures !reply.Ok? ==> t.state == s.(authLoading := false, authMessage := t.state.authMessage)
  {
    var s0 := s.(authMessage := NoNotice, authLoading := false);
    if s.signupPassword != s.confirmPassword then
      Step(s0.(authMessage := Notice(MismatchText, ErrorTone)), [])
    else if !PasswordPolicy(s.signupPassword) then
      Step(s0.(authMessage := Notice(WeakPasswordText, ErrorTone)), [])
    else
      var request := Post("/auth/signup", JObj(map["email" := JStr(s.signupEmail), "password" := JStr(s.signupPassword)]));
      match AuthExchange(reply, SignupFailedText, NetworkRetryText)
      case Failure(n) => Step(s0.(authMessage := n), [request])
      case Success(_) =>
        Step(s0.(pendingVerificationEmail := s.signupEmail, showVerificationForm := true, showSignup := false,
                 authMessage := Notice(SignupOkText, SuccessTone),
                 signupEmail := "", signupPassword := "", confirmPassword := ""), [request])
  }

  /** `handleVerifyCode`: needs a pending address and a six-character code
      (only its length is checked); an ok answer returns to the login form
      with the verified address filled in. */
  function VerifyCode(s: State, reply: Reply): (t: Step)
    ensures !t.state.authLoading
    ensures s.pendingVerificationEmail == "" ==>
      t == Step(s.(authLoading := false, authMessage := Notice(NoVerifyEmailText, ErrorTone)), [])
    ensures s.pendingVerificationEmail != "" && |s.verificationCode| != 6 ==>
      t == Step(s.(authLoading := false, authMessage := Notice(BadCodeText, ErrorTone)), [])
    ensures |t.sent| == 1 <==> s.pendingVerificationEmail != "" && |s.verificationCode| == 6
    ensures |t.sent| == 1 ==>
      t.sent[0] == Post("/auth/confirm-signup",
                        JObj(map["email" := JStr(s.pendingVerificationEmail), "code" := JStr(s.verificationCode)]))
    ensures |t.sent| == 1 && reply.Ok? ==>
      && !t.state.showVerificationForm && !t.state.showSignup
      && t.state.loginEmail == s.pendingVerificationEmail
      && t.state.pendingVerificationEmail == "" && t.state.verificationCode == ""
      && t.state.authMessage == Notice(VerifiedText, SuccessTone)
    ensures !reply.Ok? ==> t.state == s.(authLoading := false, authMessage := t.state.authMessage)
  {
    var s0 := s.(authMessage := NoNotice, authLoading := false);
    if s.pendingVerificationEmail == "" then
      Step(s0.(authMessage := Notice(NoVerifyEmailText, ErrorTone)), [])
    else if |s.verificationCode| != 6 then
      Step(s0.(authMessage := Notice(BadCodeText, ErrorTone)), [])
    else
      var request := Post("/auth/confirm-signup",
                          JObj(map["email" := JStr(s.pendingVerificationEmail), "code" := JStr(s.verificationCode)]));
      match AuthExchange(reply, VerifyFailedText, VerifyNetworkText)
      case Failure(n) => Step(s0.(authMessage := n), [request])
      case Success(_) =>
        Step(s0.(authMessage := Notice(VerifiedText, SuccessTone), showVerificationForm := false,
                 pendingVerificationEmail := "", verificationCode := "", showSignup := false,
                 loginEmail := s.pendingVerificationEmail), [request])
  }

  /** `handleResendCode`: asks for a new code for the pending address; only
      the message changes. */
  function ResendCode(s: State, reply: Reply): (t: Step)
    ensures t.state == s.(authLoading := false, authMessage := t.state.authMessage)
    ensures s.pendingVerificationEmail == "" ==>
      t == Step(s.(authLoading := false, authMessage := Notice(NoResendEmailText, ErrorTone)), [])
    ensures s.pendingVerificationEmail != "" ==>
      t.sent == [Post("/auth/resend-code", JObj(map["email" := JStr(s.pendingVerificationEmail)]))]
    ensures s.pendingVerificationEmail != "" ==> (t.state.authMessage.tone == SuccessTone <==> reply.Ok?)
  {
    var s0 := s.(authMessage := NoNotice, authLoading := false);
    if s.pendingVerificationEmail == "" then
      Step(s0.(authMessage := Notice(NoResendEmailText, ErrorTone)), [])
    else
      var request := Post("/auth/resend-code", JObj(map["email" := JStr(s.pendingVerificationEmail)]));
      match AuthExchange(reply, ResendFailedText, ResendNetworkText)
      case Failure(n) => Step(s0.(authMessage := n), [request])
      case Success(_) => Step(s0.(authMessage := Notice(ResentText, SuccessTone)), [request])
  }

  /** `handleLogout`: signs out and forgets every form input and all HR
      data (which of the two authentication forms was last shown is kept). */
  function Logout(s: State): (t: State)
    ensures !t.isLoggedIn && t.userId == JNull && t.hr == EmptyHr
    ensures !t.showVerificationForm && t.pendingVerificationEmail == "" && t.verificationCode == ""
    ensures t.loginEmail == "" && t.loginPassword == "" && t.signupEmail == "" && t.signupPassword == "" && t.confirmPassword == ""
    ensures t.modal == ShowModal(LoggedOutText, InfoTone) && t.authMessage == NoNotice && !t.authLoading
    ensures t.showSignup == s.showSignup && t.loading == s.loading
  {
    s.(authLoading := false, userId := JNull, isLoggedIn := false,
       loginEmail := "", loginPassword := "", signupEmail := "", signupPassword := "", confirmPassword := "",
       showVerificationForm := false, pendingVerificationEmail := "", verificationCode := "",
       hr := EmptyHr, modal := ShowModal(LoggedOutText, InfoTone), authMessage := NoNotice)
  }

  /** Signing out twice is signing out once. */
  lemma LogoutIdempotent(s: State)
    ensures Logout(Logout(s)) == Logout(s)
  {
  }

  /** `closeModal`. */
  function CloseModal(s: State): (t: State)
    ensures !t.modal.open && t == s.(modal := ClosedModal)
  {
    s.(modal := ClosedModal)
  }

  /** A feature handler's effect on the page: only the modal changes. */
  function Apply(s: State, sent: Sent): (t: Step)
    ensures t.state == s.(modal := sent.modal)
    ensures t.sent == (if sent.request.Some? then [sent.request.value] else [])
  {
    Step(s.(modal := sent.modal), if sent.request.Some? then [sent.request.value] else [])
  }

  function HandleSaveProfile(s: State, reply: Reply): (t: Step)
    ensures t == Apply(s, SaveProfile(s.userId, s.hr.profile, reply))
    ensures |t.sent| == 1 <==> JsTruthy(s.userId)
  {
    Apply(s, SaveProfile(s.userId, s.hr.profile, reply))
  }

  function HandleSubmitLeave(s: State, form: LeaveForm, now: string, reply: Reply): (t: Step)
    ensures t == Apply(s, SubmitLeave(s.userId, form, now, reply))
    ensures |t.sent| == 1 <==> JsTruthy(s.userId)
  {
    Apply(s, SubmitLeave(s.userId, form, now, reply))
  }

  function HandleSubmitFeedback(s: State, text: Json, now: string, reply: Reply): (t: Step)
    ensures t == Apply(s, SubmitFeedback(s.userId, text, now, reply))
    ensures |t.sent| == 1 <==> JsTruthy(s.userId)
  {
    Apply(s, SubmitFeedback(s.userId, text, now, reply))
  }

  /** The metadata this page sends: the shared body plus a download link
      under the page's fixed bucket address. */
  function UploadBody(userId: Json, docType: Json, now: string): (body: FileChoice -> Json)
    ensures forall file :: body(file).JObj?
    ensures forall file ::
      body(file).fields == DocumentBody(userId, file, docType, now).fields["downloadUrl" := JStr(DownloadBase + S3Key(userId, file.name))]
  {
    (file: FileChoice) =>
      var b := DocumentBody(userId, file, docType, now);
      JObj(b.fields["downloadUrl" := JStr(DownloadBase + S3Key(userId, file.name))])
  }

  function HandleUploadDocument(s: State, file: Option<FileChoice>, docType: Json, now: string, reply: Reply): (t: Step)
    ensures t == Apply(s, Upload(s.userId, file, UploadBody(s.userId, docType, now), reply, UploadOkText))
    ensures |t.sent| == 1 <==> JsTruthy(s.userId) && FilePicked(file)
  {
    Apply(s, Upload(s.userId, file, UploadBody(s.userId, docType, now), reply, UploadOkText))
  }

  /** The link to the download sits under the page's bucket address and
      names the user's folder and the file. */
  lemma DownloadUrlShape(userId: Json, file: FileChoice, docType: Json, now: string)
    ensures var url := UploadBody(userId, docType, now)(file).fields["downloadUrl"];
      && url.JStr?
      && url.s == DownloadBase + "documents/" + JsText(userId) + "/" + file.name
  {
  }

  /** An edit of one profile input. */
  function HandleProfileInput(s: State, field: string, value: string): (t: State)
    ensures t == s.(hr := s.hr.(profile := EditProfile(s.hr.profile, field, value)))
  {
    s.(hr := s.hr.(profile := EditProfile(s.hr.profile, field, value)))
  }

  /** `fetchUserData`, which runs when the sign-in state or the user id
      changes: nothing without a signed-in user id; otherwise the four reads
      in order. A non-ok answer shows that source's failure (the last one
      shown stays); a throw ends the reads and shows the network message. */
  function FetchUserData(s: State, replies: Source -> Reply, date: DateKey): (t: Step)
    ensures !s.isLoggedIn || !JsTruthy(s.userId) ==> t == Step(s, [])
    ensures s.isLoggedIn && JsTruthy(s.userId) ==>
      && var f := FetchFrom(s.hr, AllSources, replies, date);
      && t.state == s.(hr := f.hr, modal := t.state.modal, loading := false)
      && t.sent == Reads(f.asked, s.userId) && 1 <= |t.sent| <= 4
      && t.sent[0] == SourceRequest(ProfileSource, s.userId)
      && (f.thrown ==> t.state.modal == ShowModal(FetchThrownText, ErrorTone))
      && (!f.thrown && f.failed == [] ==> t.state.modal == s.modal)
      && (!f.thrown && f.failed != [] ==> t.state.modal == ShowModal(FetchFailedText(f.failed[|f.failed| - 1]), ErrorTone))
  {
    if !s.isLoggedIn || !JsTruthy(s.userId) then Step(s, [])
    else
      var f := FetchFrom(s.hr, AllSources, replies, date);
      FetchAsksFirst(s.hr, AllSources, replies, date);
      var modal :=
        if f.thrown then ShowModal(FetchThrownText, ErrorTone)
        else if f.failed != [] then ShowModal(FetchFailedText(f.failed[|f.failed| - 1]), ErrorTone)
        else s.modal;
      Step(s.(hr := f.hr, modal := modal, loading := false), Reads(f.asked, s.userId))
  }

  /** Once signed out, the page fetches nothing. */
  lemma NoFetchAfterLogout(s: State, replies: Source -> Reply, date: DateKey)
    ensures FetchUserData(Logout(s), replies, date) == Step(Logout(s), [])
  {
  }

  /** The "Sign Up" link under the login form ("Don't have an account?"). */
  function ShowSignupLink(s: State): (t: State)
    ensures t.showSignup && !t.showVerificationForm && t.authMessage == NoNotice
  {
    s.(showSignup := true, authMessage := NoNotice, showVerificationForm := false)
  }

  /** The "Login" link under the sign-up form ("Already have an account?"). */
  function ShowLoginLink(s: State): (t: State)
    ensures !t.showSignup && !t.showVerificationForm && t.authMessage == NoNotice
  {
    s.(showSignup := false, authMessage := NoNotice, showVerificationForm := false)
  }

  /** The "Back to Login" link under the verification form: the pending
      address is kept, so a later resend or verify still has it. */
  function BackToLoginLink(s: State): (t: State)
    ensures !t.showSignup && !t.showVerificationForm && t.authMessage == NoNotice
    ensures t.pendingVerificationEmail == s.pendingVerificationEmail
  {
    s.(showVerificationForm := false, showSignup := false, authMessage := NoNotice)
  }

  datatype AuthForm = LoginForm | SignupForm | VerificationForm

  /** The authentication forms the page draws, in page order; each has its
      own condition. Exactly one is drawn, whatever the flags. */
  function RenderedForms(s: State): (forms: seq<AuthForm>)
    ensures |forms| == 1
    ensures forms[0] == VerificationForm <==> s.showVerificationForm
    ensures forms[0] == SignupForm <==> s.showSignup && !s.showVerificationForm
    ensures forms[0] == LoginForm <==> !s.showSignup && !s.showVerificationForm
  {
    (if !s.showSignup && !s.showVerificationForm then [LoginForm] else [])
    + (if s.showSignup && !s.showVerificationForm then [SignupForm] else [])
    + (if s.showVerificationForm then [VerificationForm] else [])
  }

  datatype Screen = Spinner | AuthScreen(forms: seq<AuthForm>) | PortalScreen

  /** What the page shows: the spinner while loading before sign-in, the
      authentication forms when signed out, the portal when signed in. */
  function ScreenOf(s: State): (v: Screen)
    ensures v.Spinner? <==> s.loading && !s.isLoggedIn
    ensures v.PortalScreen? <==> s.isLoggedIn
    ensures v.AuthScreen? ==> v.forms == RenderedForms(s)
  {
    if s.loading && !s.isLoggedIn then Spinner
    else if !s.isLoggedIn then AuthScreen(RenderedForms(s))
    else PortalScreen
  }

  /** A successful sign-up leads to the verification form, and a
      successful verification back to the login form with the address
      filled in. */
  lemma SignupVerifyLogin(s: State, r1: Reply, code: string, r2: Reply)
    requires !s.isLoggedIn && !s.loading
    requires s.signupPassword == s.confirmPassword && PasswordPolicy(s.signupPassword)
    requires r1.Ok? && r2.Ok? && s.signupEmail != "" && |code| == 6
    ensures var s1 := Signup(s, r1).state;
      && ScreenOf(s1) == AuthScreen([VerificationForm])
      && var s2 := VerifyCode(s1.(verificationCode := code), r2).state;
      && ScreenOf(s2) == AuthScreen([LoginForm])
      && s2.loginEmail == s.signupEmail
  {
    var s1 := Signup(s, r1).state;
    assert RenderedForms(s1)[0] == VerificationForm;
    var s2 := VerifyCode(s1.(verificationCode := code), r2).state;
    assert RenderedForms(s2)[0] == LoginForm;
  }
}

=== FILE: decimal.dfy ===
/** Decimal text of integers: Python's `str(n)` for an `int` and the
    `int(text)` conversion that reads it back (document sizes are stored as
    DynamoDB number attributes in this text form). */
module Decimal {

  import opened Wrappers

  predicate IsDigit(c: char) {
    '0' <= c <= '9'
  }

  function DigitChar(d: nat): (c: char)
    requires d < 10
    ensures IsDigit(c)
    ensures c as int - '0' as int == d
  {
    ('0' as int + d) as char
  }

  /** Decimal digits of `n` without leading zeros (`"0"` for zero). */
  function ShowNat(n: nat): (r: string)
    ensures |r| > 0
    ensures forall i :: 0 <= i < |r| ==> IsDigit(r[i])
    ensures |r| > 1 ==> r[0] != '0'
    decreases n
  {
    if n < 10 then [DigitChar(n)] else ShowNat(n / 10) + [DigitChar(n % 10)]
  }

  /** Python's `str(i)` for an integer. */
  function ShowInt(i: int): (r: string)
    ensures |r| > 0
    ensures i < 0 <==> r[0] == '-'
  {
    if i < 0 then "-" + ShowNat(-i) else ShowNat(i)
  }

  /** The value of a non-empty run of decimal digits; `None` if `s` is empty
      or holds anything but digits. */
  function DigitsValue(s: string): (r: Option<nat>)
    ensures r.Some? ==> |s| > 0
    decreases |s|
  {
    if |s| == 0 then None
    else if !IsDigit(s[|s| - 1]) then None
    else
      var d := s[|s| - 1] as int - '0' as int;
      if |s| == 1 then Some(d)
      else match DigitsValue(s[..|s| - 1])
        case None => None
        case Some(v) => Some(v * 10 + d)
  }

  /** Python's `int(text)` on an optionally signed run of decimal digits;
      `None` where Python raises `ValueError`. */
  function ParseInt(s: string): (r: Option<int>)
    ensures |s| == 0 ==> r.None?
  {
    if |s| > 0 && (s[0] == '-' || s[0] == '+') then
      var magnitude := DigitsValue(s[1..]);
      if magnitude.None? then None
      else if s[0] == '-' then Some(-(magnitude.value as int))
      else Some(magnitude.value as int)
    else
      var magnitude := DigitsValue(s);
      if magnitude.None? then None else Some(magnitude.value as int)
  }

  /** Reading back the digits of a natural number gives the number. */
  lemma {:induction false} DigitsOfShowNat(n: nat)
    ensures DigitsValue(ShowNat(n)) == Some(n)
    decreases n
  {
    if n >= 10 {
      var prefix := ShowNat(n / 10);
      var s := prefix + [DigitChar(n % 10)];
      assert s[..|s| - 1] == prefix;
      DigitsOfShowNat(n / 10);
    }
  }

  /** `int(str(i)) == i`: an integer survives its decimal encoding. */
  lemma ParseShowInt(i: int)
    ensures ParseInt(ShowInt(i)) == Some(i)
  {
    if i < 0 {
      var s := ShowInt(i);
      assert s[1..] == ShowNat(-i);
      DigitsOfShowNat(-i);
    } else {
      DigitsOfShowNat(i);
    }
  }

  /** The encoding loses nothing: distinct integers have distinct texts. */
  lemma ShowIntInjective(i: int, j: int)
    requires ShowInt(i) == ShowInt(j)
    ensures i == j
  {
    ParseShowInt(i);
    ParseShowInt(j);
  }

  /** A non-empty run of decimal digits. */
  predicate AllDigits(s: string) {
    |s| > 0 && forall i :: 0 <= i < |s| ==> IsDigit(s[i])
  }

  /** The position of the first character of `s` that satisfies `p`, or `|s|`. */
  function FirstWhere(s: string, p: char -> bool): (i: nat)
    ensures i <= |s|
    ensures i < |s| ==> p(s[i])
    ensures forall j :: 0 <= j < i ==> !p(s[j])
    decreases |s|
  {
    if |s| == 0 then 0
    else if p(s[0]) then 0
    else
      var i := FirstWhere(s[1..], p);
      assert forall j :: 1 <= j < i + 1 ==> s[j] == s[1..][j - 1];
      i + 1
  }

  /** `s` without one leading sign character. */
  function Unsigned(s: string): (u: string)
    ensures |u| <= |s|
  {
    if |s| > 0 && (s[0] == '-' || s[0] == '+') then s[1..] else s
  }

  /** Digits with at most one decimal point, at least one digit in all. */
  predicate Mantissa(m: string) {
    var dot := FirstWhere(m, c => c == '.');
    if dot == |m| then AllDigits(m)
    else
      && (dot == 0 || AllDigits(m[..dot]))
      && (dot + 1 == |m| || AllDigits(m[dot + 1..]))
      && |m| > 1
  }

  /** The text a DynamoDB number attribute takes: an optional sign, a
      mantissa, and an optional `e`/`E` exponent with its own optional sign. */
  predicate NumberText(s: string) {
    var body := Unsigned(s);
    var x := FirstWhere(body, c => c == 'e' || c == 'E');
    && Mantissa(body[..x])
    && (x < |body| ==> AllDigits(Unsigned(body[x + 1..])))
  }

  /** Digits that have a value are all digits. */
  lemma {:induction false} DigitsValueAllDigits(s: string)
    requires DigitsValue(s).Some?
    ensures AllDigits(s)
    decreases |s|
  {
    if |s| > 1 {
      DigitsValueAllDigits(s[..|s| - 1]);
      assert forall i :: 0 <= i < |s| - 1 ==> s[i] == s[..|s| - 1][i];
    }
  }

  /** Every text `int()` reads is a number text: the store accepts what
      `int()` reads back. */
  lemma IntegerTextIsNumberText(s: string)
    requires ParseInt(s).Some?
    ensures NumberText(s)
  {
    var body := Unsigned(s);
    DigitsValueAllDigits(body);
    var x := FirstWhere(body, c => c == 'e' || c == 'E');
    assert x == |body|;
    assert body[..x] == body;
    var dot := FirstWhere(body, c => c == '.');
    assert dot == |body|;
  }

  /** `10^n`. */
  function Pow10(n: nat): (r: nat)
    ensures r > 0
  {
    if n == 0 then 1 else 10 * Pow10(n - 1)
  }

  /** The value of a run of digits, zero for an empty or malformed run. */
  function DigitsOrZero(s: string): nat {
    if DigitsValue(s).Some? then DigitsValue(s).value else 0
  }

  /** A decimal number as `mantissa * 10^exponent`. */
  datatype Scaled = Scaled(mantissa: int, exponent: int)

  /** The value a number text denotes: the sign, the digits of the whole and
      fractional parts read as one integer, and the written exponent less the
      number of fractional digits. */
  function NumberValue(s: string): (v: Scaled) {
    var body := Unsigned(s);
    var x := FirstWhere(body, c => c == 'e' || c == 'E');
    var mant := body[..x];
    var dot := FirstWhere(mant, c => c == '.');
    var frac := if dot < |mant| then mant[dot + 1..] else [];
    var power := if x < |body| then body[x + 1..] else [];
    var shift := DigitsOrZero(Unsigned(power));
    var magnitude := DigitsOrZero(mant[..dot]) * Pow10(|frac|) + DigitsOrZero(frac);
    Scaled(if |s| > 0 && s[0] == '-' then -magnitude else magnitude,
           (if |power| > 0 && power[0] == '-' then -(shift as int) else shift) - |frac|)
  }

  /** The number has no fractional part. */
  predicate IsIntegral(v: Scaled) {
    v.exponent >= 0 || v.mantissa % Pow10(-v.exponent) == 0
  }

  function IntegralValue(v: Scaled): int
    requires IsIntegral(v)
  {
    if v.exponent >= 0 then v.mantissa * Pow10(v.exponent)
    else v.mantissa / Pow10(-v.exponent)
  }

  /** The text DynamoDB keeps for a number attribute: an integral number in
      its plain decimal form (trailing zeros and the exponent folded in);
      any other number as sent. */
  function StoredNumber(s: string): (r: string)
    ensures IsIntegral(NumberValue(s)) ==> r == ShowInt(IntegralValue(NumberValue(s)))
    ensures !IsIntegral(NumberValue(s)) ==> r == s
  {
    var v := NumberValue(s);
    if IsIntegral(v) then ShowInt(IntegralValue(v)) else s
  }

  /** A text `int()` reads denotes an integral number of the same value. */
  lemma ParsedIsIntegral(s: string)
    requires ParseInt(s).Some?
    ensures IsIntegral(NumberValue(s))
    ensures IntegralValue(NumberValue(s)) == ParseInt(s).value
  {
    var body := Unsigned(s);
    DigitsValueAllDigits(body);
    var x := FirstWhere(body, c => c == 'e' || c == 'E');
    assert x == |body|;
    assert body[..x] == body;
    var dot := FirstWhere(body, c => c == '.');
    assert dot == |body|;
    assert body[..dot] == body;
  }

  /** `int()` reads the stored text of a number exactly when the number is
      integral, and then reads its value. */
  lemma StoredNumberReadsBack(s: string)
    ensures ParseInt(StoredNumber(s)).Some? <==> IsIntegral(NumberValue(s))
    ensures IsIntegral(NumberValue(s)) ==>
      ParseInt(StoredNumber(s)) == Some(IntegralValue(NumberValue(s)))
  {
    if IsIntegral(NumberValue(s)) {
      ParseShowInt(IntegralValue(NumberValue(s)));
    } else if ParseInt(s).Some? {
      ParsedIsIntegral(s);
    }
  }

  /** The store folds `"1.0"` to `"1"`, which `int()` reads. */
  lemma TrailingZeroFolded()
    ensures NumberText("1.0") && StoredNumber("1.0") == "1"
    ensures NumberValue("1.0") == Scaled(10, -1) && IsIntegral(Scaled(10, -1)) && IntegralValue(Scaled(10, -1)) == 1
  {
    assert FirstWhere("1.0", c => c == 'e' || c == 'E') == 3;
    assert "1.0"[..3] == "1.0";
    assert FirstWhere("1.0", c => c == '.') == 1;
    assert "1.0"[..1] == "1" && "1.0"[2..] == "0";
    assert NumberValue("1.0") == Scaled(10, -1) by {
      assert DigitsValue("1") == Some(1) && DigitsValue("0") == Some(0);
      assert Pow10(1) == 10;
    }
    assert ShowNat(1) == "1";
  }

  /** The store folds `"1e3"` to `"1000"`, which `int()` reads. */
  lemma ExponentFolded()
    ensures NumberText("1e3") && StoredNumber("1e3") == "1000"
    ensures NumberValue("1e3") == Scaled(1, 3) && IntegralValue(Scaled(1, 3)) == 1000
  {
    assert FirstWhere("1e3", c => c == 'e' || c == 'E') == 1;
    assert "1e3"[..1] == "1" && "1e3"[2..] == "3";
    assert FirstWhere("1", c => c == '.') == 1;
    assert NumberValue("1e3") == Scaled(1, 3) by {
      assert "1"[..1] == "1";
      assert DigitsValue("1") == Some(1) && DigitsValue("3") == Some(3);
    }
    assert Pow10(3) == 1000;
    assert ShowNat(1000) == "1000" by {
      assert ShowNat(1) == "1";
      assert ShowNat(10) == "10";
      assert ShowNat(100) == "100";
    }
  }

  /** `"1.5"` stays fractional in the store and `int()` refuses it. */
  lemma FractionKept()
    ensures NumberText("1.5") && !IsIntegral(NumberValue("1.5"))
    ensures StoredNumber("1.5") == "1.5" && ParseInt("1.5").None?
  {
    assert FirstWhere("1.5", c => c == 'e' || c == 'E') == 3;
    assert "1.5"[..3] == "1.5";
    assert FirstWhere("1.5", c => c == '.') == 1;
    assert "1.5"[..1] == "1" && "1.5"[2..] == "5";
    assert NumberValue("1.5") == Scaled(15, -1) by {
      assert DigitsValue("1") == Some(1) && DigitsValue("5") == Some(5);
      assert Pow10(1) == 10;
    }
    assert DigitsValue("1.5").None? by {
      assert DigitsValue("1.") == None;
    }
  }
}

=== FILE: document_manager.dfy ===
/** `upload_document` and `get_documents`: document metadata kept in the
    caller's partition of the documents table. The object key is generated
    on the server, scoped by the caller's id; the file size is the only
    numeric attribute. The `backend/` and packaged copies of
    `document_manager.py` are identical; this module models both. */
module DocumentManager {

  import opened Wrappers
  import opened Json
  import opened Decimal
  import opened Gateway
  import opened Identity
  import opened Dynamo

  const SavedText := "Document metadata saved successfully!"

  /** The bucket name used when the environment does not set one. */
  const DefaultBucket := "f13tech-hrms-documents"

  /** `f"{user_id}/{uuid}-{file_name}"`. */
  function ObjectKey(id: string, keyUuid: string, fileName: string): (key: string)
    ensures id + "/" <= key
    ensures key[|id| + 1..] == keyUuid + "-" + fileName
  {
    id + "/" + keyUuid + "-" + fileName
  }

  /** The public URL recorded for an object. */
  function DownloadUrl(bucket: string, key: string): (url: string)
    ensures "https://" <= url
    ensures |key| <= |url| && url[|url| - |key|..] == key
  {
    "https://" + bucket + ".s3.amazonaws.com/" + key
  }

  /** The text the store keeps for `{'N': str(file_size)}`: an integer is
      written in decimal; a string must be a number text (fractions and
      exponents included) and is kept in the store's normal form; anything
      else is refused by the store. */
  function SizeNumber(size: Json): (r: Result<string, Fault>)
    ensures r.Success? <==> size.JNum? || (size.JStr? && NumberText(size.s))
    ensures size.JNum? ==> r == Success(ShowInt(size.n))
    ensures size.JStr? && r.Success? ==> r.value == StoredNumber(size.s)
    ensures size.JStr? && ParseInt(size.s).Some? ==> r.Success?
  {
    match size
    case JNum(n) => Success(ShowInt(n))
    case JStr(s) =>
      if ParseInt(s).Some? then IntegerTextIsNumberText(s); Success(StoredNumber(s))
      else if NumberText(s) then Success(StoredNumber(s))
      else Failure(ServiceError("fileSize is not a number"))
    case _ => Failure(ServiceError("fileSize is not a number"))
  }

  /** A size whose stored text `int()` can read back: an integer, or a
      number text denoting an integral value (`"7"`, `"1.0"`, `"1e3"`). */
  predicate IntegerSize(size: Json) {
    size.JNum? || (size.JStr? && NumberText(size.s) && IsIntegral(NumberValue(size.s)))
  }

  /** An accepted size reads back with `int` exactly when it is an integer
      size, and then as the integer it denotes; a number text with a
      fractional part is accepted but does not read back. */
  lemma SizeNumberParses(size: Json)
    requires SizeNumber(size).Success?
    ensures ParseInt(SizeNumber(size).value).Some? <==> IntegerSize(size)
    ensures size.JNum? ==> ParseInt(SizeNumber(size).value) == Some(size.n)
    ensures size.JStr? && IntegerSize(size) ==>
      ParseInt(SizeNumber(size).value) == Some(IntegralValue(NumberValue(size.s)))
  {
    if size.JNum? {
      ParseShowInt(size.n);
    } else {
      StoredNumberReadsBack(size.s);
    }
  }

  /** The item an upload stores: nine attributes, the size as a number. */
  function DocumentItem(id: string, documentId: string, fileName: string, fileType: string, sizeText: string,
                        uploadDate: string, key: string, bucket: string): (item: Item)
    ensures |item| == 9 && "fileSize" in item && item["fileSize"] == N(sizeText)
    ensures forall k | k in item && k != "fileSize" :: item[k].S?
  {
    map["userId" := S(id), "documentId" := S(documentId), "fileName" := S(fileName), "fileType" := S(fileType),
        "fileSize" := N(sizeText), "uploadDate" := S(uploadDate), "s3Key" := S(key), "s3Bucket" := S(bucket),
        "downloadUrl" := S(DownloadUrl(bucket, key))]
  }

  /** The four required fields are present, the three text ones are strings
      and the size is a number the store accepts. */
  ghost predicate DocumentFieldsUsable(m: map<string, Json>) {
    && "fileName" in m && "fileType" in m && "fileSize" in m && "uploadDate" in m
    && m["fileName"].JStr? && m["fileType"].JStr? && m["uploadDate"].JStr?
    && SizeNumber(m["fileSize"]).Success?
  }

  /** The item stored for caller `id` from a usable body `m`. */
  function StoredDocument(id: string, documentId: string, keyUuid: string, bucket: string,
                          m: map<string, Json>): Item
    requires DocumentFieldsUsable(m)
  {
    DocumentItem(id, documentId, m["fileName"].s, m["fileType"].s, SizeNumber(m["fileSize"]).value,
                 m["uploadDate"].s, ObjectKey(id, keyUuid, m["fileName"].s), bucket)
  }

  /** The body reads and the `put_item` checks of `upload_document`: the four
      required fields in the order `fileName`, `fileType`, `fileSize`,
      `uploadDate`, then the SDK's string checks, then the store's number check. */
  function DocumentRequest(uid: Json, body: Json, bucket: string, keyUuid: string, documentId: string)
    : (r: Result<Item, Fault>)
    ensures r.Success? <==> uid.JStr? && body.JObj? && DocumentFieldsUsable(body.fields)
    ensures r.Success? ==> r.value == StoredDocument(uid.s, documentId, keyUuid, bucket, body.fields)
    ensures body.JObj? && "fileName" !in body.fields ==> r == Failure(KeyError("fileName"))
    ensures body.JObj? && "fileName" in body.fields && "fileType" !in body.fields ==> r == Failure(KeyError("fileType"))
    ensures body.JObj? && "fileName" in body.fields && "fileType" in body.fields && "fileSize" !in body.fields
            ==> r == Failure(KeyError("fileSize"))
    ensures (&& body.JObj? && "fileName" in body.fields && "fileType" in body.fields && "fileSize" in body.fields
             && "uploadDate" !in body.fields)
            ==> r == Failure(KeyError("uploadDate"))
  {
    var fileName :- Require(body, "fileName");
    var fileType :- Require(body, "fileType");
    var fileSize :- Require(body, "fileSize");
    var uploadDate :- Require(body, "uploadDate");
    var _ :- StringAttr("Item.userId.S", uid);
    var _ :- StringAttr("Item.fileName.S", fileName);
    var _ :- StringAttr("Item.fileType.S", fileType);
    var _ :- StringAttr("Item.uploadDate.S", uploadDate);
    var sizeText :- SizeNumber(fileSize);
    Success(DocumentItem(uid.s, documentId, fileName.s, fileType.s, sizeText, uploadDate.s,
                         ObjectKey(uid.s, keyUuid, fileName.s), bucket))
  }

  /** `upload_document`. `keyUuid` and `documentId` are the two fresh UUIDs
      the handler draws, `bucket` the configured bucket and `fault` the
      exception `put_item` raises, if any. A client-sent key or URL plays no
      part: both are derived from the caller's id and the file name. */
  function UploadDocument(v: Variant, e: Event, decode: Decoder, table: KeyedTable, bucket: string,
                          keyUuid: string, documentId: string, fault: Option<string>): (w: Written<KeyedTable>)
    requires ResolveUserId(v, e, decode).Resolved?
    ensures !PyTruthy(ResolveUserId(v, e, decode).id) ==> w == Written(Unauthorized, table)
    ensures w.response.statusCode == 401 <==> !PyTruthy(ResolveUserId(v, e, decode).id)
    ensures w.response.statusCode in {200, 401, 500}
    ensures w.response.statusCode != 200 ==> w.table == table
    ensures w.response.statusCode == 500 ==> IsServerError(w.response)
    ensures w.response.statusCode == 200 ==>
      && fault.None?
      && ResolveUserId(v, e, decode).id.JStr?
      && BodyObject(e, decode).Some?
      && DocumentFieldsUsable(BodyObject(e, decode).value)
      && var id := ResolveUserId(v, e, decode).id.s;
         var m := BodyObject(e, decode).value;
         && w.table == Put(table, id, documentId, StoredDocument(id, documentId, keyUuid, bucket, m))
         && w.response.body == JObj(map["message" := JStr(SavedText), "documentId" := JStr(documentId),
                                        "s3Key" := JStr(ObjectKey(id, keyUuid, m["fileName"].s))])
    ensures (&& PyTruthy(ResolveUserId(v, e, decode).id) && ResolveUserId(v, e, decode).id.JStr? && fault.None?
             && BodyObject(e, decode).Some? && DocumentFieldsUsable(BodyObject(e, decode).value))
            ==> w.response.statusCode == 200
    ensures PyTruthy(ResolveUserId(v, e, decode).id) && LoadBody(e, decode).Failure? ==>
      w == Written(ServerError(LoadBody(e, decode).error), table)
    ensures (&& PyTruthy(ResolveUserId(v, e, decode).id) && LoadBody(e, decode).Success?
             && DocumentRequest(ResolveUserId(v, e, decode).id, LoadBody(e, decode).value, bucket, keyUuid, documentId).Failure?)
            ==> w == Written(ServerError(DocumentRequest(ResolveUserId(v, e, decode).id, LoadBody(e, decode).value,
                                                         bucket, keyUuid, documentId).error), table)
    ensures (&& PyTruthy(ResolveUserId(v, e, decode).id) && BodyObject(e, decode).Some?
             && !(&& "fileName" in BodyObject(e, decode).value && "fileType" in BodyObject(e, decode).value
                  && "fileSize" in BodyObject(e, decode).value && "uploadDate" in BodyObject(e, decode).value))
            ==> w.response.statusCode == 500 && w.table == table
  {
    var uid := ResolveUserId(v, e, decode).id;
    if !PyTruthy(uid) then Written(Unauthorized, table)
    else match LoadBody(e, decode)
      case Failure(f) => Written(ServerError(f), table)
      case Success(body) =>
        match DocumentRequest(uid, body, bucket, keyUuid, documentId)
        case Failure(f) => Written(ServerError(f), table)
        case Success(item) =>
          if fault.Some? then Written(ServerError(ServiceError(fault.value)), table)
          else
            var key := ObjectKey(uid.s, keyUuid, body.fields["fileName"].s);
            Written(GetResponse(200, JObj(map["message" := JStr(SavedText), "documentId" := JStr(documentId),
                                              "s3Key" := JStr(key)])),
                    Put(table, uid.s, documentId, item))
  }

  /** `item[k]['S']`. */
  function ReadS(item: Item, k: string): (r: Result<string, Fault>)
    ensures k !in item ==> r == Failure(KeyError(k))
    ensures r.Success? <==> k in item && item[k].S?
    ensures r.Success? ==> r.value == item[k].s
  {
    if k !in item then Failure(KeyError(k))
    else match item[k]
      case S(s) => Success(s)
      case N(_) => Failure(KeyError("S"))
  }

  /** `int(item[k]['N'])`. */
  function ReadInt(item: Item, k: string): (r: Result<int, Fault>)
    ensures k !in item ==> r == Failure(KeyError(k))
    ensures r.Success? <==> k in item && item[k].N? && ParseInt(item[k].n).Some?
    ensures r.Success? ==> r.value == ParseInt(item[k].n).value
    ensures k in item && item[k].N? && ParseInt(item[k].n).None? ==> r == Failure(BadInteger(item[k].n))
  {
    if k !in item then Failure(KeyError(k))
    else match item[k]
      case S(_) => Failure(KeyError("N"))
      case N(text) =>
        match ParseInt(text)
        case None => Failure(BadInteger(text))
        case Some(i) => Success(i)
  }

  /** The attributes `get_documents` reads as strings. */
  const TextFields: set<string> := {"userId", "documentId", "fileName", "fileType", "uploadDate", "s3Key", "s3Bucket", "downloadUrl"}

  /** The item carries all nine attributes `get_documents` reads, with the
      right types and an integer size. */
  ghost predicate IsDocumentItem(item: Item) {
    && (forall k | k in TextFields :: k in item && item[k].S?)
    && "fileSize" in item && item["fileSize"].N? && ParseInt(item["fileSize"].n).Some?
  }

  /** One record of `get_documents`: the nine attributes read in the
      handler's order, each raising `KeyError` when absent or of the other type. */
  function DocumentRecord(item: Item): (r: Result<Json, Fault>)
    ensures r.Success? <==> IsDocumentItem(item)
    ensures "userId" !in item ==> r == Failure(KeyError("userId"))
  {
    var userId :- ReadS(item, "userId");
    var documentId :- ReadS(item, "documentId");
    var fileName :- ReadS(item, "fileName");
    var fileType :- ReadS(item, "fileType");
    var fileSize :- ReadInt(item, "fileSize");
    var uploadDate :- ReadS(item, "uploadDate");
    var s3Key :- ReadS(item, "s3Key");
    var s3Bucket :- ReadS(item, "s3Bucket");
    var downloadUrl :- ReadS(item, "downloadUrl");
    Success(JObj(map["userId" := JStr(userId), "documentId" := JStr(documentId), "fileName" := JStr(fileName),
                     "fileType" := JStr(fileType), "fileSize" := JNum(fileSize), "uploadDate" := JStr(uploadDate),
                     "s3Key" := JStr(s3Key), "s3Bucket" := JStr(s3Bucket), "downloadUrl" := JStr(downloadUrl)]))
  }

  /** A record holds exactly the nine attributes, the size as an integer;
      attributes beyond these are dropped. */
  lemma DocumentRecordShape(item: Item)
    requires IsDocumentItem(item)
    ensures
      var r := DocumentRecord(item).value;
      && r.JObj?
      && r.fields.Keys == TextFields + {"fileSize"}
      && r.fields["fileSize"] == JNum(ParseInt(item["fileSize"].n).value)
      && forall k | k in TextFields :: r.fields[k] == JStr(item[k].s)
  {
  }

  /** Every record of a query page, failing on the first unreadable item. */
  function DocumentRecords(page: seq<Item>): (r: Result<seq<Json>, Fault>)
    ensures r.Success? <==> forall i :: 0 <= i < |page| ==> DocumentRecord(page[i]).Success?
    ensures r.Success? ==> |r.value| == |page|
    ensures r.Success? ==> forall i :: 0 <= i < |page| ==> r.value[i] == DocumentRecord(page[i]).value
    decreases |page|
  {
    if |page| == 0 then Success([])
    else match DocumentRecord(page[0])
      case Failure(f) => Failure(f)
      case Success(first) =>
        assert forall i :: 1 <= i < |page| ==> page[1..][i - 1] == page[i];
        match DocumentRecords(page[1..])
        case Failure(f) =>
          assert exists j :: 0 <= j < |page| - 1 && DocumentRecord(page[1..][j]).Failure?;
          Failure(f)
        case Success(rest) =>
          var records := [first] + rest;
          assert forall i :: 1 <= i < |page| ==> records[i] == rest[i - 1] == DocumentRecord(page[i]).value;
          Success(records)
  }

  /** `get_documents`. */
  function GetDocuments(v: Variant, e: Event, decode: Decoder, page: seq<Item>, fault: Option<string>): (r: Response)
    requires ResolveUserId(v, e, decode).Resolved?
    ensures !PyTruthy(ResolveUserId(v, e, decode).id) ==> r == Unauthorized
    ensures r.statusCode == 401 <==> !PyTruthy(ResolveUserId(v, e, decode).id)
    ensures r.statusCode in {200, 401, 500}
    ensures r.statusCode == 500 ==> IsServerError(r)
    ensures r.statusCode == 200 ==>
      && fault.None?
      && DocumentRecords(page).Success?
      && r.body == JObj(map["documents" := JArr(DocumentRecords(page).value)])
    ensures (&& PyTruthy(ResolveUserId(v, e, decode).id) && ResolveUserId(v, e, decode).id.JStr? && fault.None?
             && forall i :: 0 <= i < |page| ==> IsDocumentItem(page[i]))
            ==> r.statusCode == 200
  {
    var uid := ResolveUserId(v, e, decode).id;
    if !PyTruthy(uid) then Unauthorized
    else if !uid.JStr? then ServerError(ParamValidation("ExpressionAttributeValues.:uid.S"))
    else if fault.Some? then ServerError(ServiceError(fault.value))
    else match DocumentRecords(page)
      case Failure(f) => ServerError(f)
      case Success(records) => GetResponse(200, JObj(map["documents" := JArr(records)]))
  }

  /** The integer an accepted integer size denotes. */
  function SizeValue(size: Json): (n: int)
    requires IntegerSize(size)
    ensures ParseInt(SizeNumber(size).value) == Some(n)
    ensures size.JNum? ==> n == size.n
  {
    SizeNumberParses(size);
    ParseInt(SizeNumber(size).value).value
  }

  /** The record of a stored item: its attributes as they were written, the
      size read with `int()`, or the `int()` error when the size text is not
      an integer. */
  lemma DocumentItemRecord(id: string, documentId: string, fileName: string, fileType: string, sizeText: string,
                           uploadDate: string, key: string, bucket: string)
    ensures ParseInt(sizeText).Some? ==>
      DocumentRecord(DocumentItem(id, documentId, fileName, fileType, sizeText, uploadDate, key, bucket))
        == Success(JObj(map["userId" := JStr(id), "documentId" := JStr(documentId), "fileName" := JStr(fileName),
                            "fileType" := JStr(fileType), "fileSize" := JNum(ParseInt(sizeText).value),
                            "uploadDate" := JStr(uploadDate), "s3Key" := JStr(key), "s3Bucket" := JStr(bucket),
                            "downloadUrl" := JStr(DownloadUrl(bucket, key))]))
    ensures ParseInt(sizeText).None? ==>
      DocumentRecord(DocumentItem(id, documentId, fileName, fileType, sizeText, uploadDate, key, bucket))
        == Failure(BadInteger(sizeText))
  {
    var item := DocumentItem(id, documentId, fileName, fileType, sizeText, uploadDate, key, bucket);
    assert ReadS(item, "userId") == Success(id);
  }

  /** Reading back a stored upload gives its metadata, the object key derived
      from the caller's id and the file name, the URL under the bucket, and
      the size as the integer the client sent (or the one its numeral
      denotes); a size text that is not an integer fails the read with the
      `int()` error. */
  lemma ReadBackDocument(id: string, documentId: string, keyUuid: string, bucket: string, m: map<string, Json>)
    requires DocumentFieldsUsable(m)
    ensures IntegerSize(m["fileSize"]) ==>
      var key := ObjectKey(id, keyUuid, m["fileName"].s);
      DocumentRecord(StoredDocument(id, documentId, keyUuid, bucket, m))
        == Success(JObj(map["userId" := JStr(id), "documentId" := JStr(documentId), "fileName" := m["fileName"],
                            "fileType" := m["fileType"], "fileSize" := JNum(SizeValue(m["fileSize"])),
                            "uploadDate" := m["uploadDate"], "s3Key" := JStr(key), "s3Bucket" := JStr(bucket),
                            "downloadUrl" := JStr(DownloadUrl(bucket, key))]))
    ensures !IntegerSize(m["fileSize"]) ==>
      DocumentRecord(StoredDocument(id, documentId, keyUuid, bucket, m)) == Failure(BadInteger(m["fileSize"].s))
  {
    var key := ObjectKey(id, keyUuid, m["fileName"].s);
    SizeNumberParses(m["fileSize"]);
    DocumentItemRecord(id, documentId, m["fileName"].s, m["fileType"].s, SizeNumber(m["fileSize"]).value,
                       m["uploadDate"].s, key, bucket);
  }

  /** Object keys of callers whose ids contain no '/' never collide: each
      key lies under its own caller's prefix. */
  lemma {:induction false} KeysScopedByCaller(id1: string, u1: string, f1: string, id2: string, u2: string, f2: string)
    requires id1 != id2
    requires forall i | 0 <= i < |id1| :: id1[i] != '/'
    requires forall i | 0 <= i < |id2| :: id2[i] != '/'
    ensures ObjectKey(id1, u1, f1) != ObjectKey(id2, u2, f2)
  {
    var k1 := ObjectKey(id1, u1, f1);
    var k2 := ObjectKey(id2, u2, f2);
    if |id1| == |id2| {
      assert k1[..|id1|] == id1 && k2[..|id2|] == id2;
    } else if |id1| < |id2| {
      assert k1[|id1|] == '/';
    } else {
      assert k2[|id2|] == '/';
    }
  }

  /** A body that also carries `s3Key` or `downloadUrl` is stored exactly
      like one that does not. */
  lemma ClientKeyIgnored(id: string, documentId: string, keyUuid: string, bucket: string,
                         m: map<string, Json>, key: Json, url: Json)
    requires DocumentFieldsUsable(m)
    ensures DocumentFieldsUsable(m["s3Key" := key]["downloadUrl" := url])
    ensures StoredDocument(id, documentId, keyUuid, bucket, m["s3Key" := key]["downloadUrl" := url])
         == StoredDocument(id, documentId, keyUuid, bucket, m)
  {
  }

  /** An accepted upload shows up in the caller's next listing with the
      client's integer size. */
  lemma UploadThenList(v: Variant, e: Event, decode: Decoder, table: KeyedTable, bucket: string,
                       keyUuid: string, documentId: string, page: seq<Item>)
    requires ResolveUserId(v, e, decode).Resolved?
    requires UploadDocument(v, e, decode, table, bucket, keyUuid, documentId, None).response.statusCode == 200
    requires
      var t' := UploadDocument(v, e, decode, table, bucket, keyUuid, documentId, None).table;
      var id := ResolveUserId(v, e, decode).id.s;
      && IsQueryAnswer(t', id, page)
      && forall sk | sk in Partition(t', id) :: IsDocumentItem(Partition(t', id)[sk])
    ensures GetDocuments(v, e, decode, page, None).statusCode == 200
    ensures
      var item := StoredDocument(ResolveUserId(v, e, decode).id.s, documentId, keyUuid, bucket, BodyObject(e, decode).value);
      DocumentRecords(page).Success? && DocumentRecord(item).Success? && DocumentRecord(item).value in DocumentRecords(page).value
  {
    var id := ResolveUserId(v, e, decode).id.s;
    var m := BodyObject(e, decode).value;
    var item := StoredDocument(id, documentId, keyUuid, bucket, m);
    var t' := UploadDocument(v, e, decode, table, bucket, keyUuid, documentId, None).table;
    assert t' == Put(table, id, documentId, item);
    QueryAnswerAfterPut(table, id, documentId, item, page);
    var part := Partition(t', id);
    forall i | 0 <= i < |page| ensures IsDocumentItem(page[i]) {
      assert page[i] in part.Values;
      var j :| j in part && part[j] == page[i];
    }
    var records := DocumentRecords(page).value;
    var i :| 0 <= i < |page| && page[i] == item;
    assert records[i] == DocumentRecord(item).value;
    assert PyTruthy(JStr(id));
  }

  /** A body the upload accepts whose size `int()` refuses. */
  lemma FractionalSizeAccepted()
    ensures
      var m := map["fileName" := JStr("a.pdf"), "fileType" := JStr("application/pdf"),
                   "fileSize" := JStr("1.5"), "uploadDate" := JStr("2024-01-01")];
      DocumentFieldsUsable(m) && !IntegerSize(m["fileSize"])
  {
    FractionKept();
  }

  /** Sizes sent as `"1.0"` and `"1e3"` are folded by the store and read
      back as the integers 1 and 1000. */
  lemma FoldedSizesReadBack()
    ensures IntegerSize(JStr("1.0")) && SizeValue(JStr("1.0")) == 1
    ensures IntegerSize(JStr("1e3")) && SizeValue(JStr("1e3")) == 1000
  {
    TrailingZeroFolded();
    SizeNumberParses(JStr("1.0"));
    ExponentFolded();
    SizeNumberParses(JStr("1e3"));
  }

  /** The listing fails at the first unreadable item, with that item's error. */
  lemma {:induction false} DocumentRecordsFirstFailure(page: seq<Item>, i: nat)
    requires i < |page| && DocumentRecord(page[i]).Failure?
    requires forall j | 0 <= j < i :: DocumentRecord(page[j]).Success?
    ensures DocumentRecords(page) == Failure(DocumentRecord(page[i]).error)
    decreases i
  {
    if i > 0 {
      assert forall j | 0 <= j < i - 1 :: page[1..][j] == page[j + 1];
      DocumentRecordsFirstFailure(page[1..], i - 1);
    }
  }

  /** An upload whose size text is a number with a fractional part is answered
      200, and from then on, as long as the item stays in the caller's
      partition, every listing of the caller's documents answers 500: the
      item's record fails with the `int()` error, and when no earlier item of
      the page fails, that error is the listing's answer. */
  lemma FractionalSizeBreaksListing(v: Variant, e: Event, decode: Decoder, table: KeyedTable, bucket: string,
                                    keyUuid: string, documentId: string,
                                    v': Variant, e': Event, decode': Decoder, later: KeyedTable, page: seq<Item>)
    requires ResolveUserId(v, e, decode).Resolved?
    requires UploadDocument(v, e, decode, table, bucket, keyUuid, documentId, None).response.statusCode == 200
    requires !IntegerSize(BodyObject(e, decode).value["fileSize"])
    requires ResolveUserId(v', e', decode') == ResolveUserId(v, e, decode)
    requires
      var id := ResolveUserId(v, e, decode).id.s;
      && documentId in Partition(later, id)
      && Partition(later, id)[documentId] == StoredDocument(id, documentId, keyUuid, bucket, BodyObject(e, decode).value)
      && IsQueryAnswer(later, id, page)
    ensures GetDocuments(v', e', decode', page, None).statusCode == 500
    ensures
      var item := StoredDocument(ResolveUserId(v, e, decode).id.s, documentId, keyUuid, bucket, BodyObject(e, decode).value);
      var text := BodyObject(e, decode).value["fileSize"].s;
      && item in page
      && DocumentRecord(item) == Failure(BadInteger(text))
      && forall i | 0 <= i < |page| && page[i] == item && (forall j | 0 <= j < i :: DocumentRecord(page[j]).Success?) ::
           GetDocuments(v', e', decode', page, None) == ServerError(BadInteger(text))
  {
    var id := ResolveUserId(v, e, decode).id.s;
    var m := BodyObject(e, decode).value;
    var item := StoredDocument(id, documentId, keyUuid, bucket, m);
    assert item in page by {
      assert Partition(later, id)[documentId] in page;
    }
    ReadBackDocument(id, documentId, keyUuid, bucket, m);
    var i :| 0 <= i < |page| && page[i] == item;
    assert DocumentRecord(page[i]).Failure?;
    assert PyTruthy(JStr(id));
    forall i | 0 <= i < |page| && page[i] == item && (forall j | 0 <= j < i :: DocumentRecord(page[j]).Success?)
      ensures GetDocuments(v', e', decode', page, None) == ServerError(BadInteger(m["fileSize"].s))
    {
      DocumentRecordsFirstFailure(page, i);
    }
  }

  /** The table right after an upload holds the uploaded item, so the
      listing that follows it is one `FractionalSizeBreaksListing` covers. */
  lemma UploadHoldsItem(v: Variant, e: Event, decode: Decoder, table: KeyedTable, bucket: string,
                        keyUuid: string, documentId: string)
    requires ResolveUserId(v, e, decode).Resolved?
    requires UploadDocument(v, e, decode, table, bucket, keyUuid, documentId, None).response.statusCode == 200
    ensures
      var id := ResolveUserId(v, e, decode).id.s;
      var t' := UploadDocument(v, e, decode, table, bucket, keyUuid, documentId, None).table;
      && documentId in Partition(t', id)
      && Partition(t', id)[documentId] == StoredDocument(id, documentId, keyUuid, bucket, BodyObject(e, decode).value)
  {
  }
}

=== FILE: dynamo.dfy ===
/** The key-value store behind the handlers, reduced to what they use:
    typed attribute maps (`{'S': ..}` / `{'N': ..}`), whole-item puts, key
    lookups and per-user queries. Failures of the store are inputs. */
module Dynamo {

  import opened Wrappers
  import opened Json
  import opened Gateway

  /** A typed attribute value: a string (`S`) or a number in decimal text (`N`). */
  datatype Attr = S(s: string) | N(n: string)

  /** A stored item: attribute name to typed value. */
  type Item = map<string, Attr>

  /** A table keyed by `userId` alone (the profiles table). */
  type UserTable = map<string, Item>

  /** A table keyed by (`userId`, sort key), grouped by `userId`. */
  type KeyedTable = map<string, map<string, Item>>

  /** The items stored under partition key `pk`, by sort key. */
  function Partition(t: KeyedTable, pk: string): map<string, Item> {
    if pk in t then t[pk] else map[]
  }

  /** `put_item` on a keyed table: stores `item` under (`pk`, `sk`), replacing
      whatever was there, and touches nothing else. */
  function Put(t: KeyedTable, pk: string, sk: string, item: Item): (t': KeyedTable)
    ensures Partition(t', pk) == Partition(t, pk)[sk := item]
    ensures forall other :: other != pk ==> Partition(t', other) == Partition(t, other)
  {
    t[pk := Partition(t, pk)[sk := item]]
  }

  /** `{'S': value}`: the SDK accepts only a string for an `S` attribute. */
  function StringAttr(param: string, value: Json): (r: Result<Attr, Fault>)
    ensures r.Success? <==> value.JStr?
    ensures value.JStr? ==> r.value == S(value.s)
  {
    if value.JStr? then Success(S(value.s)) else Failure(ParamValidation(param))
  }

  /** Every attribute of the item is a string attribute. */
  predicate AllStrings(item: Item) {
    forall k | k in item :: item[k].S?
  }

  /** `{k: v['S'] for k, v in item.items()}`: each attribute's string value;
      `KeyError('S')` as soon as one attribute is not a string. */
  function UnwrapStrings(item: Item): (r: Result<map<string, Json>, Fault>)
    ensures r.Success? <==> AllStrings(item)
    ensures r.Success? ==> r.value.Keys == item.Keys
    ensures r.Success? ==> forall k | k in item :: r.value[k] == JStr(item[k].s)
    ensures r.Failure? ==> r.error == KeyError("S")
  {
    if AllStrings(item) then Success(map k | k in item :: JStr(item[k].s))
    else Failure(KeyError("S"))
  }

  /** The typed item for a record of plain strings. */
  function WrapStrings(fields: map<string, string>): (item: Item)
    ensures item.Keys == fields.Keys && AllStrings(item)
  {
    map k | k in fields :: S(fields[k])
  }

  /** Unmarshalling a marshalled record of strings gives the record back. */
  lemma UnwrapWrap(fields: map<string, string>)
    ensures UnwrapStrings(WrapStrings(fields)) == Success(map k | k in fields :: JStr(fields[k]))
  {
    var got := UnwrapStrings(WrapStrings(fields)).value;
    var want := map k | k in fields :: JStr(fields[k]);
    assert got.Keys == want.Keys;
    assert forall k | k in got :: got[k] == want[k];
    assert got == want;
    assert UnwrapStrings(WrapStrings(fields)) == Success(got);
  }

  /** Unwraps every item of a query page, failing on the first non-string attribute. */
  function UnwrapAll(page: seq<Item>): (r: Result<seq<Json>, Fault>)
    ensures r.Success? <==> forall i :: 0 <= i < |page| ==> AllStrings(page[i])
    ensures r.Success? ==> |r.value| == |page|
    ensures r.Success? ==> forall i :: 0 <= i < |page| ==> r.value[i] == JObj(UnwrapStrings(page[i]).value)
    decreases |page|
  {
    if |page| == 0 then Success([])
    else match UnwrapStrings(page[0])
      case Failure(f) => Failure(f)
      case Success(first) =>
        match UnwrapAll(page[1..])
        case Failure(f) => Failure(f)
        case Success(rest) => Success([JObj(first)] + rest)
  }

  /** `page` is what a query on partition `pk` returns: every stored item of
      the partition appears, nothing else does, and there are as many entries
      as items. The order is the store's. */
  ghost predicate IsQueryAnswer(t: KeyedTable, pk: string, page: seq<Item>) {
    && |page| == |Partition(t, pk)|
    && (forall sk | sk in Partition(t, pk) :: Partition(t, pk)[sk] in page)
    && (forall i | 0 <= i < |page| :: page[i] in Partition(t, pk).Values)
  }

  /** A query after a put returns the item that was put, and an empty partition gives an empty page. */
  lemma QueryAnswerAfterPut(t: KeyedTable, pk: string, sk: string, item: Item, page: seq<Item>)
    requires IsQueryAnswer(Put(t, pk, sk, item), pk, page)
    ensures item in page
  {
    assert sk in Partition(Put(t, pk, sk, item), pk);
  }

  lemma QueryAnswerOfEmpty(t: KeyedTable, pk: string, page: seq<Item>)
    requires IsQueryAnswer(t, pk, page) && Partition(t, pk) == map[]
    ensures page == []
  {
  }

  /** An item of a page that unwraps successfully appears, unwrapped, in the result. */
  lemma UnwrapAllContains(page: seq<Item>, item: Item)
    requires item in page && UnwrapAll(page).Success?
    ensures JObj(UnwrapStrings(item).value) in UnwrapAll(page).value
  {
    var i :| 0 <= i < |page| && page[i] == item;
    assert UnwrapAll(page).value[i] == JObj(UnwrapStrings(item).value);
  }

  /** What a write handler returns: the response and the table after the call. */
  datatype Written<T> = Written(response: Response, table: T)
}

=== FILE: end_to_end.dfy ===
/** Properties that join a front-end to the backend it talks to. */
module EndToEnd {

  import opened Wrappers
  import opened Json
  import opened Gateway
  import opened Dynamo
  import opened Ui
  import opened RestClient
  import LeaveManager
  import AuthHandler
  import CognitoPortal
  import RestPortal

  /** The backend stores whatever status a body names, but the REST pages
      always send "Pending", so requests made from them are stored pending,
      with the form's dates. */
  lemma PageLeavesArePending(id: string, leaveId: string, userId: Json, form: LeaveForm, now: string)
    requires form.leaveType.JStr? && form.startDate.JStr? && form.endDate.JStr? && form.reason.JStr?
    ensures var m := LeaveBody(userId, form, now).fields;
      && LeaveManager.LeaveFieldsUsable(m)
      && LeaveManager.StoredLeave(id, leaveId, m)["status"] == S(LeaveManager.PendingText)
      && LeaveManager.StoredLeave(id, leaveId, m)["startDate"] == S(form.startDate.s)
      && LeaveManager.StoredLeave(id, leaveId, m)["submittedAt"] == S(now)
  {
    var m := LeaveBody(userId, form, now).fields;
    assert m["status"] == JStr(PendingStatus) && m["submittedAt"] == JStr(now);
    assert m["startDate"] == form.startDate;
  }

  /** How `fetch` hands a handler's response to a page: `response.ok` holds
      for the 2xx statuses, and the page then reads the JSON body. */
  function Delivered(r: Response, statusText: string): (reply: Reply)
    ensures reply.Ok? <==> 200 <= r.statusCode < 300
    ensures !reply.Thrown? && reply.data == r.body
  {
    if 200 <= r.statusCode < 300 then Ok(r.body) else NotOk(r.body, statusText)
  }

  /** `login_user` on the body a REST page posts: tokens give a 200 whose
      `userId` is the address sent; anything else a refusal carrying a
      non-empty `message`. */
  lemma LoginAnswer(e: Event, decode: Decoder, call: AuthHandler.Call<Option<AuthHandler.Tokens>>,
                    email: string, password: string)
    requires BodyObject(e, decode) == Some(map["email" := JStr(email), "password" := JStr(password)])
    ensures var r := AuthHandler.Login(e, decode, call);
      && r.body.JObj?
      && (call.Returned? && call.value.Some? ==>
            r.statusCode == 200 && "userId" in r.body.fields && r.body.fields["userId"] == JStr(email))
      && (!(call.Returned? && call.value.Some?) ==>
            && r.statusCode in {401, 500}
            && MessageOf(r).Some? && |MessageOf(r).value| > 0
            && "message" in r.body.fields && r.body.fields["message"] == JStr(MessageOf(r).value))
  {
    var keys := ["email", "password"];
    assert AuthHandler.HasTexts(e, decode, keys) by {
      assert keys[0] == "email" && keys[1] == "password";
    }
  }

  /** A refusal whose body carries a non-empty `message` is shown as that text. */
  lemma RefusalShown(s: CognitoPortal.State, p: RestPortal.State, body: Json, statusText: string, text: string)
    requires body.JObj? && "message" in body.fields && body.fields["message"] == JStr(text) && |text| > 0
    ensures CognitoPortal.Login(s, NotOk(body, statusText)).state.authMessage == Notice(text, ErrorTone)
    ensures RestPortal.Login(p, NotOk(body, statusText)).state.authMessage == Notice(text, ErrorTone)
  {
    assert MessageOr(body, CognitoPortal.LoginFailedText) == Success(text);
    assert MessageOr(body, RestPortal.LoginFailedText) == Success(text);
  }

  /** The login form posted by either REST page, answered by `login_user`:
      the page signs in exactly when the provider returned tokens, the
      session's user id is then the e-mail address typed in, and on every
      refusal the page shows the handler's own message. */
  lemma LoginRoundTrip(s: CognitoPortal.State, p: RestPortal.State, e: Event, decode: Decoder,
                       call: AuthHandler.Call<Option<AuthHandler.Tokens>>, statusText: string)
    requires !s.isLoggedIn && !p.isLoggedIn
    requires BodyObject(e, decode) == Some(map["email" := JStr(s.loginEmail), "password" := JStr(s.loginPassword)])
    requires p.loginEmail == s.loginEmail
    ensures
      var r := AuthHandler.Login(e, decode, call);
      var t := CognitoPortal.Login(s, Delivered(r, statusText)).state;
      var u := RestPortal.Login(p, Delivered(r, statusText)).state;
      && (t.isLoggedIn <==> call.Returned? && call.value.Some?)
      && (u.isLoggedIn <==> call.Returned? && call.value.Some?)
      && (t.isLoggedIn ==> t.userId == JStr(s.loginEmail))
      && (u.isLoggedIn ==> u.userId == JStr(s.loginEmail))
      && (!t.isLoggedIn ==> MessageOf(r).Some? && t.authMessage == Notice(MessageOf(r).value, ErrorTone))
      && (!u.isLoggedIn ==> MessageOf(r).Some? && u.authMessage == Notice(MessageOf(r).value, ErrorTone))
  {
    var r := AuthHandler.Login(e, decode, call);
    LoginAnswer(e, decode, call, s.loginEmail, s.loginPassword);
    if !(call.Returned? && call.value.Some?) {
      RefusalShown(s, p, r.body, statusText, MessageOf(r).value);
    }
  }

  /** What either REST page posts to log in is the body this handler reads. */
  lemma LoginPostsForm(s: CognitoPortal.State, p: RestPortal.State, reply: Reply, reply': Reply)
    requires p.loginEmail == s.loginEmail && p.loginPassword == s.loginPassword
    ensures CognitoPortal.Login(s, reply).sent == RestPortal.Login(p, reply').sent
    ensures CognitoPortal.Login(s, reply).sent[0].body
         == JObj(map["email" := JStr(s.loginEmail), "password" := JStr(s.loginPassword)])
  {
  }

  /** A refusal carrying a non-empty `message` reaches the page as that text. */
  lemma ExchangeShowsMessage(r: Response, statusText: string, fallback: string, networkText: string)
    requires MessageOf(r).Some? && |MessageOf(r).value| > 0
    ensures AuthExchange(NotOk(r.body, statusText), fallback, networkText) == Failure(Notice(MessageOf(r).value, ErrorTone))
  {
    assert MessageOr(r.body, fallback) == Success(MessageOf(r).value);
  }

  /** The sign-up form posted by the newer page, answered by `register_user`:
      the page moves on to verifying the address exactly when the provider
      accepted the sign-up, and otherwise shows the handler's message. */
  lemma SignupRoundTrip(s: CognitoPortal.State, e: Event, decode: Decoder, call: AuthHandler.Call<()>, statusText: string)
    requires s.signupPassword == s.confirmPassword && PasswordPolicy(s.signupPassword) && !s.showVerificationForm
    requires BodyObject(e, decode) == Some(map["email" := JStr(s.signupEmail), "password" := JStr(s.signupPassword)])
    ensures
      var r := AuthHandler.Register(e, decode, call);
      var t := CognitoPortal.Signup(s, Delivered(r, statusText)).state;
      && (t.showVerificationForm <==> call.Returned?)
      && (t.showVerificationForm ==> t.pendingVerificationEmail == s.signupEmail)
      && (!call.Returned? ==> MessageOf(r).Some? && t.authMessage == Notice(MessageOf(r).value, ErrorTone))
  {
    var keys := ["email", "password"];
    assert AuthHandler.HasTexts(e, decode, keys) by {
      assert keys[0] == "email" && keys[1] == "password";
    }
    var r := AuthHandler.Register(e, decode, call);
    if call.Raised? {
      ExchangeShowsMessage(r, statusText, CognitoPortal.SignupFailedText, CognitoPortal.NetworkRetryText);
    }
  }

  /** The verification form, answered by `confirm_signup`: the page returns
      to the login form with the address filled in exactly when the provider
      confirmed the code, and otherwise shows the handler's message. */
  lemma VerifyRoundTrip(s: CognitoPortal.State, e: Event, decode: Decoder, call: AuthHandler.Call<()>, statusText: string)
    requires s.pendingVerificationEmail != "" && |s.verificationCode| == 6 && s.showVerificationForm
    requires BodyObject(e, decode) == Some(map["email" := JStr(s.pendingVerificationEmail), "code" := JStr(s.verificationCode)])
    ensures
      var r := AuthHandler.ConfirmSignup(e, decode, call);
      var t := CognitoPortal.VerifyCode(s, Delivered(r, statusText)).state;
      && (!t.showVerificationForm <==> call.Returned?)
      && (!t.showVerificationForm ==> t.loginEmail == s.pendingVerificationEmail)
      && (!call.Returned? ==> MessageOf(r).Some? && t.authMessage == Notice(MessageOf(r).value, ErrorTone))
  {
    var keys := ["email", "code"];
    assert AuthHandler.HasTexts(e, decode, keys) by {
      assert keys[0] == "email" && keys[1] == "code";
    }
    var r := AuthHandler.ConfirmSignup(e, decode, call);
    if call.Raised? {
      ExchangeShowsMessage(r, statusText, CognitoPortal.VerifyFailedText, CognitoPortal.VerifyNetworkText);
    }
  }

  /** The resend link, answered by `resend_code`: the page reports success
      exactly when the provider sent a new code, and otherwise shows the
      handler's message. */
  lemma ResendRoundTrip(s: CognitoPortal.State, e: Event, decode: Decoder, call: AuthHandler.Call<()>, statusText: string)
    requires s.pendingVerificationEmail != ""
    requires BodyObject(e, decode) == Some(map["email" := JStr(s.pendingVerificationEmail)])
    ensures
      var r := AuthHandler.ResendCode(e, decode, call);
      var t := CognitoPortal.ResendCode(s, Delivered(r, statusText)).state;
      && (t.authMessage.tone == SuccessTone <==> call.Returned?)
      && (!call.Returned? ==> MessageOf(r).Some? && t.authMessage == Notice(MessageOf(r).value, ErrorTone))
  {
    var keys := ["email"];
    assert AuthHandler.HasTexts(e, decode, keys) by {
      assert keys[0] == "email";
    }
    var r := AuthHandler.ResendCode(e, decode, call);
    if call.Raised? {
      ExchangeShowsMessage(r, statusText, CognitoPortal.ResendFailedText, CognitoPortal.ResendNetworkText);
    }
  }
}

=== FILE: feedback_manager.dfy ===
/** `submit_feedback` and `get_feedback`: each submission is a new item in
    the caller's partition of the feedback table, under a fresh server-chosen
    id. */
module FeedbackManager {

  import opened Wrappers
  import opened Json
  import opened Gateway
  import opened Identity
  import opened Dynamo
  import opened Records

  const SubmittedText := "Feedback submitted successfully!"

  /** The item a submission stores: four string attributes. */
  function FeedbackItem(id: string, feedbackId: string, text: string, timestamp: string): (item: Item)
    ensures AllStrings(item) && |item| == 4
  {
    map["userId" := S(id), "feedbackId" := S(feedbackId), "feedback" := S(text), "timestamp" := S(timestamp)]
  }

  /** The body carries the feedback text, and its timestamp (if any) is a string. */
  ghost predicate FeedbackFieldsUsable(m: map<string, Json>) {
    "feedback" in m && m["feedback"].JStr? && PyGetOr(m, "timestamp", JStr("")).JStr?
  }

  /** The item stored for caller `id` from body `m` under `feedbackId`. */
  function StoredFeedback(id: string, feedbackId: string, m: map<string, Json>): Item {
    FeedbackItem(id, feedbackId, TextOr(m, "feedback", ""), TextOr(m, "timestamp", ""))
  }

  /** The body reads and the `put_item` parameter check of `submit_feedback`. */
  function FeedbackRequest(uid: Json, body: Json, feedbackId: string): (r: Result<Item, Fault>)
    ensures r.Success? <==> uid.JStr? && body.JObj? && FeedbackFieldsUsable(body.fields)
    ensures r.Success? ==> r.value == StoredFeedback(uid.s, feedbackId, body.fields)
    ensures body.JObj? && "feedback" !in body.fields ==> r == Failure(KeyError("feedback"))
  {
    var text :- Require(body, "feedback");
    var timestamp := PyGetOr(body.fields, "timestamp", JStr(""));
    var _ :- StringAttr("Item.userId.S", uid);
    var _ :- StringAttr("Item.feedback.S", text);
    var _ :- StringAttr("Item.timestamp.S", timestamp);
    Success(FeedbackItem(uid.s, feedbackId, text.s, timestamp.s))
  }

  /** `submit_feedback`. `feedbackId` is the fresh UUID the handler draws and
      `fault` the exception `put_item` raises, if any. */
  function SubmitFeedback(v: Variant, e: Event, decode: Decoder, table: KeyedTable, feedbackId: string,
                          fault: Option<string>): (w: Written<KeyedTable>)
    requires ResolveUserId(v, e, decode).Resolved?
    ensures !PyTruthy(ResolveUserId(v, e, decode).id) ==> w == Written(Unauthorized, table)
    ensures w.response.statusCode == 401 <==> !PyTruthy(ResolveUserId(v, e, decode).id)
    ensures w.response.statusCode in {200, 401, 500}
    ensures w.response.statusCode != 200 ==> w.table == table
    ensures w.response.statusCode == 500 ==> IsServerError(w.response)
    ensures w.response.statusCode == 200 ==>
      && fault.None?
      && ResolveUserId(v, e, decode).id.JStr?
      && BodyObject(e, decode).Some?
      && FeedbackFieldsUsable(BodyObject(e, decode).value)
      && var id := ResolveUserId(v, e, decode).id.s;
         && w.table == Put(table, id, feedbackId, StoredFeedback(id, feedbackId, BodyObject(e, decode).value))
         && w.response.body == JObj(map["message" := JStr(SubmittedText), "feedbackId" := JStr(feedbackId)])
    ensures (&& PyTruthy(ResolveUserId(v, e, decode).id) && ResolveUserId(v, e, decode).id.JStr? && fault.None?
             && BodyObject(e, decode).Some? && FeedbackFieldsUsable(BodyObject(e, decode).value))
            ==> w.response.statusCode == 200
    ensures (&& PyTruthy(ResolveUserId(v, e, decode).id) && BodyObject(e, decode).Some?
             && "feedback" !in BodyObject(e, decode).value)
            ==> w.response == ServerError(KeyError("feedback"))
    ensures PyTruthy(ResolveUserId(v, e, decode).id) && LoadBody(e, decode).Failure? ==>
      w == Written(ServerError(LoadBody(e, decode).error), table)
    ensures (&& PyTruthy(ResolveUserId(v, e, decode).id) && LoadBody(e, decode).Success?
             && FeedbackRequest(ResolveUserId(v, e, decode).id, LoadBody(e, decode).value, feedbackId).Failure?)
            ==> w == Written(ServerError(FeedbackRequest(ResolveUserId(v, e, decode).id, LoadBody(e, decode).value,
                                                         feedbackId).error), table)
  {
    var uid := ResolveUserId(v, e, decode).id;
    if !PyTruthy(uid) then Written(Unauthorized, table)
    else match LoadBody(e, decode)
      case Failure(f) => Written(ServerError(f), table)
      case Success(body) =>
        match FeedbackRequest(uid, body, feedbackId)
        case Failure(f) => Written(ServerError(f), table)
        case Success(item) =>
          if fault.Some? then Written(ServerError(ServiceError(fault.value)), table)
          else Written(GetResponse(200, JObj(map["message" := JStr(SubmittedText), "feedbackId" := JStr(feedbackId)])),
                       Put(table, uid.s, feedbackId, item))
  }

  /** `get_feedback`: every item of the caller's partition, unwrapped. */
  function GetFeedback(v: Variant, e: Event, decode: Decoder, page: seq<Item>, fault: Option<string>): (r: Response)
    requires ResolveUserId(v, e, decode).Resolved?
    ensures r == ListStringRecords(v, e, decode, "feedback", page, fault)
    ensures r.statusCode == 401 <==> !PyTruthy(ResolveUserId(v, e, decode).id)
    ensures r.statusCode == 200 ==> r.body.JObj? && r.body.fields.Keys == {"feedback"}
  {
    ListStringRecords(v, e, decode, "feedback", page, fault)
  }

  /** A body without a timestamp is stored with an empty one. */
  lemma TimestampDefault(id: string, feedbackId: string, m: map<string, Json>)
    requires "timestamp" !in m
    ensures StoredFeedback(id, feedbackId, m)["timestamp"] == S("")
  {
  }

  /** Feedback that was accepted shows up, unwrapped, in the caller's next listing. */
  lemma SubmitThenList(v: Variant, e: Event, decode: Decoder, table: KeyedTable, feedbackId: string,
                       v': Variant, e': Event, decode': Decoder, page: seq<Item>)
    requires ResolveUserId(v, e, decode).Resolved?
    requires SubmitFeedback(v, e, decode, table, feedbackId, None).response.statusCode == 200
    requires ResolveUserId(v', e', decode') == ResolveUserId(v, e, decode)
    requires StringPartition(table, ResolveUserId(v, e, decode).id.s)
    requires IsQueryAnswer(SubmitFeedback(v, e, decode, table, feedbackId, None).table, ResolveUserId(v, e, decode).id.s, page)
    ensures GetFeedback(v', e', decode', page, None).statusCode == 200
    ensures
      var item := StoredFeedback(ResolveUserId(v, e, decode).id.s, feedbackId, BodyObject(e, decode).value);
      AllStrings(item) && UnwrapAll(page).Success? && JObj(UnwrapStrings(item).value) in UnwrapAll(page).value
  {
    var id := ResolveUserId(v, e, decode).id.s;
    var item := StoredFeedback(id, feedbackId, BodyObject(e, decode).value);
    PutKeepsStringPartition(table, id, feedbackId, item);
    ListAfterPut(v', e', decode', "feedback", table, id, feedbackId, item, page);
  }
}

=== FILE: firebase_portal.dfy ===
/** `Others/sample_frontend.js`: the variant of the page that keeps
    everything in a hosted document store and signs users in with its
    authentication service, with no REST backend. The authentication
    listener, the store's snapshot listeners and each handler are functions
    from the state before the event; what the services answer is an input,
    and the writes a handler makes are returned in order. */
module FirebasePortal {

  import opened Wrappers
  import opened Json
  import opened Ui
  import opened Sorting

  /** What a service call did: completed, or failed with an error code and message. */
  datatype Outcome = Done | Failed(code: string, message: string)

  /** A document write: `setDoc(path, data, { merge })` or `addDoc(collection, data)`. */
  datatype Write =
    | SetDoc(path: string, data: map<string, Json>, merge: bool)
    | AddDoc(path: string, data: map<string, Json>)

  /** The page's state (the service's user object, `activeSection`, the
      scroll position and the DOM are not modelled). */
  datatype State = State(
    userId: Option<string>,
    isAuthReady: bool,
    isLoggedIn: bool,
    showSignup: bool,
    loading: bool,
    authLoading: bool,
    loginUsername: string,
    loginPassword: string,
    signupUsername: string,
    signupPassword: string,
    confirmPassword: string,
    authMessage: Notice,
    modal: Modal,
    hr: HrData)

  const Initial := State(None, false, false, false, true, false, "", "", "", "", "", NoNotice, ClosedModal, EmptyHr)

  /** A handler's result: the state after it and the writes it attempted, in order. */
  datatype Step = Step(state: State, writes: seq<Write>)

  const AuthInitErrorText := "Error initializing authentication. Please refresh."
  const LoginOkText := "Login successful!"
  const LoginFailedText := "Login failed. Please check your credentials."
  const InvalidCredentialsText := "Invalid username or password."
  const InvalidEmailText := "Invalid email format."
  const MismatchText := "Passwords do not match."
  const SignupOkText := "Account created successfully! Please login."
  const SignupFailedText := "Signup failed. Please try again."
  const EmailInUseText := "Email already in use. Try logging in or use a different email."
  const WeakPasswordText := "Password is too weak. Must be at least 6 characters."
  const LoggedOutText := "You have been logged out."
  const UploadOkText := "Document uploaded successfully!"

  /** `!userId` is false: a user id is known. */
  predicate HasUser(s: State) {
    s.userId.Some? && s.userId.value != ""
  }

  /** `artifacts/${appId}/users/${uid}/`: the root of one user's documents. */
  function UserRoot(appId: string, uid: string): (root: string)
    ensures |root| > |uid|
  {
    "artifacts/" + appId + "/users/" + uid + "/"
  }

  /** The authentication listener. A signed-in user becomes the page's
      user; without one the page is signed out and tries to open a session
      (with the page's start-up token if it has one, anonymously otherwise),
      showing a message only if that fails. Either way the page is ready.
      A session that opens fires the listener again with its user. */
  function AuthChanged(s: State, user: Option<string>, signIn: Outcome): (t: State)
    ensures t.isAuthReady && !t.loading
    ensures t.userId == user && (t.isLoggedIn <==> user.Some?)
    ensures user.None? && signIn.Failed? ==> t.authMessage == Notice(AuthInitErrorText, ErrorTone)
    ensures !(user.None? && signIn.Failed?) ==> t.authMessage == s.authMessage
    ensures t.hr == s.hr && t.modal == s.modal && t.showSignup == s.showSignup
  {
    var t := if user.Some? then s.(userId := user, isLoggedIn := true)
             else if signIn.Failed? then s.(userId := None, isLoggedIn := false, authMessage := Notice(AuthInitErrorText, ErrorTone))
             else s.(userId := None, isLoggedIn := false);
    t.(isAuthReady := true, loading := false)
  }

  /** The snapshot listeners exist only once the listener has run and a user id is known. */
  predicate Subscribed(s: State) {
    s.isAuthReady && HasUser(s)
  }

  /** The profile listener: the stored profile, or the empty one when there is none. */
  function ProfileSnapshot(s: State, stored: Option<map<string, Json>>): (t: State)
    ensures t == s.(hr := t.hr) && t.hr == s.hr.(profile := t.hr.profile)
    ensures stored.Some? ==> t.hr.profile == JObj(stored.value)
    ensures stored.None? ==> t.hr.profile == EmptyProfile
  {
    s.(hr := s.hr.(profile := if stored.Some? then JObj(stored.value) else EmptyProfile))
  }

  /** A listener's error callback: `Error fetching <what>: ${message}`. */
  function SnapshotError(s: State, what: string, message: string): (t: State)
    ensures t == s.(modal := ShowModal("Error fetching " + what + ": " + message, ErrorTone))
  {
    s.(modal := ShowModal("Error fetching " + what + ": " + message, ErrorTone))
  }

  /** A stored document as a list entry: `{ id, ...data }`, so a field named
      `id` in the data wins over the document's id. */
  function Entry(id: string, data: map<string, Json>): (e: Json)
    ensures e.JObj? && e.fields.Keys == {"id"} + data.Keys
    ensures "id" !in data ==> e.fields["id"] == JStr(id)
    ensures forall k :: k in data ==> e.fields[k] == data[k]
  {
    JObj(map["id" := JStr(id)] + data)
  }

  /** A stored document in a collection snapshot: its id and data. */
  datatype StoredDoc = StoredDoc(id: string, data: map<string, Json>)

  function Entries(docs: seq<StoredDoc>): (r: seq<Json>)
    ensures |r| == |docs|
    ensures forall i :: 0 <= i < |docs| ==> r[i] == Entry(docs[i].id, docs[i].data)
  {
    seq(|docs|, i requires 0 <= i < |docs| => Entry(docs[i].id, docs[i].data))
  }

  /** The leaves listener: every stored request, latest start date first. */
  function LeavesSnapshot(s: State, docs: seq<StoredDoc>, date: DateKey): (t: State)
    ensures t == s.(hr := s.hr.(leaves := t.hr.leaves))
    ensures multiset(t.hr.leaves) == multiset(Entries(docs))
    ensures NonIncreasing(t.hr.leaves, DateOrder("startDate", date))
  {
    s.(hr := s.hr.(leaves := SortByDate(Entries(docs), "startDate", date)))
  }

  /** The message a failed sign-in shows, by error code. */
  function LoginErrorText(code: string): (m: string)
    ensures code in {"auth/user-not-found", "auth/wrong-password", "auth/invalid-credential"} <==> m == InvalidCredentialsText
    ensures code == "auth/invalid-email" <==> m == InvalidEmailText
    ensures m in {InvalidCredentialsText, InvalidEmailText, LoginFailedText}
  {
    if code == "auth/user-not-found" || code == "auth/wrong-password" || code == "auth/invalid-credential" then
      InvalidCredentialsText
    else if code == "auth/invalid-email" then InvalidEmailText
    else LoginFailedText
  }

  /** `handleLogin`: only the message changes; the listener signs the page in. */
  function Login(s: State, signIn: Outcome): (t: State)
    ensures t == s.(authLoading := false, authMessage := t.authMessage)
    ensures signIn.Done? ==> t.authMessage == Notice(LoginOkText, SuccessTone)
    ensures signIn.Failed? ==> t.authMessage == Notice(LoginErrorText(signIn.code), ErrorTone)
  {
    var n := if signIn.Done? then Notice(LoginOkText, SuccessTone) else Notice(LoginErrorText(signIn.code), ErrorTone);
    s.(authLoading := false, authMessage := n)
  }

  /** The message a failed sign-up shows, by error code. */
  function SignupErrorText(code: string): (m: string)
    ensures code == "auth/email-already-in-use" <==> m == EmailInUseText
    ensures code == "auth/invalid-email" <==> m == InvalidEmailText
    ensures code == "auth/weak-password" <==> m == WeakPasswordText
    ensures m in {EmailInUseText, InvalidEmailText, WeakPasswordText, SignupFailedText}
  {
    if code == "auth/email-already-in-use" then EmailInUseText
    else if code == "auth/invalid-email" then InvalidEmailText
    else if code == "auth/weak-password" then WeakPasswordText
    else SignupFailedText
  }

  /** `handleSignup`: after the password check, the account is created
      (`created` is the new user's id, or the failure's error code), then a user
      document is written under it; a failure at either step shows the
      message for its code. The page has no password rule of its own. */
  function Signup(s: State, appId: string, created: Result<string, string>, stored: Outcome, now: string): (t: Step)
    ensures !t.state.authLoading
    ensures s.signupPassword != s.confirmPassword ==>
      t == Step(s.(authLoading := false, authMessage := Notice(MismatchText, ErrorTone)), [])
    ensures s.signupPassword == s.confirmPassword && created.Success? ==>
      t.writes == [SetDoc(UserRoot(appId, created.value) + "userData",
                          map["username" := JStr(s.signupUsername), "createdAt" := JStr(now)], false)]
    ensures created.Failure? ==> t.writes == []
    ensures t.state.authMessage.tone == SuccessTone <==>
      s.signupPassword == s.confirmPassword && created.Success? && stored.Done?
    ensures t.state.authMessage.tone == SuccessTone ==>
      t.state == s.(authLoading := false, authMessage := Notice(SignupOkText, SuccessTone),
                    showSignup := false, loginUsername := s.signupUsername)
  {
    var s0 := s.(authMessage := NoNotice, authLoading := false);
    if s.signupPassword != s.confirmPassword then
      Step(s0.(authMessage := Notice(MismatchText, ErrorTone)), [])
    else match created
      case Failure(code) =>
        Step(s0.(authMessage := Notice(SignupErrorText(code), ErrorTone)), [])
      case Success(uid) =>
        var write := SetDoc(UserRoot(appId, uid) + "userData",
                            map["username" := JStr(s.signupUsername), "createdAt" := JStr(now)], false);
        match stored
        case Failed(code, _) => Step(s0.(authMessage := Notice(SignupErrorText(code), ErrorTone)), [write])
        case Done =>
          Step(s0.(authMessage := Notice(SignupOkText, SuccessTone), showSignup := false,
                   loginUsername := s.signupUsername), [write])
  }

  /** `handleLogout`: a completed sign-out shows the page signed out (the
      user id is left for the listener to clear); a failed one only reports. */
  function Logout(s: State, signOut: Outcome): (t: State)
    ensures !t.authLoading
    ensures signOut.Done? ==>
      t == s.(authLoading := false, isLoggedIn := false, modal := ShowModal(LoggedOutText, InfoTone), authMessage := NoNotice)
    ensures signOut.Failed? ==>
      t == s.(authLoading := false, modal := ShowModal("Error logging out: " + signOut.message, ErrorTone))
    ensures t.userId == s.userId && t.hr == s.hr
  {
    match signOut
    case Done => s.(authLoading := false, isLoggedIn := false, modal := ShowModal(LoggedOutText, InfoTone), authMessage := NoNotice)
    case Failed(_, message) => s.(authLoading := false, modal := ShowModal("Error logging out: " + message, ErrorTone))
  }

  /** A feature handler: without a user id it only asks the user to log in;
      otherwise it attempts `write` and reports how it went. */
  function Store(s: State, loginText: string, write: Write, outcome: Outcome, okText: string, errPrefix: string): (t: Step)
    ensures !HasUser(s) ==> t == Step(s.(modal := ShowModal(loginText, ErrorTone)), [])
    ensures HasUser(s) ==> t.writes == [write]
    ensures HasUser(s) && outcome.Done? ==> t.state == s.(modal := ShowModal(okText, SuccessTone))
    ensures HasUser(s) && outcome.Failed? ==> t.state == s.(modal := ShowModal(errPrefix + outcome.message, ErrorTone))
  {
    if !HasUser(s) then Step(s.(modal := ShowModal(loginText, ErrorTone)), [])
    else match outcome
      case Done => Step(s.(modal := ShowModal(okText, SuccessTone)), [write])
      case Failed(_, message) => Step(s.(modal := ShowModal(errPrefix + message, ErrorTone)), [write])
  }

  /** `handleSaveProfile`: merges the profile into the user's profile document. */
  function SaveProfile(s: State, appId: string, outcome: Outcome): (t: Step)
    ensures |t.writes| == 1 <==> HasUser(s)
    ensures HasUser(s) ==>
      t.writes == [SetDoc(UserRoot(appId, s.userId.value) + "profile/myProfile", RestSpread(s.hr.profile), true)]
    ensures !HasUser(s) ==> t.state.modal == ShowModal("Please log in to save your profile.", ErrorTone)
  {
    var write := SetDoc(UserRoot(appId, if HasUser(s) then s.userId.value else "") + "profile/myProfile",
                        RestSpread(s.hr.profile), true);
    Store(s, "Please log in to save your profile.", write, outcome, "Profile saved successfully!", "Error saving profile: ")
  }

  /** The fields of a profile value (an object's own fields). */
  function RestSpread(v: Json): (m: map<string, Json>)
    ensures v.JObj? ==> m == v.fields
  {
    if v.JObj? then v.fields else map[]
  }

  /** `handleSubmitLeave`: adds the request, without a user id field, to the
      user's leaves collection. */
  function SubmitLeave(s: State, appId: string, form: LeaveForm, now: string, outcome: Outcome): (t: Step)
    ensures |t.writes| == 1 <==> HasUser(s)
    ensures HasUser(s) ==> t.writes == [AddDoc(UserRoot(appId, s.userId.value) + "leaves", LeaveFields(form, now))]
    ensures !HasUser(s) ==> t.state.modal == ShowModal("Please log in to submit a leave request.", ErrorTone)
  {
    var write := AddDoc(UserRoot(appId, if HasUser(s) then s.userId.value else "") + "leaves", LeaveFields(form, now));
    Store(s, "Please log in to submit a leave request.", write, outcome,
          "Leave request submitted successfully!", "Error submitting leave request: ")
  }

  /** `handleSubmitFeedback`. */
  function SubmitFeedback(s: State, appId: string, text: Json, now: string, outcome: Outcome): (t: Step)
    ensures |t.writes| == 1 <==> HasUser(s)
    ensures HasUser(s) ==> t.writes == [AddDoc(UserRoot(appId, s.userId.value) + "feedback", FeedbackFields(text, now))]
    ensures !HasUser(s) ==> t.state.modal == ShowModal("Please log in to submit feedback.", ErrorTone)
  {
    var write := AddDoc(UserRoot(appId, if HasUser(s) then s.userId.value else "") + "feedback", FeedbackFields(text, now));
    Store(s, "Please log in to submit feedback.", write, outcome,
          "Feedback submitted successfully!", "Error submitting feedback: ")
  }

  /** The stored document metadata, with a placeholder link naming the user and file. */
  function DocumentRecord(uid: string, file: FileChoice, docType: Json, now: string): (m: map<string, Json>)
    ensures m.Keys == DocumentFields(file, docType, now).Keys + {"downloadUrl"}
    ensures m["downloadUrl"] == JStr("https://example.com/documents/" + uid + "/" + file.name)
  {
    DocumentFields(file, docType, now)["downloadUrl" := JStr("https://example.com/documents/" + uid + "/" + file.name)]
  }

  /** `handleUploadDocument`: the user id is checked first, then the file. */
  function UploadDocument(s: State, appId: string, file: Option<FileChoice>, docType: Json, now: string,
                          outcome: Outcome): (t: Step)
    ensures |t.writes| == 1 <==> HasUser(s) && FilePicked(file)
    ensures |t.writes| == 1 ==>
      t.writes == [AddDoc(UserRoot(appId, s.userId.value) + "documents", DocumentRecord(s.userId.value, file.value, docType, now))]
    ensures !HasUser(s) ==> t.state.modal == ShowModal("Please log in to upload documents.", ErrorTone)
    ensures HasUser(s) && !FilePicked(file) ==> t == Step(s.(modal := ShowModal("Please select a file to upload.", ErrorTone)), [])
  {
    if !HasUser(s) then Step(s.(modal := ShowModal("Please log in to upload documents.", ErrorTone)), [])
    else if !FilePicked(file) then Step(s.(modal := ShowModal("Please select a file to upload.", ErrorTone)), [])
    else
      var uid := s.userId.value;
      var write := AddDoc(UserRoot(appId, uid) + "documents", DocumentRecord(uid, file.value, docType, now));
      Store(s, "Please log in to upload documents.", write, outcome, UploadOkText, "Error uploading document: ")
  }

  /** Every write a feature handler makes lies under the signed-in user's own root. */
  lemma WritesStayUnderUser(s: State, appId: string, form: LeaveForm, text: Json, file: Option<FileChoice>, docType: Json,
                            now: string, outcome: Outcome)
    requires HasUser(s)
    ensures var root := UserRoot(appId, s.userId.value);
      && root <= SaveProfile(s, appId, outcome).writes[0].path
      && root <= SubmitLeave(s, appId, form, now, outcome).writes[0].path
      && root <= SubmitFeedback(s, appId, text, now, outcome).writes[0].path
      && (FilePicked(file) ==> root <= UploadDocument(s, appId, file, docType, now, outcome).writes[0].path)
  {
  }

  /** One user's root is a prefix of another's only when they are the same
      user (ids contain no `/`), so users' documents stay apart. */
  lemma {:induction false} RootsSeparateUsers(appId: string, uid1: string, uid2: string)
    requires '/' !in uid1 && '/' !in uid2
    ensures UserRoot(appId, uid1) <= UserRoot(appId, uid2) <==> uid1 == uid2
  {
    var r1 := UserRoot(appId, uid1);
    var r2 := UserRoot(appId, uid2);
    var n := |"artifacts/" + appId + "/users/"|;
    if r1 <= r2 {
      assert r1 == r2[..|r1|];
      assert r2[n + |uid1|] == r1[n + |uid1|] == '/';
      assert uid1 == r1[n..n + |uid1|] == r2[n..n + |uid2|] == uid2;
    }
  }

  /** `closeModal`. */
  function CloseModal(s: State): (t: State)
    ensures !t.modal.open && t == s.(modal := ClosedModal)
  {
    s.(modal := ClosedModal)
  }

  function ShowSignupLink(s: State): (t: State)
    ensures t == s.(showSignup := true, authMessage := NoNotice)
  {
    s.(showSignup := true, authMessage := NoNotice)
  }

  function ShowLoginLink(s: State): (t: State)
    ensures t == s.(showSignup := false, authMessage := NoNotice)
  {
    s.(showSignup := false, authMessage := NoNotice)
  }

  datatype Screen = Spinner | LoginScreen | SignupScreen | PortalScreen

  /** What the page shows: the spinner until the listener has run and
      loading is over, then one form when signed out, the portal when signed in. */
  function ScreenOf(s: State): (v: Screen)
    ensures v.Spinner? <==> s.loading || !s.isAuthReady
    ensures v.PortalScreen? <==> !s.loading && s.isAuthReady && s.isLoggedIn
  {
    if s.loading || !s.isAuthReady then Spinner
    else if s.isLoggedIn then PortalScreen
    else if s.showSignup then SignupScreen
    else LoginScreen
  }

  /** Signing out opens an anonymous session: the listener sees no user,
      the anonymous sign-in completes, and the listener's next call with
      that session's user shows the portal again. */
  lemma LogoutReturnsToPortal(s: State, anonymous: string)
    ensures ScreenOf(Logout(s, Done)) != PortalScreen
    ensures var s3 := AuthChanged(AuthChanged(Logout(s, Done), None, Done), Some(anonymous), Done);
      ScreenOf(s3) == PortalScreen && s3.userId == Some(anonymous)
  {
  }
}

=== FILE: gateway.dfy ===
/** The helpers every Lambda handler shares: the API-gateway response
    envelope (`get_response`), the exceptions a handler's `try` block turns
    into a 500 response, and reading the JSON request body. */
module Gateway {

  import opened Wrappers
  import opened Json

  /** The API-gateway event handed to a handler: a decoded JSON object. */
  type Event = map<string, Json>

  /** `json.loads`: decodes a text or fails with the decoder's message.
      The decoder itself is a parameter of the model. */
  type Decoder = string -> Result<Json, string>

  /** The dict a handler returns. `body` is the value that `json.dumps` serialises. */
  datatype Response = Response(statusCode: int, headers: map<string, string>, body: Json)

  /** The four response headers, identical on every response. */
  const CorsHeaders: map<string, string> := map[
    "Content-Type" := "application/json",
    "Access-Control-Allow-Origin" := "*",
    "Access-Control-Allow-Methods" := "GET,POST,PUT,DELETE,OPTIONS",
    "Access-Control-Allow-Headers" := "Content-Type,X-Amz-Date,Authorization,X-Api-Key,X-Amz-Security-Token"
  ]

  /** `get_response(status_code, body)`: the status passes through unchanged,
      the headers never depend on the arguments, and the payload is the body given. */
  function GetResponse(statusCode: int, body: Json): (r: Response)
    ensures r.statusCode == statusCode
    ensures r.headers == CorsHeaders && |r.headers| == 4
    ensures r.headers["Content-Type"] == "application/json"
    ensures r.body == body
  {
    Response(statusCode, CorsHeaders, body)
  }

  /** Two responses built by `GetResponse` never differ in their headers. */
  lemma HeadersFixed(s1: int, b1: Json, s2: int, b2: Json)
    ensures GetResponse(s1, b1).headers == GetResponse(s2, b2).headers
    ensures GetResponse(s1, b1).statusCode == s1 && GetResponse(s2, b2).statusCode == s2
  {
  }

  /** A `{'message': text}` response. */
  function MessageResponse(statusCode: int, text: string): Response {
    GetResponse(statusCode, JObj(map["message" := JStr(text)]))
  }

  /** The `message` field of a response body, when it holds a string. */
  function MessageOf(r: Response): Option<string> {
    match r.body
    case JObj(m) => if "message" in m && m["message"].JStr? then Some(m["message"].s) else None
    case _ => None
  }

  const UnauthorizedText := "Unauthorized: User ID missing."

  /** The 401 answer every data handler gives when no user id is resolved. */
  const Unauthorized: Response := MessageResponse(401, UnauthorizedText)

  /** An exception raised inside a handler's `try` block. */
  datatype Fault =
      /** `d[key]` on a dict without `key`. */
    | KeyError(key: string)
      /** `json.loads` rejected the text (`JSONDecodeError`). */
    | DecodeError(detail: string)
      /** A value of the wrong type was indexed, called or decoded
          (`TypeError`, `AttributeError`). */
    | WrongType(detail: string)
      /** `int(text)` of a text that is not an integer. */
    | BadInteger(text: string)
      /** The SDK refused a request parameter before sending it. */
    | ParamValidation(param: string)
      /** The store or the identity provider raised. */
    | ServiceError(detail: string)

  /** `str(e)` for the modelled exceptions. The wording of `TypeError`,
      `AttributeError` and SDK validation errors is abstracted. */
  function FaultText(f: Fault): string {
    match f
    case KeyError(k) => "'" + k + "'"
    case DecodeError(d) => d
    case WrongType(d) => d
    case BadInteger(t) => "invalid literal for int() with base 10: '" + t + "'"
    case ParamValidation(p) => "Parameter validation failed: " + p
    case ServiceError(d) => d
  }

  const ServerErrorPrefix := "Internal server error: "

  /** `get_response(500, {'message': f'Internal server error: {str(e)}'})`. */
  function ServerError(f: Fault): (r: Response)
    ensures r.statusCode == 500
    ensures MessageOf(r) == Some(ServerErrorPrefix + FaultText(f))
  {
    MessageResponse(500, ServerErrorPrefix + FaultText(f))
  }

  /** A 500 response whose message carries the fixed prefix. */
  predicate IsServerError(r: Response) {
    r.statusCode == 500 && MessageOf(r).Some? && ServerErrorPrefix <= MessageOf(r).value
  }

  /** `json.loads(event['body'])`. */
  function LoadBody(e: Event, decode: Decoder): (r: Result<Json, Fault>)
    ensures "body" !in e ==> r == Failure(KeyError("body"))
    ensures "body" in e && !e["body"].JStr? ==> r.Failure? && r.error.WrongType?
  {
    if "body" !in e then Failure(KeyError("body"))
    else match e["body"]
      case JStr(raw) =>
        (match decode(raw)
         case Success(v) => Success(v)
         case Failure(d) => Failure(DecodeError(d)))
      case _ => Failure(WrongType("the JSON object must be str, bytes or bytearray"))
  }

  /** The decoded request body, when it is a JSON object. */
  function BodyObject(e: Event, decode: Decoder): Option<map<string, Json>> {
    var b := LoadBody(e, decode);
    if b.Success? && b.value.JObj? then Some(b.value.fields) else None
  }

  /** `body[key]` on the decoded body. */
  function Require(body: Json, key: string): (r: Result<Json, Fault>)
    ensures body.JObj? && key in body.fields ==> r == Success(body.fields[key])
    ensures body.JObj? && key !in body.fields ==> r == Failure(KeyError(key))
    ensures !body.JObj? ==> r.Failure?
  {
    match body
    case JObj(m) => if key in m then Success(m[key]) else Failure(KeyError(key))
    case _ => Failure(WrongType("the decoded body is not subscriptable by a string"))
  }

  /** `body.get(key, default)` on the decoded body (`default` is `None` for `body.get(key)`). */
  function GetOr(body: Json, key: string, default: Json): (r: Result<Json, Fault>)
    ensures body.JObj? ==> r == Success(PyGetOr(body.fields, key, default))
    ensures !body.JObj? ==> r.Failure?
  {
    match body
    case JObj(m) => Success(PyGetOr(m, key, default))
    case _ => Failure(WrongType("the decoded body has no attribute 'get'"))
  }
}

=== FILE: identity.dfy ===
/** `get_user_id_from_event`: which caller a Lambda invocation acts for.
    Two versions of the helper exist. The repository-root `common_utils.py`
    tries the authorizer claims, then the query string, then the body, and
    stops at the first place that is PRESENT. The packaged copies
    (in the `auth_lambda_package_...` directories) try the claims, then the body,
    then the query string, and stop at the first value that is TRUTHY. */
module Identity {

  import opened Wrappers
  import opened Json
  import opened Gateway

  /** What the helper does: returns an id (`JNull` is Python's `None`) or
      raises an exception that no handler catches. */
  datatype Resolution = Resolved(id: Json) | Raises

  /** The outcome of `'requestContext' in event and 'authorizer' in ... and
      'claims' in ...` followed by `claims.get(...)`. */
  datatype ClaimsProbe = NoClaims | Claims(claims: map<string, Json>) | ProbeRaises

  function ProbeClaims(e: Event): ClaimsProbe {
    if "requestContext" !in e then NoClaims
    else match PyCheckedIndex(e["requestContext"], "authorizer")
      case Raising => ProbeRaises
      case Missing => NoClaims
      case Found(authorizer) =>
        match PyCheckedIndex(authorizer, "claims")
        case Raising => ProbeRaises
        case Missing => NoClaims
        case Found(claims) => if claims.JObj? then Claims(claims.fields) else ProbeRaises
  }

  /** The root helper (claims, then query string, then body). */
  function ResolveRoot(e: Event, decode: Decoder): Resolution {
    match ProbeClaims(e)
    case ProbeRaises => Raises
    case Claims(claims) => Resolved(PyGet(claims, "sub"))
    case NoClaims =>
      var query := if "queryStringParameters" in e
                   then PyCheckedIndex(e["queryStringParameters"], "userId") else Missing;
      match query
      case Raising => Raises
      case Found(id) => Resolved(id)
      case Missing =>
        if "body" !in e then Resolved(JNull)
        else match e["body"]
          case JStr(raw) =>
            (match decode(raw)
             case Failure(_) => Resolved(JNull)
             case Success(body) => if body.JObj? then Resolved(PyGet(body.fields, "userId")) else Raises)
          case _ => Raises
  }

  /** The packaged helper's last step: the query string's `userId`. */
  function PackagedQuery(e: Event): Resolution {
    if "queryStringParameters" in e && PyTruthy(e["queryStringParameters"]) then
      match e["queryStringParameters"]
      case JObj(q) => var id := PyGet(q, "userId"); if PyTruthy(id) then Resolved(id) else Resolved(JNull)
      case _ => Raises
    else Resolved(JNull)
  }

  /** The packaged helper after the claims: the body's `userId`, then the query string. */
  function PackagedBodyThenQuery(e: Event, decode: Decoder): Resolution {
    if "body" in e && PyTruthy(e["body"]) then
      match e["body"]
      case JStr(raw) =>
        (match decode(raw)
         case Failure(_) => PackagedQuery(e)
         case Success(body) =>
           if !body.JObj? then Raises
           else
             var id := PyGet(body.fields, "userId");
             if PyTruthy(id) then Resolved(id) else PackagedQuery(e))
      case _ => Raises
    else PackagedQuery(e)
  }

  /** The packaged helper (truthy claims `sub`, then body, then query string).
      Whatever it returns is either `None` or a truthy value. */
  function ResolvePackaged(e: Event, decode: Decoder): (r: Resolution)
    ensures r.Resolved? ==> r.id == JNull || PyTruthy(r.id)
  {
    match ProbeClaims(e)
    case ProbeRaises => Raises
    case Claims(claims) =>
      var sub := PyGet(claims, "sub");
      if PyTruthy(sub) then Resolved(sub) else PackagedBodyThenQuery(e, decode)
    case NoClaims => PackagedBodyThenQuery(e, decode)
  }

  /** Which copy of `common_utils.py` a handler is packaged with. */
  datatype Variant = RootHelper | PackagedHelper

  function ResolveUserId(v: Variant, e: Event, decode: Decoder): Resolution {
    match v
    case RootHelper => ResolveRoot(e, decode)
    case PackagedHelper => ResolvePackaged(e, decode)
  }

  // ---------------------------------------------------------------------
  // Reference definitions: each helper as a priority list of candidates.

  /** The first present candidate, or `None`. */
  function FirstPresent(cs: seq<Option<Json>>): Json {
    if |cs| == 0 then JNull else if cs[0].Some? then cs[0].value else FirstPresent(cs[1..])
  }

  /** The first truthy candidate, or `None`. */
  function FirstTruthy(cs: seq<Json>): (r: Json)
    ensures r == JNull || PyTruthy(r)
    ensures r != JNull ==> r in cs
  {
    if |cs| == 0 then JNull else if PyTruthy(cs[0]) then cs[0] else FirstTruthy(cs[1..])
  }

  /** The root helper's three places, each `Some` exactly when it is present. */
  function RootCandidates(e: Event, decode: Decoder): seq<Option<Json>> {
    var claims := if ProbeClaims(e).Claims? then Some(PyGet(ProbeClaims(e).claims, "sub")) else None;
    var query := if "queryStringParameters" in e && PyCheckedIndex(e["queryStringParameters"], "userId").Found?
                 then Some(PyCheckedIndex(e["queryStringParameters"], "userId").value) else None;
    var body := if "body" in e && e["body"].JStr? && decode(e["body"].s).Success? && decode(e["body"].s).value.JObj?
                then Some(PyGet(decode(e["body"].s).value.fields, "userId")) else None;
    [claims, query, body]
  }

  /** The packaged helper's three values, `None` where a place is missing. */
  function PackagedCandidates(e: Event, decode: Decoder): seq<Json> {
    var sub := if ProbeClaims(e).Claims? then PyGet(ProbeClaims(e).claims, "sub") else JNull;
    var body := if "body" in e && PyTruthy(e["body"]) && e["body"].JStr? && decode(e["body"].s).Success?
                   && decode(e["body"].s).value.JObj?
                then PyGet(decode(e["body"].s).value.fields, "userId") else JNull;
    var query := if "queryStringParameters" in e && e["queryStringParameters"].JObj?
                 then PyGet(e["queryStringParameters"].fields, "userId") else JNull;
    [sub, body, query]
  }

  /** Whenever the root helper returns, it returns the first present candidate. */
  lemma RootIsFirstPresent(e: Event, decode: Decoder)
    requires ResolveRoot(e, decode).Resolved?
    ensures ResolveRoot(e, decode).id == FirstPresent(RootCandidates(e, decode))
  {
    var cs := RootCandidates(e, decode);
    FirstPresentOfThree(cs[0], cs[1], cs[2]);
    assert cs == [cs[0], cs[1], cs[2]];
    match ProbeClaims(e)
    case Claims(_) =>
    case NoClaims =>
      if "body" in e && e["body"].JStr? {
        var raw := e["body"].s;
        if decode(raw).Success? {
        }
      }
  }

  /** Whenever the packaged helper returns, it returns the first truthy candidate. */
  lemma PackagedIsFirstTruthy(e: Event, decode: Decoder)
    requires ResolvePackaged(e, decode).Resolved?
    ensures ResolvePackaged(e, decode).id == FirstTruthy(PackagedCandidates(e, decode))
  {
    var cs := PackagedCandidates(e, decode);
    FirstTruthyOfThree(cs[0], cs[1], cs[2]);
    assert cs == [cs[0], cs[1], cs[2]];
    assert PackagedQuery(e).Resolved? ==> PackagedQuery(e).id == (if PyTruthy(cs[2]) then cs[2] else JNull);
    if "body" in e && PyTruthy(e["body"]) && e["body"].JStr? {
      var raw := e["body"].s;
      if decode(raw).Success? {
      }
    }
  }

  lemma FirstPresentOfThree(a: Option<Json>, b: Option<Json>, c: Option<Json>)
    ensures FirstPresent([a, b, c]) == if a.Some? then a.value else if b.Some? then b.value else if c.Some? then c.value else JNull
  {
    assert [a, b, c][1..] == [b, c];
    assert [b, c][1..] == [c];
    assert [c][1..] == [];
    assert FirstPresent([c]) == if c.Some? then c.value else JNull;
    assert FirstPresent([b, c]) == if b.Some? then b.value else FirstPresent([c]);
  }

  lemma FirstTruthyOfThree(a: Json, b: Json, c: Json)
    ensures FirstTruthy([a, b, c]) == if PyTruthy(a) then a else if PyTruthy(b) then b else if PyTruthy(c) then c else JNull
  {
    assert [a, b, c][1..] == [b, c];
    assert [b, c][1..] == [c];
    assert [c][1..] == [];
    assert FirstTruthy([c]) == if PyTruthy(c) then c else JNull;
    assert FirstTruthy([b, c]) == if PyTruthy(b) then b else FirstTruthy([c]);
  }

  // ---------------------------------------------------------------------
  // The root helper.

  /** With claims present the result is their `sub`, possibly `None`, and
      neither the query string nor the body is looked at. */
  lemma RootClaimsDecide(e: Event, decode: Decoder, decode': Decoder, query: Json, body: Json)
    requires ProbeClaims(e).Claims?
    ensures ResolveRoot(e, decode) == Resolved(PyGet(ProbeClaims(e).claims, "sub"))
    ensures ResolveRoot(e["queryStringParameters" := query]["body" := body], decode') == ResolveRoot(e, decode)
  {
    var e' := e["queryStringParameters" := query]["body" := body];
    assert "requestContext" in e' <==> "requestContext" in e;
    assert "requestContext" in e ==> e'["requestContext"] == e["requestContext"];
    assert ProbeClaims(e') == ProbeClaims(e);
  }

  /** Without claims, a `userId` key in the query string wins, whatever the body holds. */
  lemma RootQueryBeforeBody(e: Event, decode: Decoder, decode': Decoder, body: Json)
    requires ProbeClaims(e).NoClaims?
    requires "queryStringParameters" in e && e["queryStringParameters"].JObj?
    requires "userId" in e["queryStringParameters"].fields
    ensures ResolveRoot(e["body" := body], decode') == Resolved(e["queryStringParameters"].fields["userId"])
  {
    var e' := e["body" := body];
    assert "requestContext" in e' <==> "requestContext" in e;
    assert "requestContext" in e ==> e'["requestContext"] == e["requestContext"];
    assert ProbeClaims(e') == ProbeClaims(e);
  }

  /** Without claims or a query-string `userId`, a body that decodes to an
      object gives its `userId`, possibly `None`. */
  lemma RootBodyFallback(e: Event, decode: Decoder, raw: string, body: map<string, Json>)
    requires ProbeClaims(e).NoClaims?
    requires "queryStringParameters" in e ==> e["queryStringParameters"].JObj? && "userId" !in e["queryStringParameters"].fields
    requires "body" in e && e["body"] == JStr(raw) && decode(raw) == Success(JObj(body))
    ensures ResolveRoot(e, decode) == Resolved(PyGet(body, "userId"))
  {
  }

  /** A body that fails to decode is swallowed: the result is `None`. */
  lemma RootDecodeErrorSwallowed(e: Event, decode: Decoder, raw: string)
    requires ProbeClaims(e).NoClaims?
    requires "queryStringParameters" in e ==> e["queryStringParameters"].JObj? && "userId" !in e["queryStringParameters"].fields
    requires "body" in e && e["body"] == JStr(raw) && decode(raw).Failure?
    ensures ResolveRoot(e, decode) == Resolved(JNull)
  {
  }

  /** `'userId' in None` and `json.loads(None)` raise: an API-gateway event
      with a null query string and a null body and no claims makes the root
      helper raise instead of returning `None`. */
  lemma RootRaisesOnNullFields(decode: Decoder)
    ensures ResolveRoot(map["queryStringParameters" := JNull], decode) == Raises
    ensures ResolveRoot(map["queryStringParameters" := JObj(map[]), "body" := JNull], decode) == Raises
  {
  }

  // ---------------------------------------------------------------------
  // The packaged helper.

  /** A truthy `sub` claim wins over the body and the query string. */
  lemma PackagedTruthySubWins(e: Event, decode: Decoder, decode': Decoder, query: Json, body: Json)
    requires ProbeClaims(e).Claims? && PyTruthy(PyGet(ProbeClaims(e).claims, "sub"))
    ensures ResolvePackaged(e, decode) == Resolved(PyGet(ProbeClaims(e).claims, "sub"))
    ensures ResolvePackaged(e["queryStringParameters" := query]["body" := body], decode') == ResolvePackaged(e, decode)
  {
    var e' := e["queryStringParameters" := query]["body" := body];
    assert "requestContext" in e' <==> "requestContext" in e;
    assert "requestContext" in e ==> e'["requestContext"] == e["requestContext"];
    assert ProbeClaims(e') == ProbeClaims(e);
  }

  /** No truthy `sub` claim: the helper continues exactly as if no claims were there. */
  ghost predicate NoTruthySub(e: Event) {
    ProbeClaims(e).NoClaims? || (ProbeClaims(e).Claims? && !PyTruthy(PyGet(ProbeClaims(e).claims, "sub")))
  }

  /** A missing or falsy `sub` falls through to a truthy body `userId`,
      whatever the query string holds. */
  lemma PackagedFallsToBody(e: Event, decode: Decoder, raw: string, body: map<string, Json>, query: Json)
    requires NoTruthySub(e)
    requires "body" in e && e["body"] == JStr(raw) && |raw| > 0 && decode(raw) == Success(JObj(body))
    requires PyTruthy(PyGet(body, "userId"))
    ensures ResolvePackaged(e, decode) == Resolved(PyGet(body, "userId"))
    ensures ResolvePackaged(e["queryStringParameters" := query], decode) == Resolved(PyGet(body, "userId"))
  {
    var e' := e["queryStringParameters" := query];
    assert "requestContext" in e' <==> "requestContext" in e;
    assert "requestContext" in e ==> e'["requestContext"] == e["requestContext"];
    assert ProbeClaims(e') == ProbeClaims(e);
  }

  /** A body that fails to decode is swallowed: the result is what it would be without a body. */
  lemma PackagedDecodeErrorSwallowed(e: Event, decode: Decoder, raw: string)
    requires NoTruthySub(e)
    requires "body" in e && e["body"] == JStr(raw) && decode(raw).Failure?
    ensures ResolvePackaged(e, decode) == ResolvePackaged(e - {"body"}, decode)
  {
    var e' := e - {"body"};
    assert "requestContext" in e' <==> "requestContext" in e;
    assert "requestContext" in e ==> e'["requestContext"] == e["requestContext"];
    assert ProbeClaims(e') == ProbeClaims(e);
    assert "queryStringParameters" in e' <==> "queryStringParameters" in e;
    assert "queryStringParameters" in e ==> e'["queryStringParameters"] == e["queryStringParameters"];
    assert PackagedQuery(e') == PackagedQuery(e);
  }

  /** The query string is consulted last: with no truthy claim and no body,
      a non-empty parameter map gives its `userId` when truthy and `None` otherwise. */
  lemma PackagedQueryLast(e: Event, decode: Decoder, query: map<string, Json>)
    requires NoTruthySub(e)
    requires "body" !in e || !PyTruthy(e["body"])
    requires "queryStringParameters" in e && e["queryStringParameters"] == JObj(query) && |query| > 0
    ensures PyTruthy(PyGet(query, "userId")) ==> ResolvePackaged(e, decode) == Resolved(PyGet(query, "userId"))
    ensures !PyTruthy(PyGet(query, "userId")) ==> ResolvePackaged(e, decode) == Resolved(JNull)
  {
  }

  /** An event with no claims, no body and no query string resolves to `None`. */
  lemma PackagedNothingFound(decode: Decoder)
    ensures ResolvePackaged(map[], decode) == Resolved(JNull)
    ensures ResolvePackaged(map["queryStringParameters" := JNull, "body" := JNull], decode) == Resolved(JNull)
  {
  }

  // ---------------------------------------------------------------------
  // The two helpers side by side.

  /** When the claims carry a truthy `sub`, both helpers return it. */
  lemma VariantsAgreeOnTruthySub(e: Event, decode: Decoder)
    requires ProbeClaims(e).Claims? && PyTruthy(PyGet(ProbeClaims(e).claims, "sub"))
    ensures ResolveRoot(e, decode) == ResolvePackaged(e, decode) == Resolved(PyGet(ProbeClaims(e).claims, "sub"))
  {
  }

  /** The helpers disagree on claims without a `sub` (root: `None`, packaged:
      the body's id) and on an event carrying ids in both the query string
      and the body (root: the query's, packaged: the body's). */
  lemma VariantsDiverge()
    ensures
      var decode: Decoder := (raw: string) => Success(JObj(map["userId" := JStr("from-body")]));
      var claimsNoSub := map[
        "requestContext" := JObj(map["authorizer" := JObj(map["claims" := JObj(map[])])]),
        "body" := JStr("{...}")];
      var both := map[
        "queryStringParameters" := JObj(map["userId" := JStr("from-query")]),
        "body" := JStr("{...}")];
      && ResolveRoot(claimsNoSub, decode) == Resolved(JNull)
      && ResolvePackaged(claimsNoSub, decode) == Resolved(JStr("from-body"))
      && ResolveRoot(both, decode) == Resolved(JStr("from-query"))
      && ResolvePackaged(both, decode) == Resolved(JStr("from-body"))
  {
  }
}

=== FILE: json.dfy ===
/** Decoded JSON values as the Lambda handlers (Python) and the web clients
    (JavaScript) see them, with the two languages' notions of truthiness. */
module Json {

  import opened Wrappers

  /** A decoded JSON document. `JNull` stands for Python's `None` and
      JavaScript's `null`; numbers are integers (floating point is not modelled). */
  datatype Json =
    | JNull
    | JBool(b: bool)
    | JNum(n: int)
    | JStr(s: string)
    | JArr(items: seq<Json>)
    | JObj(fields: map<string, Json>)

  /** Python's truth value (`if v:`, `not v`, `all([...])`): empty strings,
      empty containers, zero, `False` and `None` are falsy. */
  predicate PyTruthy(v: Json) {
    match v
    case JNull => false
    case JBool(b) => b
    case JNum(n) => n != 0
    case JStr(s) => |s| > 0
    case JArr(a) => |a| > 0
    case JObj(m) => |m| > 0
  }

  /** JavaScript's truth value: unlike Python, every array and every object is truthy. */
  predicate JsTruthy(v: Json) {
    match v
    case JNull => false
    case JBool(b) => b
    case JNum(n) => n != 0
    case JStr(s) => |s| > 0
    case JArr(_) => true
    case JObj(_) => true
  }

  /** Python `d.get(k)` on a decoded dict: the stored value, or `None` when the key is absent. */
  function PyGet(m: map<string, Json>, k: string): (r: Json)
    ensures k !in m ==> r == JNull
    ensures k in m ==> r == m[k]
  {
    if k in m then m[k] else JNull
  }

  /** Python `d.get(k, default)`. */
  function PyGetOr(m: map<string, Json>, k: string, default: Json): (r: Json)
    ensures k !in m ==> r == default
    ensures k in m ==> r == m[k]
  {
    if k in m then m[k] else default
  }

  /** `k` occurs as a contiguous piece of `s` (Python's `k in s` on strings). */
  predicate IsSubstring(k: string, s: string)
    decreases |s|
  {
    k <= s || (|s| > 0 && IsSubstring(k, s[1..]))
  }

  /** The outcome of Python's `k in c and ... c[k]`. */
  datatype Lookup = Missing | Found(value: Json) | Raising

  /** Python's `k in c` followed, when it holds, by `c[k]`: `Missing` when the
      test is false, `Raising` when either step raises `TypeError` (the test on
      a number, boolean or `None`; indexing a string or a list by a string). */
  function PyCheckedIndex(c: Json, k: string): (r: Lookup)
    ensures c.JObj? ==> (r == if k in c.fields then Found(c.fields[k]) else Missing)
    ensures r.Found? ==> c.JObj?
  {
    match c
    case JObj(m) => if k in m then Found(m[k]) else Missing
    case JStr(s) => if IsSubstring(k, s) then Raising else Missing
    case JArr(a) => if JStr(k) in a then Raising else Missing
    case _ => Raising
  }

  /** A JavaScript property read `o.k`: the value, or `None` for `undefined`.
      Reading a property of `null` throws, which the caller handles. */
  function JsProp(o: Json, k: string): (r: Option<Json>)
    ensures o.JObj? && k in o.fields ==> r == Some(o.fields[k])
    ensures !o.JObj? ==> r == None
  {
    match o
    case JObj(m) => if k in m then Some(m[k]) else None
    case _ => None
  }

  /** JavaScript truthiness of a property read, `undefined` being falsy. */
  predicate JsTruthyOpt(v: Option<Json>) {
    v.Some? && JsTruthy(v.value)
  }
}

=== FILE: leave_manager.dfy ===
/** `submit_leave` and `get_leaves`: each request is a new item in the
    caller's partition of the leaves table, under a fresh server-chosen id.
    The `backend/` and `Others/` copies of `leave_manager.py` are identical;
    this module models both. */
module LeaveManager {

  import opened Wrappers
  import opened Json
  import opened Gateway
  import opened Identity
  import opened Dynamo
  import opened Records

  const SubmittedText := "Leave request submitted successfully!"

  /** The status a request gets when the body names none. */
  const PendingText := "Pending"

  /** The item a submission stores: eight string attributes. */
  function LeaveItem(id: string, leaveId: string, leaveType: string, startDate: string, endDate: string,
                     reason: string, status: string, submittedAt: string): (item: Item)
    ensures AllStrings(item) && |item| == 8
  {
    map["userId" := S(id), "leaveId" := S(leaveId), "leaveType" := S(leaveType), "startDate" := S(startDate),
        "endDate" := S(endDate), "reason" := S(reason), "status" := S(status), "submittedAt" := S(submittedAt)]
  }

  /** Every field the handler reads from the body has a usable value: the
      three required ones are present, and all six (with their defaults) are strings. */
  ghost predicate LeaveFieldsUsable(m: map<string, Json>) {
    && "leaveType" in m && "startDate" in m && "endDate" in m
    && m["leaveType"].JStr? && m["startDate"].JStr? && m["endDate"].JStr?
    && PyGetOr(m, "reason", JStr("")).JStr?
    && PyGetOr(m, "status", JStr(PendingText)).JStr?
    && PyGetOr(m, "submittedAt", JStr("")).JStr?
  }

  /** The item stored for caller `id` from body `m` under `leaveId`. */
  function StoredLeave(id: string, leaveId: string, m: map<string, Json>): Item {
    LeaveItem(id, leaveId, TextOr(m, "leaveType", ""), TextOr(m, "startDate", ""), TextOr(m, "endDate", ""),
              TextOr(m, "reason", ""), TextOr(m, "status", PendingText), TextOr(m, "submittedAt", ""))
  }

  /** The body reads and the `put_item` parameter check of `submit_leave`,
      on the decoded body. The required fields are read in the order
      `leaveType`, `startDate`, `endDate`; the first one absent raises. */
  function LeaveRequest(uid: Json, body: Json, leaveId: string): (r: Result<Item, Fault>)
    ensures r.Success? <==> uid.JStr? && body.JObj? && LeaveFieldsUsable(body.fields)
    ensures r.Success? ==> r.value == StoredLeave(uid.s, leaveId, body.fields)
    ensures body.JObj? && "leaveType" !in body.fields ==> r == Failure(KeyError("leaveType"))
    ensures body.JObj? && "leaveType" in body.fields && "startDate" !in body.fields ==> r == Failure(KeyError("startDate"))
    ensures body.JObj? && "leaveType" in body.fields && "startDate" in body.fields && "endDate" !in body.fields
            ==> r == Failure(KeyError("endDate"))
  {
    var leaveType :- Require(body, "leaveType");
    var startDate :- Require(body, "startDate");
    var endDate :- Require(body, "endDate");
    var reason := PyGetOr(body.fields, "reason", JStr(""));
    var status := PyGetOr(body.fields, "status", JStr(PendingText));
    var submittedAt := PyGetOr(body.fields, "submittedAt", JStr(""));
    var _ :- StringAttr("Item.userId.S", uid);
    var _ :- StringAttr("Item.leaveType.S", leaveType);
    var _ :- StringAttr("Item.startDate.S", startDate);
    var _ :- StringAttr("Item.endDate.S", endDate);
    var _ :- StringAttr("Item.reason.S", reason);
    var _ :- StringAttr("Item.status.S", status);
    var _ :- StringAttr("Item.submittedAt.S", submittedAt);
    Success(LeaveItem(uid.s, leaveId, leaveType.s, startDate.s, endDate.s, reason.s, status.s, submittedAt.s))
  }

  /** `submit_leave`. `leaveId` is the fresh UUID the handler draws and
      `fault` the exception `put_item` raises, if any. Only a 200 answer
      writes, and it writes exactly one item, under the caller's partition
      and the fresh id, echoing that id back. */
  function SubmitLeave(v: Variant, e: Event, decode: Decoder, table: KeyedTable, leaveId: string,
                       fault: Option<string>): (w: Written<KeyedTable>)
    requires ResolveUserId(v, e, decode).Resolved?
    ensures !PyTruthy(ResolveUserId(v, e, decode).id) ==> w == Written(Unauthorized, table)
    ensures w.response.statusCode == 401 <==> !PyTruthy(ResolveUserId(v, e, decode).id)
    ensures w.response.statusCode in {200, 401, 500}
    ensures w.response.statusCode != 200 ==> w.table == table
    ensures w.response.statusCode == 500 ==> IsServerError(w.response)
    ensures w.response.statusCode == 200 ==>
      && fault.None?
      && ResolveUserId(v, e, decode).id.JStr?
      && BodyObject(e, decode).Some?
      && LeaveFieldsUsable(BodyObject(e, decode).value)
      && var id := ResolveUserId(v, e, decode).id.s;
         && w.table == Put(table, id, leaveId, StoredLeave(id, leaveId, BodyObject(e, decode).value))
         && w.response.body == JObj(map["message" := JStr(SubmittedText), "leaveId" := JStr(leaveId)])
    ensures (&& PyTruthy(ResolveUserId(v, e, decode).id) && ResolveUserId(v, e, decode).id.JStr? && fault.None?
             && BodyObject(e, decode).Some? && LeaveFieldsUsable(BodyObject(e, decode).value))
            ==> w.response.statusCode == 200
    ensures (&& PyTruthy(ResolveUserId(v, e, decode).id) && BodyObject(e, decode).Some?
             && "leaveType" !in BodyObject(e, decode).value)
            ==> w.response == ServerError(KeyError("leaveType"))
    ensures (&& PyTruthy(ResolveUserId(v, e, decode).id) && BodyObject(e, decode).Some?
             && "leaveType" in BodyObject(e, decode).value && "startDate" !in BodyObject(e, decode).value)
            ==> w.response == ServerError(KeyError("startDate"))
    ensures (&& PyTruthy(ResolveUserId(v, e, decode).id) && BodyObject(e, decode).Some?
             && "leaveType" in BodyObject(e, decode).value && "startDate" in BodyObject(e, decode).value
             && "endDate" !in BodyObject(e, decode).value)
            ==> w.response == ServerError(KeyError("endDate"))
    ensures PyTruthy(ResolveUserId(v, e, decode).id) && LoadBody(e, decode).Failure? ==>
      w == Written(ServerError(LoadBody(e, decode).error), table)
    ensures (&& PyTruthy(ResolveUserId(v, e, decode).id) && LoadBody(e, decode).Success?
             && LeaveRequest(ResolveUserId(v, e, decode).id, LoadBody(e, decode).value, leaveId).Failure?)
            ==> w == Written(ServerError(LeaveRequest(ResolveUserId(v, e, decode).id, LoadBody(e, decode).value,
                                                      leaveId).error), table)
  {
    var uid := ResolveUserId(v, e, decode).id;
    if !PyTruthy(uid) then Written(Unauthorized, table)
    else match LoadBody(e, decode)
      case Failure(f) => Written(ServerError(f), table)
      case Success(body) =>
        match LeaveRequest(uid, body, leaveId)
        case Failure(f) => Written(ServerError(f), table)
        case Success(item) =>
          if fault.Some? then Written(ServerError(ServiceError(fault.value)), table)
          else Written(GetResponse(200, JObj(map["message" := JStr(SubmittedText), "leaveId" := JStr(leaveId)])),
                       Put(table, uid.s, leaveId, item))
  }

  /** `get_leaves`: every item of the caller's partition, unwrapped. */
  function GetLeaves(v: Variant, e: Event, decode: Decoder, page: seq<Item>, fault: Option<string>): (r: Response)
    requires ResolveUserId(v, e, decode).Resolved?
    ensures r == ListStringRecords(v, e, decode, "leaves", page, fault)
    ensures r.statusCode == 401 <==> !PyTruthy(ResolveUserId(v, e, decode).id)
    ensures r.statusCode == 200 ==> r.body.JObj? && r.body.fields.Keys == {"leaves"}
  {
    ListStringRecords(v, e, decode, "leaves", page, fault)
  }

  /** Fields the body leaves out are stored with their defaults: an empty
      reason, status "Pending", an empty submission time. */
  lemma LeaveDefaults(id: string, leaveId: string, m: map<string, Json>)
    requires "reason" !in m && "status" !in m && "submittedAt" !in m
    ensures StoredLeave(id, leaveId, m)["reason"] == S("")
    ensures StoredLeave(id, leaveId, m)["status"] == S(PendingText)
    ensures StoredLeave(id, leaveId, m)["submittedAt"] == S("")
  {
  }

  /** The stored status is whatever the body says: the handler does not
      force new requests to "Pending", and it does not compare the two dates. */
  lemma ClientChosenStatusAndDates(id: string, leaveId: string, m: map<string, Json>, status: string)
    requires LeaveFieldsUsable(m) && "status" in m && m["status"] == JStr(status)
    ensures StoredLeave(id, leaveId, m)["status"] == S(status)
    ensures StoredLeave(id, leaveId, m)["startDate"] == S(m["startDate"].s)
    ensures StoredLeave(id, leaveId, m)["endDate"] == S(m["endDate"].s)
  {
  }

  /** A leave request that was accepted shows up, unwrapped, in the
      caller's next listing. */
  lemma SubmitThenList(v: Variant, e: Event, decode: Decoder, table: KeyedTable, leaveId: string,
                       v': Variant, e': Event, decode': Decoder, page: seq<Item>)
    requires ResolveUserId(v, e, decode).Resolved?
    requires SubmitLeave(v, e, decode, table, leaveId, None).response.statusCode == 200
    requires ResolveUserId(v', e', decode') == ResolveUserId(v, e, decode)
    requires StringPartition(table, ResolveUserId(v, e, decode).id.s)
    requires IsQueryAnswer(SubmitLeave(v, e, decode, table, leaveId, None).table, ResolveUserId(v, e, decode).id.s, page)
    ensures GetLeaves(v', e', decode', page, None).statusCode == 200
    ensures
      var item := StoredLeave(ResolveUserId(v, e, decode).id.s, leaveId, BodyObject(e, decode).value);
      AllStrings(item) && UnwrapAll(page).Success? && JObj(UnwrapStrings(item).value) in UnwrapAll(page).value
  {
    var id := ResolveUserId(v, e, decode).id.s;
    var item := StoredLeave(id, leaveId, BodyObject(e, decode).value);
    PutKeepsStringPartition(table, id, leaveId, item);
    ListAfterPut(v', e', decode', "leaves", table, id, leaveId, item, page);
  }
}

=== FILE: profile_manager.dfy ===
/** `get_profile` and `update_profile`: one profile item per user, read back
    attribute by attribute and overwritten wholesale on every save. The
    `backend/` and repository-root copies of `profile_manager.py` are
    identical; this module models both. */
module ProfileManager {

  import opened Wrappers
  import opened Json
  import opened Gateway
  import opened Identity
  import opened Dynamo

  const MissingFieldsText := "Missing required profile fields."
  const NotFoundText := "Profile not found."
  const UpdatedText := "Profile updated successfully."

  /** The four fields a save must carry. */
  const ProfileFields: seq<string> := ["empId", "name", "email", "department"]

  /** The item a save stores: the caller's id and the four fields, all strings. */
  function ProfileItem(id: string, empId: string, name: string, email: string, department: string): Item {
    map["userId" := S(id), "empId" := S(empId), "name" := S(name), "email" := S(email), "department" := S(department)]
  }

  /** `get_profile`. `fault` is the exception `get_item` raises, if any. */
  function GetProfile(v: Variant, e: Event, decode: Decoder, table: UserTable, fault: Option<string>): (r: Response)
    requires ResolveUserId(v, e, decode).Resolved?
    ensures !PyTruthy(ResolveUserId(v, e, decode).id) ==> r == Unauthorized
    ensures r.statusCode == 401 <==> !PyTruthy(ResolveUserId(v, e, decode).id)
    ensures r.statusCode in {200, 401, 500}
    ensures r.statusCode == 500 ==> IsServerError(r)
    ensures PyTruthy(ResolveUserId(v, e, decode).id) && fault.Some? ==> r.statusCode == 500
  {
    var uid := ResolveUserId(v, e, decode).id;
    if !PyTruthy(uid) then Unauthorized
    else if !uid.JStr? then ServerError(ParamValidation("Key.userId.S"))
    else if fault.Some? then ServerError(ServiceError(fault.value))
    else if uid.s !in table || |table[uid.s]| == 0 then
      GetResponse(200, JObj(map["profile" := JObj(map[]), "message" := JStr(NotFoundText)]))
    else match UnwrapStrings(table[uid.s])
      case Failure(f) => ServerError(f)
      case Success(profile) => GetResponse(200, JObj(map["profile" := JObj(profile)]))
  }

  /** The request part of `update_profile` (inside its `try`): the item to
      store, `None` when a field is missing or empty, or the exception raised. */
  function SaveRequest(uid: Json, e: Event, decode: Decoder): (r: Result<Option<(string, Item)>, Fault>)
    ensures r.Success? && r.value.Some? ==> uid.JStr? && r.value.value.0 == uid.s
  {
    var body :- LoadBody(e, decode);
    var empId :- GetOr(body, "empId", JNull);
    // `body` is a dict from here on, so the remaining `.get` calls cannot raise.
    var name := PyGet(body.fields, "name");
    var email := PyGet(body.fields, "email");
    var department := PyGet(body.fields, "department");
    if !(PyTruthy(empId) && PyTruthy(name) && PyTruthy(email) && PyTruthy(department)) then Success(None)
    else
      var _ :- StringAttr("Item.userId.S", uid);
      var _ :- StringAttr("Item.empId.S", empId);
      var _ :- StringAttr("Item.name.S", name);
      var _ :- StringAttr("Item.email.S", email);
      var _ :- StringAttr("Item.department.S", department);
      Success(Some((uid.s, ProfileItem(uid.s, empId.s, name.s, email.s, department.s))))
  }

  /** The body decodes to an object in which some required field is missing or falsy. */
  ghost predicate FieldMissing(e: Event, decode: Decoder) {
    && LoadBody(e, decode).Success?
    && LoadBody(e, decode).value.JObj?
    && exists f :: f in ProfileFields && !PyTruthy(PyGet(LoadBody(e, decode).value.fields, f))
  }

  /** The body decodes to an object whose four fields are non-empty strings. */
  ghost predicate FieldsPresent(e: Event, decode: Decoder) {
    && LoadBody(e, decode).Success?
    && LoadBody(e, decode).value.JObj?
    && forall f :: f in ProfileFields ==>
         var x := PyGet(LoadBody(e, decode).value.fields, f); x.JStr? && |x.s| > 0
  }

  /** The body field `f` as a string (meaningful when `FieldsPresent`). */
  ghost function BodyString(e: Event, decode: Decoder, f: string): string {
    var b := LoadBody(e, decode);
    if b.Success? && b.value.JObj? && f in b.value.fields && b.value.fields[f].JStr? then b.value.fields[f].s else ""
  }

  /** A body whose four fields are non-empty strings yields an item to store
      for a string id. */
  lemma PresentFieldsMakeItem(uid: Json, e: Event, decode: Decoder)
    requires uid.JStr? && FieldsPresent(e, decode)
    ensures SaveRequest(uid, e, decode).Success? && SaveRequest(uid, e, decode).value.Some?
  {
    var m := LoadBody(e, decode).value.fields;
    assert ProfileFields[0] == "empId" && ProfileFields[1] == "name";
    assert ProfileFields[2] == "email" && ProfileFields[3] == "department";
    assert PyGet(m, "empId").JStr? && PyGet(m, "name").JStr?;
    assert PyGet(m, "email").JStr? && PyGet(m, "department").JStr?;
  }

  /** How the request part ends: `None` exactly when a field is missing or
      falsy, an item for a string id whenever the four fields are non-empty
      strings, and any item is built from those four fields. */
  lemma SaveRequestCases(uid: Json, e: Event, decode: Decoder)
    ensures SaveRequest(uid, e, decode) == Success(None) <==> FieldMissing(e, decode)
    ensures uid.JStr? && FieldsPresent(e, decode) ==>
      SaveRequest(uid, e, decode).Success? && SaveRequest(uid, e, decode).value.Some?
    ensures SaveRequest(uid, e, decode).Success? && SaveRequest(uid, e, decode).value.Some? ==>
      && FieldsPresent(e, decode)
      && SaveRequest(uid, e, decode).value.value.1
         == ProfileItem(uid.s, BodyString(e, decode, "empId"), BodyString(e, decode, "name"),
                        BodyString(e, decode, "email"), BodyString(e, decode, "department"))
  {
    var request := SaveRequest(uid, e, decode);
    var b := LoadBody(e, decode);
    if b.Success? && b.value.JObj? {
      var m := b.value.fields;
      assert ProfileFields[0] == "empId" && ProfileFields[1] == "name";
      assert ProfileFields[2] == "email" && ProfileFields[3] == "department";
      if !(PyTruthy(PyGet(m, "empId")) && PyTruthy(PyGet(m, "name")) && PyTruthy(PyGet(m, "email")) && PyTruthy(PyGet(m, "department"))) {
        assert request == Success(None);
      }
    }
    if uid.JStr? && FieldsPresent(e, decode) {
      PresentFieldsMakeItem(uid, e, decode);
    }
  }

  /** `update_profile`. `fault` is the exception `put_item` raises, if any.
      Only a 200 answer changes the table, and it replaces the caller's whole
      item by exactly the five string attributes. A missing or empty field
      gives 400 and writes nothing. */
  function UpdateProfile(v: Variant, e: Event, decode: Decoder, table: UserTable, fault: Option<string>): (w: Written<UserTable>)
    requires ResolveUserId(v, e, decode).Resolved?
    ensures !PyTruthy(ResolveUserId(v, e, decode).id) ==> w == Written(Unauthorized, table)
    ensures w.response.statusCode == 401 <==> !PyTruthy(ResolveUserId(v, e, decode).id)
    ensures w.response.statusCode in {200, 400, 401, 500}
    ensures w.response.statusCode != 200 ==> w.table == table
    ensures w.response.statusCode == 500 ==> IsServerError(w.response)
    ensures w.response.statusCode == 400 <==> PyTruthy(ResolveUserId(v, e, decode).id) && FieldMissing(e, decode)
    ensures w.response.statusCode == 400 ==> MessageOf(w.response) == Some(MissingFieldsText)
    ensures w.response.statusCode == 200 ==>
      && fault.None?
      && FieldsPresent(e, decode)
      && ResolveUserId(v, e, decode).id.JStr?
      && var id := ResolveUserId(v, e, decode).id.s;
         w.table == table[id := ProfileItem(id, BodyString(e, decode, "empId"), BodyString(e, decode, "name"),
                                            BodyString(e, decode, "email"), BodyString(e, decode, "department"))]
    ensures (&& PyTruthy(ResolveUserId(v, e, decode).id) && ResolveUserId(v, e, decode).id.JStr?
             && FieldsPresent(e, decode) && fault.None?)
            ==> w.response == MessageResponse(200, UpdatedText)
    ensures PyTruthy(ResolveUserId(v, e, decode).id) && !FieldMissing(e, decode) && fault.Some? ==> w.response.statusCode == 500
  {
    var uid := ResolveUserId(v, e, decode).id;
    if !PyTruthy(uid) then Written(Unauthorized, table)
    else
      var request := SaveRequest(uid, e, decode);
      SaveRequestCases(uid, e, decode);
      match request
      case Failure(f) => Written(ServerError(f), table)
      case Success(None) => Written(MessageResponse(400, MissingFieldsText), table)
      case Success(Some((id, item))) =>
        if fault.Some? then Written(ServerError(ServiceError(fault.value)), table)
        else Written(MessageResponse(200, UpdatedText), table[id := item])
  }

  /** A save followed by a read for the same caller returns the saved fields
      (together with the caller's id) as strings. */
  lemma UpdateThenGet(v: Variant, e: Event, decode: Decoder, table: UserTable, fault: Option<string>,
                      v': Variant, e': Event, decode': Decoder)
    requires ResolveUserId(v, e, decode).Resolved?
    requires UpdateProfile(v, e, decode, table, fault).response.statusCode == 200
    requires ResolveUserId(v', e', decode') == ResolveUserId(v, e, decode)
    ensures
      var id := ResolveUserId(v, e, decode).id.s;
      var saved := UpdateProfile(v, e, decode, table, fault).table;
      GetProfile(v', e', decode', saved, None)
        == GetResponse(200, JObj(map["profile" := JObj(map[
             "userId" := JStr(id),
             "empId" := JStr(BodyString(e, decode, "empId")),
             "name" := JStr(BodyString(e, decode, "name")),
             "email" := JStr(BodyString(e, decode, "email")),
             "department" := JStr(BodyString(e, decode, "department"))])]))
  {
    var id := ResolveUserId(v, e, decode).id.s;
    var w := UpdateProfile(v, e, decode, table, fault);
    var item := ProfileItem(id, BodyString(e, decode, "empId"), BodyString(e, decode, "name"),
                            BodyString(e, decode, "email"), BodyString(e, decode, "department"));
    assert w.table == table[id := item];
    UnwrapProfileItem(id, BodyString(e, decode, "empId"), BodyString(e, decode, "name"),
                      BodyString(e, decode, "email"), BodyString(e, decode, "department"));
    ReadStoredProfile(v', e', decode', w.table, id);
  }

  /** Unwrapping a stored profile item gives its five strings back. */
  lemma UnwrapProfileItem(id: string, empId: string, name: string, email: string, department: string)
    ensures UnwrapStrings(ProfileItem(id, empId, name, email, department))
      == Success(map["userId" := JStr(id), "empId" := JStr(empId), "name" := JStr(name),
                     "email" := JStr(email), "department" := JStr(department)])
  {
    var got := UnwrapStrings(ProfileItem(id, empId, name, email, department)).value;
    var want := map["userId" := JStr(id), "empId" := JStr(empId), "name" := JStr(name),
                    "email" := JStr(email), "department" := JStr(department)];
    assert got.Keys == want.Keys;
    assert got == want;
  }

  /** Reading an existing string-only item returns its unwrapped attributes. */
  lemma ReadStoredProfile(v: Variant, e: Event, decode: Decoder, table: UserTable, id: string)
    requires ResolveUserId(v, e, decode) == Resolved(JStr(id)) && |id| > 0
    requires id in table && |table[id]| > 0 && AllStrings(table[id])
    ensures GetProfile(v, e, decode, table, None)
      == GetResponse(200, JObj(map["profile" := JObj(UnwrapStrings(table[id]).value)]))
  {
  }

  /** A caller without an id is refused before the store is consulted: the
      answers do not depend on the table or on store failures. */
  lemma NoStoreAccessWhenUnauthorized(v: Variant, e: Event, decode: Decoder,
                                      t1: UserTable, f1: Option<string>, t2: UserTable, f2: Option<string>)
    requires ResolveUserId(v, e, decode).Resolved? && !PyTruthy(ResolveUserId(v, e, decode).id)
    ensures GetProfile(v, e, decode, t1, f1) == GetProfile(v, e, decode, t2, f2) == Unauthorized
    ensures UpdateProfile(v, e, decode, t1, f1).response == UpdateProfile(v, e, decode, t2, f2).response == Unauthorized
  {
  }

  /** A caller with no stored item gets 200, an empty profile and the "not found" message. */
  lemma AbsentProfile(v: Variant, e: Event, decode: Decoder, table: UserTable)
    requires ResolveUserId(v, e, decode).Resolved?
    requires ResolveUserId(v, e, decode).id.JStr? && |ResolveUserId(v, e, decode).id.s| > 0
    requires ResolveUserId(v, e, decode).id.s !in table
    ensures GetProfile(v, e, decode, table, None)
      == GetResponse(200, JObj(map["profile" := JObj(map[]), "message" := JStr(NotFoundText)]))
  {
  }
}

=== FILE: records.dfy ===
/** The read handlers that list a user's string-only items (`get_leaves`,
    `get_feedback`): resolve the caller, query the user's partition, and
    unwrap every attribute of every item. */
module Records {

  import opened Wrappers
  import opened Json
  import opened Gateway
  import opened Identity
  import opened Dynamo

  /** The user id as the `S` value of the query's key condition. */
  function QueryKey(uid: Json): Result<string, Fault> {
    if uid.JStr? then Success(uid.s) else Failure(ParamValidation("ExpressionAttributeValues.:uid.S"))
  }

  /** A read handler of this shape, answering `{listName: [...]}`. `page` is
      what the query returned and `fault` the exception it raised, if any. */
  function ListStringRecords(v: Variant, e: Event, decode: Decoder, listName: string,
                             page: seq<Item>, fault: Option<string>): (r: Response)
    requires ResolveUserId(v, e, decode).Resolved?
    ensures !PyTruthy(ResolveUserId(v, e, decode).id) ==> r == Unauthorized
    ensures r.statusCode == 401 <==> !PyTruthy(ResolveUserId(v, e, decode).id)
    ensures r.statusCode in {200, 401, 500}
    ensures r.statusCode == 500 ==> IsServerError(r)
    ensures r.statusCode == 200 ==>
      && fault.None?
      && UnwrapAll(page).Success?
      && r.body == JObj(map[listName := JArr(UnwrapAll(page).value)])
    ensures (&& PyTruthy(ResolveUserId(v, e, decode).id) && ResolveUserId(v, e, decode).id.JStr? && fault.None?
             && forall i :: 0 <= i < |page| ==> AllStrings(page[i]))
            ==> r.statusCode == 200
  {
    var uid := ResolveUserId(v, e, decode).id;
    if !PyTruthy(uid) then Unauthorized
    else match QueryKey(uid)
      case Failure(f) => ServerError(f)
      case Success(_) =>
        if fault.Some? then ServerError(ServiceError(fault.value))
        else match UnwrapAll(page)
          case Failure(f) => ServerError(f)
          case Success(records) => GetResponse(200, JObj(map[listName := JArr(records)]))
  }

  /** Every item in the user's partition has only string attributes. */
  ghost predicate StringPartition(t: KeyedTable, pk: string) {
    forall sk | sk in Partition(t, pk) :: AllStrings(Partition(t, pk)[sk])
  }

  /** Listing a partition whose items are all string-only succeeds; an
      item put there earlier is among the records, unwrapped. */
  lemma ListAfterPut(v: Variant, e: Event, decode: Decoder, listName: string,
                     t: KeyedTable, id: string, sk: string, item: Item, page: seq<Item>)
    requires ResolveUserId(v, e, decode) == Resolved(JStr(id)) && |id| > 0
    requires IsQueryAnswer(Put(t, id, sk, item), id, page)
    requires StringPartition(Put(t, id, sk, item), id)
    ensures ListStringRecords(v, e, decode, listName, page, None).statusCode == 200
    ensures AllStrings(item) && UnwrapAll(page).Success?
    ensures JObj(UnwrapStrings(item).value) in UnwrapAll(page).value
  {
    var t' := Put(t, id, sk, item);
    assert Partition(t', id)[sk] == item;
    PageOfStringPartition(t', id, page);
    assert forall i :: 0 <= i < |page| ==> AllStrings(page[i]);
    ListOfStringPage(v, e, decode, listName, id, page);
    QueryAnswerAfterPut(t, id, sk, item, page);
    assert item in page;
    UnwrapAllContains(page, item);
  }

  /** The status half of the above, stated on the page alone. */
  lemma ListOfStringPage(v: Variant, e: Event, decode: Decoder, listName: string, id: string, page: seq<Item>)
    requires ResolveUserId(v, e, decode) == Resolved(JStr(id)) && |id| > 0
    requires forall i :: 0 <= i < |page| ==> AllStrings(page[i])
    ensures ListStringRecords(v, e, decode, listName, page, None) == GetResponse(200, JObj(map[listName := JArr(UnwrapAll(page).value)]))
  {
    var all := UnwrapAll(page);
    assert all.Success?;
    assert PyTruthy(JStr(id));
    assert QueryKey(JStr(id)) == Success(id);
  }

  /** A query answer for a string-only partition holds only string-only items. */
  lemma PageOfStringPartition(t: KeyedTable, pk: string, page: seq<Item>)
    requires IsQueryAnswer(t, pk, page) && StringPartition(t, pk)
    ensures forall i :: 0 <= i < |page| ==> AllStrings(page[i])
  {
    var part := Partition(t, pk);
    forall i | 0 <= i < |page| ensures AllStrings(page[i]) {
      assert page[i] in part.Values;
      var j :| j in part && part[j] == page[i];
    }
  }

  /** A user with nothing stored gets an empty list. */
  lemma ListOfEmptyPartition(v: Variant, e: Event, decode: Decoder, listName: string, t: KeyedTable, id: string, page: seq<Item>)
    requires ResolveUserId(v, e, decode) == Resolved(JStr(id)) && |id| > 0
    requires IsQueryAnswer(t, id, page) && Partition(t, id) == map[]
    ensures ListStringRecords(v, e, decode, listName, page, None) == GetResponse(200, JObj(map[listName := JArr([])]))
  {
    QueryAnswerOfEmpty(t, id, page);
  }

  /** Putting a string-only item keeps a string-only partition string-only. */
  lemma PutKeepsStringPartition(t: KeyedTable, pk: string, sk: string, item: Item)
    requires StringPartition(t, pk) && AllStrings(item)
    ensures StringPartition(Put(t, pk, sk, item), pk)
  {
  }

  /** The text of `body.get(k, d)` when it is a string (the empty text otherwise). */
  function TextOr(m: map<string, Json>, k: string, d: string): (r: string)
    ensures k !in m ==> r == d
    ensures k in m && m[k].JStr? ==> r == m[k].s
  {
    var x := PyGetOr(m, k, JStr(d));
    if x.JStr? then x.s else ""
  }
}

=== FILE: rest_client.dfy ===
/** What the two REST front-ends (`frontend/src/App.js` and `frontend.js`)
    share: one HTTP exchange with the API, the bodies the submit handlers
    send, the feature handlers themselves, and the four-step fetch of the
    signed-in user's data. Requests are paths relative to each page's API
    base URL. */
module RestClient {

  import opened Wrappers
  import opened Json
  import opened Ui

  /** What an exchange yields: an ok answer with its parsed body, a non-ok
      answer with its parsed body and status text, or a rejection (the
      network, or a body that does not parse) with its message. */
  datatype Reply = Ok(data: Json) | NotOk(data: Json, statusText: string) | Thrown(message: string)

  datatype Request = Get(path: string) | Post(path: string, body: Json)

  /** A feature handler's effect: the modal it leaves open and the request
      it sent, if any. */
  datatype Sent = Sent(modal: Modal, request: Option<Request>)

  const NetworkIssue := "Network error or backend issue: "

  /** The modal a feature handler shows once its exchange is over. */
  function Outcome(reply: Reply, okText: string, errPrefix: string): (m: Modal)
    ensures m.open
    ensures m.tone == SuccessTone <==> reply.Ok?
    ensures m.tone == ErrorTone <==> !reply.Ok?
    ensures reply.Ok? ==> m.message == okText
    ensures reply.Thrown? ==> m.message == NetworkIssue + reply.message
    ensures reply.NotOk? && reply.data.JObj? && "message" !in reply.data.fields
            ==> m.message == errPrefix + reply.statusText
    ensures (&& reply.NotOk? && reply.data.JObj? && "message" in reply.data.fields
             && reply.data.fields["message"].JStr? && |reply.data.fields["message"].s| > 0)
            ==> m.message == errPrefix + reply.data.fields["message"].s
    ensures reply.NotOk? && MessageOr(reply.data, reply.statusText).Success? ==>
      m.message == errPrefix + MessageOr(reply.data, reply.statusText).value
    ensures reply.NotOk? && reply.data.JNull? ==>
      m.message == NetworkIssue + MessageOr(reply.data, reply.statusText).error
  {
    match reply
    case Ok(_) => ShowModal(okText, SuccessTone)
    case NotOk(data, statusText) =>
      (match MessageOr(data, statusText)
       case Success(t) => ShowModal(errPrefix + t, ErrorTone)
       case Failure(msg) => ShowModal(NetworkIssue + msg, ErrorTone))
    case Thrown(msg) => ShowModal(NetworkIssue + msg, ErrorTone)
  }

  /** A feature handler: without a user id it only asks the user to log in;
      otherwise it sends `request` and reports how the exchange went. */
  function Send(userId: Json, loginText: string, request: Request, reply: Reply, okText: string, errPrefix: string): (s: Sent)
    ensures s.request.Some? <==> JsTruthy(userId)
    ensures s.request.Some? ==> s.request.value == request
    ensures !JsTruthy(userId) ==> s.modal == ShowModal(loginText, ErrorTone)
    ensures JsTruthy(userId) ==> (s.modal.tone == SuccessTone <==> reply.Ok?)
  {
    if !JsTruthy(userId) then Sent(ShowModal(loginText, ErrorTone), None)
    else Sent(Outcome(reply, okText, errPrefix), Some(request))
  }

  /** `{ ...v }`: the own fields an object spreads (other values spread none). */
  function Spread(v: Json): (m: map<string, Json>)
    ensures v.JObj? ==> m == v.fields
    ensures !v.JObj? ==> m == map[]
  {
    if v.JObj? then v.fields else map[]
  }

  /** `{ userId, ...profile }`. */
  function ProfileBody(userId: Json, profile: Json): (b: Json)
    ensures b.JObj? && b.fields.Keys == {"userId"} + Spread(profile).Keys
  {
    JObj(map["userId" := userId] + Spread(profile))
  }

  /** The profile's own fields win: a `userId` kept in the profile replaces
      the signed-in user's id in the body sent. */
  lemma ProfileFieldsWin(userId: Json, profile: Json)
    ensures forall k :: k in Spread(profile) ==> ProfileBody(userId, profile).fields[k] == Spread(profile)[k]
    ensures "userId" !in Spread(profile) ==> ProfileBody(userId, profile).fields["userId"] == userId
  {
  }

  /** `{ ...profile, field: value }`: an edit of one profile input. */
  function EditProfile(profile: Json, field: string, value: string): (p: Json)
    ensures p.JObj? && p.fields == Spread(profile)[field := JStr(value)]
  {
    JObj(Spread(profile)[field := JStr(value)])
  }

  /** The leave request body: the user id and the form's fields. */
  function LeaveBody(userId: Json, form: LeaveForm, now: string): (b: Json)
    ensures b.JObj? && b.fields.Keys == {"userId"} + LeaveFields(form, now).Keys
    ensures b.fields["userId"] == userId && b.fields["status"] == JStr(PendingStatus)
  {
    JObj(map["userId" := userId] + LeaveFields(form, now))
  }

  /** The feedback body. */
  function FeedbackBody(userId: Json, text: Json, now: string): (b: Json)
    ensures b.JObj? && b.fields.Keys == {"userId", "feedback", "timestamp"}
    ensures b.fields["userId"] == userId && b.fields["feedback"] == text
  {
    JObj(map["userId" := userId] + FeedbackFields(text, now))
  }

  /** `documents/${userId}/${name}`: the storage key the page proposes. */
  function S3Key(userId: Json, name: string): (k: string)
    ensures |k| >= |"documents/"| && k[..|"documents/"|] == "documents/"
    ensures |k| >= |name| && k[|k| - |name|..] == name
  {
    "documents/" + JsText(userId) + "/" + name
  }

  /** The document metadata body: the file's fields, the user id and the
      proposed storage key. */
  function DocumentBody(userId: Json, file: FileChoice, docType: Json, now: string): (b: Json)
    ensures b.JObj? && b.fields.Keys == {"userId", "s3Key"} + DocumentFields(file, docType, now).Keys
    ensures b.fields["userId"] == userId && b.fields["s3Key"] == JStr(S3Key(userId, file.name))
  {
    JObj(map["userId" := userId, "s3Key" := JStr(S3Key(userId, file.name))] + DocumentFields(file, docType, now))
  }

  /** `handleSaveProfile`. */
  function SaveProfile(userId: Json, profile: Json, reply: Reply): (s: Sent)
    ensures s.request.Some? <==> JsTruthy(userId)
    ensures s.request.Some? ==> s.request.value == Post("/profile", ProfileBody(userId, profile))
    ensures !JsTruthy(userId) ==> s.modal == ShowModal("Please log in to save your profile.", ErrorTone)
    ensures JsTruthy(userId) && reply.Ok? ==> s.modal == ShowModal("Profile saved successfully!", SuccessTone)
  {
    Send(userId, "Please log in to save your profile.", Post("/profile", ProfileBody(userId, profile)), reply,
         "Profile saved successfully!", "Error saving profile: ")
  }

  /** `handleSubmitLeave`. */
  function SubmitLeave(userId: Json, form: LeaveForm, now: string, reply: Reply): (s: Sent)
    ensures s.request.Some? <==> JsTruthy(userId)
    ensures s.request.Some? ==> s.request.value == Post("/leaves", LeaveBody(userId, form, now))
    ensures !JsTruthy(userId) ==> s.modal == ShowModal("Please log in to submit a leave request.", ErrorTone)
    ensures JsTruthy(userId) && reply.Ok? ==> s.modal == ShowModal("Leave request submitted successfully!", SuccessTone)
  {
    Send(userId, "Please log in to submit a leave request.", Post("/leaves", LeaveBody(userId, form, now)), reply,
         "Leave request submitted successfully!", "Error submitting leave request: ")
  }

  /** `handleSubmitFeedback`. */
  function SubmitFeedback(userId: Json, text: Json, now: string, reply: Reply): (s: Sent)
    ensures s.request.Some? <==> JsTruthy(userId)
    ensures s.request.Some? ==> s.request.value == Post("/feedback", FeedbackBody(userId, text, now))
    ensures !JsTruthy(userId) ==> s.modal == ShowModal("Please log in to submit feedback.", ErrorTone)
    ensures JsTruthy(userId) && reply.Ok? ==> s.modal == ShowModal("Feedback submitted successfully!", SuccessTone)
  {
    Send(userId, "Please log in to submit feedback.", Post("/feedback", FeedbackBody(userId, text, now)), reply,
         "Feedback submitted successfully!", "Error submitting feedback: ")
  }

  const UploadLoginText := "Please log in to upload documents."
  const NoFileText := "Please select a file to upload."

  /** `handleUploadDocument`, given the metadata body each page builds and
      its success text: the user id is checked first, then the file. */
  function Upload(userId: Json, file: Option<FileChoice>, body: FileChoice -> Json, reply: Reply, okText: string): (s: Sent)
    ensures s.request.Some? <==> JsTruthy(userId) && FilePicked(file)
    ensures s.request.Some? ==> s.request.value == Post("/documents/upload", body(file.value))
    ensures !JsTruthy(userId) ==> s.modal == ShowModal(UploadLoginText, ErrorTone)
    ensures JsTruthy(userId) && !FilePicked(file) ==> s.modal == ShowModal(NoFileText, ErrorTone)
    ensures s.request.Some? && reply.Ok? ==> s.modal == ShowModal(okText, SuccessTone)
  {
    if !JsTruthy(userId) then Sent(ShowModal(UploadLoginText, ErrorTone), None)
    else if !FilePicked(file) then Sent(ShowModal(NoFileText, ErrorTone), None)
    else Send(userId, UploadLoginText, Post("/documents/upload", body(file.value)), reply, okText, "Error uploading document: ")
  }

  /** One outcome of the authentication calls: the ok answer's body, or the
      error notice (`message || fallback`, or the network text when the
      exchange or the read of `message` throws). */
  function AuthExchange(reply: Reply, fallback: string, networkText: string): (r: Result<Json, Notice>)
    ensures r.Success? <==> reply.Ok?
    ensures r.Success? ==> r.value == reply.data
    ensures r.Failure? ==> r.error.tone == ErrorTone
    ensures reply.Thrown? ==> r == Failure(Notice(networkText, ErrorTone))
    ensures reply.NotOk? && reply.data.JObj? && "message" !in reply.data.fields ==> r == Failure(Notice(fallback, ErrorTone))
  {
    match reply
    case Ok(data) => Success(data)
    case NotOk(data, _) =>
      (match MessageOr(data, fallback)
       case Success(t) => Failure(Notice(t, ErrorTone))
       case Failure(_) => Failure(Notice(networkText, ErrorTone)))
    case Thrown(_) => Failure(Notice(networkText, ErrorTone))
  }

  /** The four reads a signed-in page makes, in this order. */
  datatype Source = ProfileSource | LeavesSource | FeedbackSource | DocumentsSource

  const AllSources: seq<Source> := [ProfileSource, LeavesSource, FeedbackSource, DocumentsSource]

  /** `/profile?userId=…` and the others. */
  function SourceRequest(src: Source, userId: Json): (r: Request)
    ensures r.Get?
  {
    var q := "?userId=" + JsText(userId);
    match src
    case ProfileSource => Get("/profile" + q)
    case LeavesSource => Get("/leaves" + q)
    case FeedbackSource => Get("/feedback" + q)
    case DocumentsSource => Get("/documents" + q)
  }

  /** The requests a fetch sent for the sources it asked, in order. */
  function Reads(asked: seq<Source>, userId: Json): (r: seq<Request>)
    ensures |r| == |asked|
    ensures forall i :: 0 <= i < |asked| ==> r[i] == SourceRequest(asked[i], userId)
  {
    seq(|asked|, i requires 0 <= i < |asked| => SourceRequest(asked[i], userId))
  }

  /** The answer field a list source reads, and the date it is ordered by. */
  function ListField(src: Source): string {
    match src
    case ProfileSource => "profile"
    case LeavesSource => "leaves"
    case FeedbackSource => "feedback"
    case DocumentsSource => "documents"
  }

  function DateField(src: Source): string {
    match src
    case ProfileSource => ""
    case LeavesSource => "submittedAt"
    case FeedbackSource => "timestamp"
    case DocumentsSource => "uploadDate"
  }

  /** The part of the page's data a source fills in (a list as an array). */
  function Part(hr: HrData, src: Source): Json {
    match src
    case ProfileSource => hr.profile
    case LeavesSource => JArr(hr.leaves)
    case FeedbackSource => JArr(hr.feedbackList)
    case DocumentsSource => JArr(hr.documents)
  }

  /** The data with one part replaced. */
  function WithPart(hr: HrData, src: Source, v: Json): (hr': HrData)
    requires src != ProfileSource ==> v.JArr?
    ensures Part(hr', src) == v
    ensures forall other :: other != src ==> Part(hr', other) == Part(hr, other)
  {
    match src
    case ProfileSource => hr.(profile := v)
    case LeavesSource => hr.(leaves := v.items)
    case FeedbackSource => hr.(feedbackList := v.items)
    case DocumentsSource => hr.(documents := v.items)
  }

  /** What an ok answer from `src` sets its part to: the profile, or the
      empty profile when the answer has none; a list latest first, or `[]`.
      Reading a field of a `null` answer, sorting a non-array, or sorting a
      list with a `null` among two or more items throws. */
  function Received(src: Source, data: Json, date: DateKey): (r: Result<Json, string>)
    ensures r.Failure? <==>
      || data.JNull?
      || (src != ProfileSource && JsTruthyOpt(JsProp(data, ListField(src))) && !JsProp(data, ListField(src)).value.JArr?)
      || (&& src != ProfileSource && JsTruthyOpt(JsProp(data, ListField(src))) && JsProp(data, ListField(src)).value.JArr?
          && SortReadsNull(JsProp(data, ListField(src)).value.items))
    ensures r.Success? && src == ProfileSource ==>
      r.value == (if JsTruthyOpt(JsProp(data, "profile")) then JsProp(data, "profile").value else EmptyProfile)
    ensures r.Success? && src != ProfileSource ==> r.value.JArr?
  {
    if src == ProfileSource then
      var p :- ReadProp(data, "profile");
      Success(if JsTruthyOpt(p) then p.value else EmptyProfile)
    else
      var items :- ListFrom(data, ListField(src), DateField(src), date);
      Success(JArr(items))
  }

  /** A list an answer fills in holds the answer's items, latest first. */
  lemma ReceivedListIsSorted(src: Source, data: Json, date: DateKey)
    requires src != ProfileSource && Received(src, data, date).Success?
    ensures var items := Received(src, data, date).value.items;
      && NonIncreasingDates(items, DateField(src), date)
      && (JsTruthyOpt(JsProp(data, ListField(src))) ==> multiset(items) == multiset(JsProp(data, ListField(src)).value.items))
      && (!JsTruthyOpt(JsProp(data, ListField(src))) ==> items == [])
  {
  }

  /** Items ordered latest first by their `field` date. */
  ghost predicate NonIncreasingDates(items: seq<Json>, field: string, date: DateKey) {
    forall i, j :: 0 <= i < j < |items| ==> date(JsProp(items[i], field)) >= date(JsProp(items[j], field))
  }

  /** The reply for `src` stops the fetch: it threw, or its answer could not be used. */
  ghost predicate Breaks(replies: Source -> Reply, date: DateKey, src: Source) {
    replies(src).Thrown? || (replies(src).Ok? && Received(src, replies(src).data, date).Failure?)
  }

  /** How far a fetch went: the sources asked (in order), those whose
      answers were not ok, those whose answers were applied, and whether it
      ended by throwing. */
  datatype Fetch = Fetch(hr: HrData, asked: seq<Source>, failed: seq<Source>, updated: seq<Source>, thrown: bool)

  /** What a fetch over `sources` that started from `hr` did: it asked a
      prefix of the sources, all of them unless it threw, and it threw
      exactly at the first source whose reply breaks it; the failed and
      updated sources are those asked with a non-ok and a usable ok answer;
      exactly the updated parts changed, each to what its answer says. */
  ghost predicate FetchSpec(hr: HrData, sources: seq<Source>, replies: Source -> Reply, date: DateKey, f: Fetch) {
    && |f.asked| <= |sources| && f.asked == sources[..|f.asked|]
    && (f.thrown <==> exists src :: src in f.asked && Breaks(replies, date, src))
    && (!f.thrown ==> f.asked == sources)
    && (f.thrown ==> |f.asked| > 0 && Breaks(replies, date, f.asked[|f.asked| - 1]))
    && (forall src :: src in f.failed <==> src in f.asked && replies(src).NotOk?)
    && (forall src :: src in f.updated <==> src in f.asked && replies(src).Ok? && !Breaks(replies, date, src))
    && (forall src :: src !in f.updated ==> Part(f.hr, src) == Part(hr, src))
    && (forall src :: src in f.updated ==> Received(src, replies(src).data, date) == Success(Part(f.hr, src)))
    && (|f.failed| > 0 ==> f.failed[|f.failed| - 1] in f.asked)
  }

  /** The body of `fetchUserData`'s `try`: each source in turn; an ok answer
      sets its part, a non-ok one is passed over, and a throw ends the
      fetch with the parts set so far. */
  function FetchFrom(hr: HrData, sources: seq<Source>, replies: Source -> Reply, date: DateKey): (f: Fetch)
    ensures FetchSpec(hr, sources, replies, date, f)
    decreases |sources|
  {
    if |sources| == 0 then Fetch(hr, [], [], [], false)
    else
      var src := sources[0];
      match replies(src)
      case Thrown(_) =>
        assert Breaks(replies, date, src);
        Fetch(hr, [src], [], [], true)
      case NotOk(_, _) =>
        var rest := FetchFrom(hr, sources[1..], replies, date);
        FetchAfterNotOk(hr, sources, replies, date, rest);
        FetchAfter(src, rest, [src], [])
      case Ok(data) =>
        match Received(src, data, date)
        case Failure(_) =>
          assert Breaks(replies, date, src);
          Fetch(hr, [src], [], [], true)
        case Success(v) =>
          var rest := FetchFrom(WithPart(hr, src, v), sources[1..], replies, date);
          FetchAfterOk(hr, sources, replies, date, v, rest);
          FetchAfter(src, rest, [], [src])
  }

  /** A fetch over some sources asks at least the first. */
  lemma FetchAsksFirst(hr: HrData, sources: seq<Source>, replies: Source -> Reply, date: DateKey)
    requires |sources| > 0
    ensures
      var f := FetchFrom(hr, sources, replies, date);
      1 <= |f.asked| <= |sources| && f.asked[0] == sources[0]
  {
    var f := FetchFrom(hr, sources, replies, date);
    assert f.asked == sources[..|f.asked|];
  }

  /** Passing over a non-ok first source keeps the fetch's account. */
  lemma FetchAfterNotOk(hr: HrData, sources: seq<Source>, replies: Source -> Reply, date: DateKey, rest: Fetch)
    requires |sources| > 0 && replies(sources[0]).NotOk?
    requires FetchSpec(hr, sources[1..], replies, date, rest)
    ensures FetchSpec(hr, sources, replies, date, FetchAfter(sources[0], rest, [sources[0]], []))
  {
    var f := FetchAfter(sources[0], rest, [sources[0]], []);
    assert f.asked == sources[..|f.asked|] by {
      assert sources == [sources[0]] + sources[1..];
    }
    assert !Breaks(replies, date, sources[0]);
  }

  /** Applying a usable ok first source keeps the fetch's account. */
  lemma FetchAfterOk(hr: HrData, sources: seq<Source>, replies: Source -> Reply, date: DateKey, v: Json, rest: Fetch)
    requires |sources| > 0 && replies(sources[0]).Ok?
    requires Received(sources[0], replies(sources[0]).data, date) == Success(v)
    requires FetchSpec(WithPart(hr, sources[0], v), sources[1..], replies, date, rest)
    ensures FetchSpec(hr, sources, replies, date, FetchAfter(sources[0], rest, [], [sources[0]]))
  {
    var f := FetchAfter(sources[0], rest, [], [sources[0]]);
    assert f.asked == sources[..|f.asked|] by {
      assert sources == [sources[0]] + sources[1..];
    }
    assert !Breaks(replies, date, sources[0]);
  }

  /** `rest` with one more source asked before it. */
  function FetchAfter(src: Source, rest: Fetch, failed: seq<Source>, updated: seq<Source>): (f: Fetch)
    ensures f.asked == [src] + rest.asked
    ensures f.failed == failed + rest.failed && f.updated == updated + rest.updated
    ensures f.hr == rest.hr && f.thrown == rest.thrown
  {
    Fetch(rest.hr, [src] + rest.asked, failed + rest.failed, updated + rest.updated, rest.thrown)
  }

  /** When every answer is ok and usable, the fetch asks all four sources
      and every part ends as its answer says. */
  lemma FetchAllOk(hr: HrData, replies: Source -> Reply, date: DateKey)
    requires forall src :: replies(src).Ok? && Received(src, replies(src).data, date).Success?
    ensures var f := FetchFrom(hr, AllSources, replies, date);
      && !f.thrown && f.asked == AllSources && f.failed == []
      && forall src :: Part(f.hr, src) == Received(src, replies(src).data, date).value
  {
    var f := FetchFrom(hr, AllSources, replies, date);
    NoBreakNoThrow(f, replies, date);
    forall src | true
      ensures Part(f.hr, src) == Received(src, replies(src).data, date).value
    {
      AllOkUpdates(hr, replies, date, src);
    }
  }

  lemma AllOkUpdates(hr: HrData, replies: Source -> Reply, date: DateKey, src: Source)
    requires forall src :: replies(src).Ok? && Received(src, replies(src).data, date).Success?
    ensures src in FetchFrom(hr, AllSources, replies, date).updated
  {
    var f := FetchFrom(hr, AllSources, replies, date);
    NoBreakNoThrow(f, replies, date);
    assert src in AllSources;
    assert !Breaks(replies, date, src);
  }

  /** When no answer is ok, the fetch asks all four sources and changes nothing. */
  lemma FetchAllNotOk(hr: HrData, replies: Source -> Reply, date: DateKey)
    requires forall src :: replies(src).NotOk?
    ensures var f := FetchFrom(hr, AllSources, replies, date);
      !f.thrown && f.asked == AllSources && f.hr == hr
  {
    var f := FetchFrom(hr, AllSources, replies, date);
    NoOkNoThrow(f, replies, date);
    forall src | true
      ensures Part(f.hr, src) == Part(hr, src)
    {
      NotOkNotUpdated(hr, replies, date, src);
    }
    SameParts(f.hr, hr);
  }

  lemma NoOkNoThrow(f: Fetch, replies: Source -> Reply, date: DateKey)
    requires f.thrown <==> exists src :: src in f.asked && Breaks(replies, date, src)
    requires forall src :: replies(src).NotOk?
    ensures !f.thrown
  {
  }

  lemma NotOkNotUpdated(hr: HrData, replies: Source -> Reply, date: DateKey, src: Source)
    requires replies(src).NotOk?
    ensures src !in FetchFrom(hr, AllSources, replies, date).updated
  {
  }

  /** Data is determined by its four parts. */
  lemma SameParts(a: HrData, b: HrData)
    requires forall src :: Part(a, src) == Part(b, src)
    ensures a == b
  {
    assert Part(a, ProfileSource) == Part(b, ProfileSource);
    assert Part(a, LeavesSource) == Part(b, LeavesSource);
    assert Part(a, FeedbackSource) == Part(b, FeedbackSource);
    assert Part(a, DocumentsSource) == Part(b, DocumentsSource);
  }

  lemma NoBreakNoThrow(f: Fetch, replies: Source -> Reply, date: DateKey)
    requires f.thrown <==> exists src :: src in f.asked && Breaks(replies, date, src)
    requires forall src :: replies(src).Ok? && Received(src, replies(src).data, date).Success?
    ensures !f.thrown
  {
  }

  /** A throw at the first source sends no other request and changes nothing. */
  lemma FetchStopsAtThrow(hr: HrData, replies: Source -> Reply, date: DateKey)
    requires replies(ProfileSource).Thrown?
    ensures FetchFrom(hr, AllSources, replies, date) == Fetch(hr, [ProfileSource], [], [], true)
  {
  }
}

=== FILE: rest_portal.dfy ===
/** `frontend.js`: the earlier version of the REST page. It has no account
    verification step and no password rule, reports failed reads only when
    a read throws, and sends no download link with document metadata.
    Handlers are modelled as in `CognitoPortal`. */
module RestPortal {

  import opened Wrappers
  import opened Json
  import opened Ui
  import opened RestClient

  const ApiBase := "https://your-api-gateway-id.execute-api.your-region.amazonaws.com/prod"

  /** The page's state (`activeSection`, the scroll position and the DOM
      are not modelled). */
  datatype State = State(
    userId: Json,
    isLoggedIn: bool,
    showSignup: bool,
    loading: bool,
    authLoading: bool,
    loginEmail: string,
    loginPassword: string,
    signupEmail: string,
    signupPassword: string,
    confirmPassword: string,
    authMessage: Notice,
    modal: Modal,
    hr: HrData)

  const Initial := State(JNull, false, false, true, false, "", "", "", "", "", NoNotice, ClosedModal, EmptyHr)

  /** A handler's result: the state after it and the requests it sent, in order. */
  datatype Step = Step(state: State, sent: seq<Request>)

  const LoginOkText := "Login successful!"
  const LoginFailedText := "Login failed. Please check your credentials."
  const NetworkRetryText := "Network error or backend issue. Please try again."
  const MismatchText := "Passwords do not match."
  const SignupOkText := "Account created successfully! Please login."
  const SignupFailedText := "Signup failed. Please try again."
  const LoggedOutText := "You have been logged out."
  const FetchThrownText := "Failed to load your HR data. Please try again later."
  const UploadOkText := "Document metadata saved successfully! (File would be uploaded to S3)"

  /** `handleLogin`: as on the newer page. */
  function Login(s: State, reply: Reply): (t: Step)
    ensures t.sent == [Post("/auth/login", JObj(map["email" := JStr(s.loginEmail), "password" := JStr(s.loginPassword)]))]
    ensures !t.state.authLoading
    ensures t.state.isLoggedIn <==> s.isLoggedIn || (reply.Ok? && !reply.data.JNull?)
    ensures reply.Ok? && reply.data.JObj? ==>
      && t.state.userId == (if "userId" in reply.data.fields then reply.data.fields["userId"] else JNull)
      && t.state.authMessage == Notice(LoginOkText, SuccessTone)
    ensures !(reply.Ok? && !reply.data.JNull?) ==>
      && t.state == s.(authLoading := false, authMessage := t.state.authMessage)
      && t.state.authMessage.tone == ErrorTone
  {
    var s0 := s.(authMessage := NoNotice, authLoading := false);
    var request := Post("/auth/login", JObj(map["email" := JStr(s.loginEmail), "password" := JStr(s.loginPassword)]));
    match AuthExchange(reply, LoginFailedText, NetworkRetryText)
    case Failure(n) => Step(s0.(authMessage := n), [request])
    case Success(data) =>
      match ReadProp(data, "userId")
      case Failure(_) => Step(s0.(authMessage := Notice(NetworkRetryText, ErrorTone)), [request])
      case Success(u) =>
        Step(s0.(userId := if u.Some? then u.value else JNull, isLoggedIn := true,
                 authMessage := Notice(LoginOkText, SuccessTone)), [request])
  }

  /** `handleSignup`: only the two passwords are compared before the
      request goes out; an ok answer returns to the login form with the new
      address filled in (the sign-up inputs are kept). */
  function Signup(s: State, reply: Reply): (t: Step)
    ensures !t.state.authLoading
    ensures s.signupPassword != s.confirmPassword ==>
      t == Step(s.(authLoading := false, authMessage := Notice(MismatchText, ErrorTone)), [])
    ensures s.signupPassword == s.confirmPassword ==>
      t.sent == [Post("/auth/signup", JObj(map["email" := JStr(s.signupEmail), "password" := JStr(s.signupPassword)]))]
    ensures s.signupPassword == s.confirmPassword && reply.Ok? ==>
      t.state == s.(authLoading := false, authMessage := Notice(SignupOkText, SuccessTone),
                    showSignup := false, loginEmail := s.signupEmail)
    ensures !reply.Ok? ==> t.state == s.(authLoading := false, authMessage := t.state.authMessage)
  {
    var s0 := s.(authMessage := NoNotice, authLoading := false);
    if s.signupPassword != s.confirmPassword then
      Step(s0.(authMessage := Notice(MismatchText, ErrorTone)), [])
    else
      var request := Post("/auth/signup", JObj(map["email" := JStr(s.signupEmail), "password" := JStr(s.signupPassword)]));
      match AuthExchange(reply, SignupFailedText, NetworkRetryText)
      case Failure(n) => Step(s0.(authMessage := n), [request])
      case Success(_) =>
        Step(s0.(authMessage := Notice(SignupOkText, SuccessTone), showSignup := false, loginEmail := s.signupEmail),
             [request])
  }

  /** This page sends a password the newer page's rule refuses. */
  lemma WeakPasswordSent(s: State, reply: Reply)
    requires s.signupPassword == "password" && s.confirmPassword == "password"
    ensures |Signup(s, reply).sent| == 1
    ensures !PasswordPolicy(s.signupPassword)
  {
  }

  /** `handleLogout`: signs out and forgets the inputs and the HR data. */
  function Logout(s: State): (t: State)
    ensures !t.isLoggedIn && t.userId == JNull && t.hr == EmptyHr
    ensures t.loginEmail == "" && t.loginPassword == "" && t.signupEmail == "" && t.signupPassword == "" && t.confirmPassword == ""
    ensures t.modal == ShowModal(LoggedOutText, InfoTone) && t.authMessage == NoNotice && !t.authLoading
    ensures t.showSignup == s.showSignup && t.loading == s.loading
  {
    s.(authLoading := false, userId := JNull, isLoggedIn := false,
       loginEmail := "", loginPassword := "", signupEmail := "", signupPassword := "", confirmPassword := "",
       hr := EmptyHr, modal := ShowModal(LoggedOutText, InfoTone), authMessage := NoNotice)
  }

  /** A feature handler's effect on the page: only the modal changes. */
  function Apply(s: State, sent: Sent): (t: Step)
    ensures t.state == s.(modal := sent.modal)
    ensures t.sent == (if sent.request.Some? then [sent.request.value] else [])
  {
    Step(s.(modal := sent.modal), if sent.request.Some? then [sent.request.value] else [])
  }

  function HandleSaveProfile(s: State, reply: Reply): (t: Step)
    ensures t == Apply(s, SaveProfile(s.userId, s.hr.profile, reply))
    ensures |t.sent| == 1 <==> JsTruthy(s.userId)
  {
    Apply(s, SaveProfile(s.userId, s.hr.profile, reply))
  }

  function HandleSubmitLeave(s: State, form: LeaveForm, now: string, reply: Reply): (t: Step)
    ensures t == Apply(s, SubmitLeave(s.userId, form, now, reply))
    ensures |t.sent| == 1 <==> JsTruthy(s.userId)
  {
    Apply(s, SubmitLeave(s.userId, form, now, reply))
  }

  function HandleSubmitFeedback(s: State, text: Json, now: string, reply: Reply): (t: Step)
    ensures t == Apply(s, SubmitFeedback(s.userId, text, now, reply))
    ensures |t.sent| == 1 <==> JsTruthy(s.userId)
  {
    Apply(s, SubmitFeedback(s.userId, text, now, reply))
  }

  /** The metadata this page sends: the shared body, without a download link. */
  function UploadBody(userId: Json, docType: Json, now: string): (body: FileChoice -> Json)
    ensures forall file :: body(file) == DocumentBody(userId, file, docType, now)
    ensures forall file :: body(file).JObj? && "downloadUrl" !in body(file).fields
  {
    (file: FileChoice) => DocumentBody(userId, file, docType, now)
  }

  function HandleUploadDocument(s: State, file: Option<FileChoice>, docType: Json, now: string, reply: Reply): (t: Step)
    ensures t == Apply(s, Upload(s.userId, file, UploadBody(s.userId, docType, now), reply, UploadOkText))
    ensures |t.sent| == 1 <==> JsTruthy(s.userId) && FilePicked(file)
  {
    Apply(s, Upload(s.userId, file, UploadBody(s.userId, docType, now), reply, UploadOkText))
  }

  /** `fetchUserData`: the same four reads; a non-ok answer is only logged,
      and a throw ends the reads and shows one message. */
  function FetchUserData(s: State, replies: Source -> Reply, date: DateKey): (t: Step)
    ensures !s.isLoggedIn || !JsTruthy(s.userId) ==> t == Step(s, [])
    ensures s.isLoggedIn && JsTruthy(s.userId) ==>
      && var f := FetchFrom(s.hr, AllSources, replies, date);
      && t.state == s.(hr := f.hr, modal := t.state.modal, loading := false)
      && t.sent == Reads(f.asked, s.userId) && 1 <= |t.sent| <= 4
      && (f.thrown ==> t.state.modal == ShowModal(FetchThrownText, ErrorTone))
      && (!f.thrown ==> t.state.modal == s.modal)
  {
    if !s.isLoggedIn || !JsTruthy(s.userId) then Step(s, [])
    else
      var f := FetchFrom(s.hr, AllSources, replies, date);
      var modal := if f.thrown then ShowModal(FetchThrownText, ErrorTone) else s.modal;
      Step(s.(hr := f.hr, modal := modal, loading := false), Reads(f.asked, s.userId))
  }

  /** Answers that are all non-ok leave the page's data and modal as they
      were: the user is not told. */
  lemma NotOkIsSilent(s: State, replies: Source -> Reply, date: DateKey)
    requires s.isLoggedIn && JsTruthy(s.userId)
    requires forall src :: replies(src).NotOk?
    ensures FetchUserData(s, replies, date).state == s.(loading := false)
    ensures FetchUserData(s, replies, date).sent == Reads(AllSources, s.userId)
  {
    FetchAllNotOk(s.hr, replies, date);
  }

  /** The "Sign Up" link under the login form ("Don't have an account?"). */
  function ShowSignupLink(s: State): (t: State)
    ensures t == s.(showSignup := true, authMessage := NoNotice)
  {
    s.(showSignup := true, authMessage := NoNotice)
  }

  /** The "Login" link under the sign-up form ("Already have an account?"). */
  function ShowLoginLink(s: State): (t: State)
    ensures t == s.(showSignup := false, authMessage := NoNotice)
  {
    s.(showSignup := false, authMessage := NoNotice)
  }

  datatype Screen = Spinner | LoginScreen | SignupScreen | PortalScreen

  /** What the page shows: the spinner while loading before sign-in, one of
      the two forms when signed out, the portal when signed in. */
  function ScreenOf(s: State): (v: Screen)
    ensures v.Spinner? <==> s.loading && !s.isLoggedIn
    ensures v.PortalScreen? <==> s.isLoggedIn
    ensures v.SignupScreen? <==> !s.loading && !s.isLoggedIn && s.showSignup
  {
    if s.loading && !s.isLoggedIn then Spinner
    else if s.isLoggedIn then PortalScreen
    else if s.showSignup then SignupScreen
    else LoginScreen
  }

  /** A successful sign-up lands on the login form with the address filled in. */
  lemma SignupThenLogin(s: State, reply: Reply)
    requires !s.loading && !s.isLoggedIn && s.signupPassword == s.confirmPassword && reply.Ok?
    ensures ScreenOf(Signup(s, reply).state) == LoginScreen
    ensures Signup(s, reply).state.loginEmail == s.signupEmail
  {
  }
}

=== FILE: sorting.dfy ===
/** The web clients' "newest first" ordering of fetched lists
    (`list.sort((a, b) => key(b) - key(a))`), with the date read from each
    record abstracted as an integer rank. */
module Sorting {

  /** `xs` never increases in `key` from left to right. */
  ghost predicate NonIncreasing<T>(xs: seq<T>, key: T -> int) {
    forall i, j :: 0 <= i < j < |xs| ==> key(xs[i]) >= key(xs[j])
  }

  /** No element of `xs` has a key above `bound`. */
  ghost predicate AtMost<T>(xs: seq<T>, key: T -> int, bound: int) {
    forall i :: 0 <= i < |xs| ==> key(xs[i]) <= bound
  }

  /** Places `x` into an already ordered list, in front of every element whose
      key is not larger. */
  function Insert<T>(x: T, xs: seq<T>, key: T -> int): (r: seq<T>)
    requires NonIncreasing(xs, key)
    ensures NonIncreasing(r, key)
    ensures multiset(r) == multiset(xs) + multiset{x}
    ensures forall b :: AtMost(xs, key, b) && key(x) <= b ==> AtMost(r, key, b)
    decreases |xs|
  {
    if |xs| == 0 then [x]
    else if key(x) >= key(xs[0]) then [x] + xs
    else
      var rest := Insert(x, xs[1..], key);
      assert xs == [xs[0]] + xs[1..];
      assert AtMost(xs[1..], key, key(xs[0]));
      assert AtMost(rest, key, key(xs[0]));
      [xs[0]] + rest
  }

  /** Orders `xs` by non-increasing `key`, keeping every element. */
  function SortDescending<T>(xs: seq<T>, key: T -> int): (r: seq<T>)
    ensures NonIncreasing(r, key)
    ensures multiset(r) == multiset(xs)
    decreases |xs|
  {
    if |xs| == 0 then []
    else
      assert xs == [xs[0]] + xs[1..];
      Insert(xs[0], SortDescending(xs[1..], key), key)
  }
}

=== FILE: ui.dfy ===
/** What the three single-page front-ends share: message and modal state,
    the empty profile, the JavaScript readings of values (`${v}`, `a.b`,
    `a || b`), date-ordered lists, the sign-up password checks and the
    form records the submit handlers build. */
module Ui {

  import opened Wrappers
  import opened Json
  import opened Decimal
  import opened Sorting

  /** A message's kind: `''`, `'info'`, `'success'` or `'error'`. */
  datatype Tone = Unset | InfoTone | SuccessTone | ErrorTone

  /** The message shown on the authentication forms. */
  datatype Notice = Notice(text: string, tone: Tone)

  /** `{ text: '', type: '' }`. */
  const NoNotice := Notice("", Unset)

  /** The modal dialog: whether it is open, its message and its kind. */
  datatype Modal = Modal(open: bool, message: string, tone: Tone)

  /** The modal as the page starts (and as `closeModal` leaves it). */
  const ClosedModal := Modal(false, "", InfoTone)

  /** `showModal(message, tone)`. */
  function ShowModal(message: string, tone: Tone): (m: Modal)
    ensures m.open && m.message == message && m.tone == tone
  {
    Modal(true, message, tone)
  }

  /** `{ empId: '', name: '', email: '', department: '' }`. */
  const EmptyProfile: Json :=
    JObj(map["empId" := JStr(""), "name" := JStr(""), "email" := JStr(""), "department" := JStr("")])

  /** The four collections every front-end keeps for the signed-in user. */
  datatype HrData = HrData(profile: Json, leaves: seq<Json>, feedbackList: seq<Json>, documents: seq<Json>)

  const EmptyHr := HrData(EmptyProfile, [], [], [])

  /** `${v}`: the text a template literal puts in for a value. */
  function JsText(v: Json): string {
    match v
    case JNull => "null"
    case JBool(b) => if b then "true" else "false"
    case JNum(n) => ShowInt(n)
    case JStr(s) => s
    case JArr(items) => JoinText(items)
    case JObj(_) => "[object Object]"
  }

  /** `items.join(',')`: `null` elements become empty. */
  function JoinText(items: seq<Json>): string {
    if |items| == 0 then ""
    else
      var head := if items[0].JNull? then "" else JsText(items[0]);
      if |items| == 1 then head else head + "," + JoinText(items[1..])
  }

  /** `TypeError` text for a property read on `null`. */
  function NullRead(k: string): string {
    "Cannot read properties of null (reading '" + k + "')"
  }

  /** `v.k`: the property (absent gives `undefined`), or a `TypeError` on `null`. */
  function ReadProp(v: Json, k: string): (r: Result<Option<Json>, string>)
    ensures r.Failure? <==> v.JNull?
    ensures v.JObj? ==> r == Success(if k in v.fields then Some(v.fields[k]) else None)
    ensures r.Success? && !v.JObj? ==> r.value.None?
  {
    if v.JNull? then Failure(NullRead(k)) else Success(JsProp(v, k))
  }

  /** `data.message || fallback` as shown text (a `TypeError` on `null`). */
  function MessageOr(data: Json, fallback: string): (r: Result<string, string>)
    ensures r.Failure? <==> data.JNull?
    ensures data.JObj? && "message" in data.fields && data.fields["message"].JStr? && |data.fields["message"].s| > 0
            ==> r == Success(data.fields["message"].s)
    ensures data.JObj? && "message" !in data.fields ==> r == Success(fallback)
  {
    var m :- ReadProp(data, "message");
    if JsTruthyOpt(m) then Success(JsText(m.value)) else Success(fallback)
  }

  /** `new Date(v)` as a comparable timestamp, for a property value `v`
      (`None` for `undefined`). Invalid dates are not modelled. */
  type DateKey = Option<Json> -> int

  /** The sort key `item => new Date(item[field])`. */
  function DateOrder(field: string, date: DateKey): (key: Json -> int)
    ensures forall x :: key(x) == date(JsProp(x, field))
  {
    (x: Json) => date(JsProp(x, field))
  }

  /** `items.sort((a, b) => new Date(b[field]) - new Date(a[field]))`: the
      same items, latest first. */
  function SortByDate(items: seq<Json>, field: string, date: DateKey): (r: seq<Json>)
    ensures NonIncreasing(r, DateOrder(field, date))
    ensures multiset(r) == multiset(items)
    ensures |r| == |items|
  {
    var r := SortDescending(items, DateOrder(field, date));
    assert |r| == |multiset(r)| == |multiset(items)| == |items|;
    r
  }

  /** The sort's comparator reads a field of a `null` element: a sort of
      two or more items compares every item at least once, and reading
      `b[field]` or `a[field]` on `null` throws. */
  predicate SortReadsNull(items: seq<Json>) {
    |items| >= 2 && exists i :: 0 <= i < |items| && items[i].JNull?
  }

  /** `data[field] ? data[field].sort(latest first) : []`: a missing or
      falsy list gives `[]`; a truthy value that is not an array has no
      `sort` and throws; `null` data throws, and so does sorting a list that
      holds `null` among two or more items. */
  function ListFrom(data: Json, field: string, dateField: string, date: DateKey): (r: Result<seq<Json>, string>)
    ensures r.Failure? <==>
      || data.JNull?
      || (JsTruthyOpt(JsProp(data, field)) && !JsProp(data, field).value.JArr?)
      || (JsTruthyOpt(JsProp(data, field)) && JsProp(data, field).value.JArr? && SortReadsNull(JsProp(data, field).value.items))
    ensures r.Success? && !JsTruthyOpt(JsProp(data, field)) ==> r.value == []
    ensures r.Success? && JsTruthyOpt(JsProp(data, field)) ==>
      && NonIncreasing(r.value, DateOrder(dateField, date))
      && multiset(r.value) == multiset(JsProp(data, field).value.items)
  {
    var v :- ReadProp(data, field);
    if !JsTruthyOpt(v) then Success([])
    else if !v.value.JArr? then Failure("data." + field + ".sort is not a function")
    else if SortReadsNull(v.value.items) then Failure("Cannot read properties of null (reading '" + dateField + "')")
    else Success(SortByDate(v.value.items, dateField, date))
  }

  /** Some character of `s` satisfies `ok` (a regular-expression class test). */
  predicate Contains(s: string, ok: char -> bool) {
    |s| > 0 && (ok(s[0]) || Contains(s[1..], ok))
  }

  /** `Contains` means what it says: some position holds such a character. */
  lemma {:induction false} ContainsMeansSomePosition(s: string, ok: char -> bool)
    ensures Contains(s, ok) <==> exists i :: 0 <= i < |s| && ok(s[i])
    decreases |s|
  {
    if |s| > 0 {
      ContainsMeansSomePosition(s[1..], ok);
      if exists i :: 0 <= i < |s| && ok(s[i]) {
        var i :| 0 <= i < |s| && ok(s[i]);
        if i > 0 {
          assert s[1..][i - 1] == s[i];
        }
      }
      if exists i :: 0 <= i < |s[1..]| && ok(s[1..][i]) {
        var i :| 0 <= i < |s[1..]| && ok(s[1..][i]);
        assert s[i + 1] == s[1..][i];
      }
    }
  }

  predicate IsAsciiDigit(c: char) { '0' <= c <= '9' }
  predicate IsAsciiLower(c: char) { 'a' <= c <= 'z' }
  predicate IsAsciiUpper(c: char) { 'A' <= c <= 'Z' }
  predicate IsPolicySymbol(c: char) { c in "!@#$%^&*()" }

  /** The sign-up password rule: at least 8 characters, with a digit, a
      lower-case letter, an upper-case letter and one of `!@#$%^&*()`. */
  predicate PasswordPolicy(p: string) {
    && |p| >= 8
    && Contains(p, IsAsciiDigit)
    && Contains(p, IsAsciiLower)
    && Contains(p, IsAsciiUpper)
    && Contains(p, IsPolicySymbol)
  }

  /** The rule accepts a password exactly when it is long enough and each
      of the four classes occurs at some position. */
  lemma PasswordPolicyByPositions(p: string)
    ensures PasswordPolicy(p) <==>
      && |p| >= 8
      && (exists i :: 0 <= i < |p| && IsAsciiDigit(p[i]))
      && (exists i :: 0 <= i < |p| && IsAsciiLower(p[i]))
      && (exists i :: 0 <= i < |p| && IsAsciiUpper(p[i]))
      && (exists i :: 0 <= i < |p| && IsPolicySymbol(p[i]))
  {
    ContainsMeansSomePosition(p, IsAsciiDigit);
    ContainsMeansSomePosition(p, IsAsciiLower);
    ContainsMeansSomePosition(p, IsAsciiUpper);
    ContainsMeansSomePosition(p, IsPolicySymbol);
  }

  /** A password with every class passes the rule. */
  lemma PasswordPolicyAccepts()
    ensures PasswordPolicy("Passw0rd!")
  {
    var p := "Passw0rd!";
    assert IsAsciiDigit(p[5]) && IsAsciiLower(p[1]) && IsAsciiUpper(p[0]) && IsPolicySymbol(p[8]);
    PasswordPolicyByPositions(p);
  }

  /** A long password without an upper-case letter fails it, and so does
      a short one with every class. */
  lemma PasswordPolicyRejects()
    ensures !PasswordPolicy("password1!")
    ensures !PasswordPolicy("Pa0!")
  {
    var p := "password1!";
    assert forall i | 0 <= i < |p| :: !IsAsciiUpper(p[i]);
    ContainsMeansSomePosition(p, IsAsciiUpper);
  }

  /** A file picked in an upload form: its name and size in bytes. */
  datatype FileChoice = FileChoice(name: string, size: int)

  /** `!docFile || docFile.name === ''` is false: a named file was picked. */
  predicate FilePicked(file: Option<FileChoice>) {
    file.Some? && file.value.name != ""
  }

  /** The leave form's fields (`formData.get(..)`: a string, or `null` when absent). */
  datatype LeaveForm = LeaveForm(leaveType: Json, startDate: Json, endDate: Json, reason: Json)

  const PendingStatus := "Pending"

  /** A new leave request's fields; its status is always "Pending" and it
      is stamped with the current time `now`. */
  function LeaveFields(form: LeaveForm, now: string): (m: map<string, Json>)
    ensures m.Keys == {"leaveType", "startDate", "endDate", "reason", "status", "submittedAt"}
    ensures m["status"] == JStr(PendingStatus) && m["submittedAt"] == JStr(now)
  {
    map["leaveType" := form.leaveType, "startDate" := form.startDate, "endDate" := form.endDate,
        "reason" := form.reason, "status" := JStr(PendingStatus), "submittedAt" := JStr(now)]
  }

  /** A new feedback entry's fields, stamped with `now`. */
  function FeedbackFields(text: Json, now: string): (m: map<string, Json>)
    ensures m.Keys == {"feedback", "timestamp"} && m["feedback"] == text && m["timestamp"] == JStr(now)
  {
    map["feedback" := text, "timestamp" := JStr(now)]
  }

  /** A new document's metadata fields, from a picked file. */
  function DocumentFields(file: FileChoice, docType: Json, now: string): (m: map<string, Json>)
    ensures m.Keys == {"fileName", "fileSize", "fileType", "uploadDate"}
    ensures m["fileName"] == JStr(file.name) && m["fileSize"] == JNum(file.size)
  {
    map["fileName" := JStr(file.name), "fileSize" := JNum(file.size), "fileType" := docType, "uploadDate" := JStr(now)]
  }
}

=== FILE: wrappers.dfy ===
/** Failure-compatible wrappers shared by every module of the model. */
module Wrappers {

  /** An optional value: JavaScript `null`/`undefined` or a Python `None` on the client side. */
  datatype Option<+T> = None | Some(value: T)

  /** A computation that either produced a value or raised an error of type `E`. */
  datatype Result<+R, +E> = Success(value: R) | Failure(error: E) {
    predicate IsFailure() {
      Failure?
    }

    function PropagateFailure<U>(): Result<U, E>
      requires Failure?
    {
      Failure(error)
    }

    function Extract(): R
      requires Success?
    {
      value
    }
  }
}
